=== FILE: README.md ===
# Memory-pressure migration controller, modelled in Dafny

The controller watches the memory of the nodes of a Kubernetes cluster and
decides which pods (long-running jobs) to relocate before a node runs out of
memory. One tick of the decision engine runs as follows.

- A **request policy** (threshold or slope) names the critical nodes. For
  each one it computes how many GB must be freed.
- A **migration policy** picks pods on that node whose relocation covers
  the request. There are four: max pod, smallest big-enough pod, optimal
  knapsack, and slope-based. The slope-based policy queues the growing pods
  in a priority queue meant to hand out the steepest first; as written, the
  queue is never put in heap order (see Findings).
- The request policy **validates** each picked pod against the least-used
  other node, keeping a 5 % margin above the threshold.
- A **migration checker** records each admitted relocation and its predicted
  finish time. It serialises relocations and, in its blocking flavour,
  refuses new ones until a back-off has passed.

The model covers the cluster arithmetic, the brute-force knapsack, both
checkers, the filtered metrics client, the request policies and the
destination validator, the four migration policies, and the controller
loop. The metrics client is a value of type `Types.Client` that holds
every answer it would give. Time is an integer number of seconds. The
modules are:

- `Types`: commands, requests, errors, the client
- `Clusters`: cluster.go
- `Algorithms`: bruteforce.go
- `Checkers`: checker.go
- `FilteredClients`: client.go
- `RequestPolicies`: request_policy.go
- `MigrationPolicies`: migration_policy.go
- `SlopeMigrators`: slope_migrator.go
- `Controllers`: controller.go
- `Sums`: finite sums over a set of pods

Each Go interface becomes a datatype with one constructor per
implementation:

- `MigrationChecker` for `MigrationCheckerI`;
- `Requester` for `RequestPolicy`;
- `Migrator` for `MigrationPolicyNew`;
- `SimplePolicy` for the policies that the adapter wraps.

The checkers, the two request policies and the priority queue update their
fields in place in Go. They are Dafny classes. Everything else is values.

`Migrator` has no slope constructor. Go's `SlopeMigrator` offers only
`GetMigrationCmds(request)`, not the `MigrationPolicyNew` methods, so it is
modelled on its own in `SlopeMigrators`.

The controller, its requester and its migrator all read one `Client` value
here. In Go each holds its own `Clienter`, and the migrator's may be a
`FilteredClient` (client.go) while the requester's is not. The model
assumes all of them report the same answers.

## Model

| member | source | states |
|---|---|---|
| Types.Lookup | pkg/monitoring/migration_policy.go:209 | reading a missing pod from a memory map gives 0, as Go's map zero value does |
| Types.Trunc | pkg/monitoring/migration_policy.go:184 | Go's `int(x)` truncates toward zero, on both signs |
| Types.Ceil | pkg/monitoring/checker.go:15 | `math.Ceil`: the least integer not below x |
| Clusters.NewCluster | pkg/monitoring/cluster.go:8-10 | the production cluster has two 450 GB nodes and is well formed |
| Clusters.IsSpaceAvailableBefore | pkg/monitoring/cluster.go:12-14 | space remains exactly when not every node has a request |
| Clusters.GetUsagePercent | pkg/monitoring/cluster.go:16-18 | 0 GB is 0 % and a whole node is 100 %; its inverse is `GetAvailableGb` (round trips below) |
| Clusters.GetAvailableGb | pkg/monitoring/cluster.go:20-22 | 0 % is 0 GB and 100 % is a whole node; its inverse is `GetUsagePercent` (round trips below) |
| Clusters.AvailableGbOfUsagePercent | pkg/monitoring/cluster.go:16-22 | converting GB to a percentage and back gives the same GB |
| Clusters.UsagePercentOfAvailableGb | pkg/monitoring/cluster.go:16-22 | converting a percentage to GB and back gives the same percentage |
| Clusters.ConversionAnchors | pkg/monitoring/cluster.go:16-22 | a whole node is 100 %, and 0 % is 0 GB |
| Clusters.ConversionsStrictlyIncreasing | pkg/monitoring/cluster.go:16-22 | both conversions preserve strict order on positive-size nodes |
| Checkers.GetMigrationTime | pkg/monitoring/checker.go:14-16 | relocation time is 3.3506 s per GB, rounded up to a whole second |
| Checkers.MigrationTimeMonotone | pkg/monitoring/checker.go:14-16 | a bigger pod never takes less time |
| Checkers.MigrationTimeAnchors | pkg/monitoring/checker.go:14-16 | an empty pod takes 0 s and any positive size takes at least 1 s |
| Checkers.MaxClock | pkg/monitoring/checker.go:53-60 | the result is one of the two instants and not earlier than either |
| Checkers.ConcurrentChecker.constructor | pkg/monitoring/checker.go:18-20 | no start, no finish and no latest finish recorded |
| Checkers.ConcurrentChecker.StartMigration | pkg/monitoring/checker.go:27-30 | records the pod's start and its finish, which is the new latest finish; with non-negative sizes the latest finish never moves back and finishes stay ordered |
| Checkers.ConcurrentChecker.UpdateLastMigrationFinishTime | pkg/monitoring/checker.go:42-51 | the next relocation starts when the previous one ends or now, whichever is later, so it ends at least its own duration after now |
| Checkers.ConcurrentChecker.GetMigratingJobs | pkg/monitoring/checker.go:32-40 | exactly the pods whose finish is after now, each listed once |
| Checkers.ConcurrentChecker.GetMigrationFinishTime | pkg/monitoring/checker.go:62-64 | the recorded finish, or the zero clock for an unknown pod |
| Checkers.ConcurrentChecker.IsReady | pkg/monitoring/checker.go:66 | the concurrent checker is always ready |
| Checkers.BlockingChecker.constructor | pkg/monitoring/checker.go:83-85 | a fresh inner concurrent checker with nothing recorded, and an empty pod list |
| Checkers.BlockingChecker.GetMigratingJobs | pkg/monitoring/checker.go:87-96 | keeps the pods whose finish is after t, in order, and stores them; its own finish list is never filled, so the result is always empty |
| Checkers.BlockingChecker.StartMigration | pkg/monitoring/checker.go:98-100 | the admission is recorded in the inner concurrent checker |
| Checkers.BlockingChecker.GetMigrationFinishTime | pkg/monitoring/checker.go:102-104 | the inner checker's finish for the pod, or the zero clock |
| Checkers.BlockingChecker.IsReady | pkg/monitoring/checker.go:106-112 | ready while nothing was ever admitted; when ready, no recorded relocation of its inner checker is still in flight |
| Checkers.BlockingReadiness | pkg/monitoring/checker.go:106-112 | once ready, ready at every later instant; after an admission, the first ready instant is exactly the latest finish plus the 30 s back-off |
| Checkers.MigrationChecker.IsReady | pkg/monitoring/checker.go:116-121 | readiness through the checker interface: only the blocking checker can refuse |
| Checkers.NewMigrationChecker | pkg/monitoring/checker.go:68-76 | "concurrent" gives the concurrent checker; every other name gives the blocking one; both start empty |
| Checkers.StartMigration | pkg/monitoring/checker.go:116-121 | either checker records the admission the same way in its tracker |
| Checkers.GetMigratingJobs | pkg/monitoring/checker.go:116-121 | either checker lists, without repeats, exactly its pods still in flight |
| Checkers.ConcurrentAdmissionScenario | pkg/monitoring/checker_test.go:29-43 | two admissions at one instant run back to back; an admission five hours later ends one duration after its own start |
| Checkers.BlockingAdmissionScenario | pkg/monitoring/checker_test.go:15-27 | the blocking checker is not ready during a relocation and is ready after its end plus the back-off |
| Algorithms.KnapsackBruteForce | pkg/algorithms/bruteforce.go:6-24 | extends the prefix with ascending indices; the returned value is the value of the result; the result fits the capacity; no fitting extension is worth more (for non-negative weights); nothing is added when no item fits; the returned weight is always the input weight |
| Algorithms.AscendingDistinct | pkg/algorithms/bruteforce.go:14-15 | a configuration never repeats an item index |
| Algorithms.NothingLeft | pkg/algorithms/bruteforce.go:12 | with no items left to try, the only extension is the empty one |
| Algorithms.Append | pkg/algorithms/bruteforce.go:15 | Go's append: the slice reads the old contents plus the new element; with capacity left it writes the next cell of the same array, otherwise it copies into a new array |
| Algorithms.KnapsackAsWritten | pkg/algorithms/bruteforce.go:6-24 | the search over Go slices; the arrays only grow and the returned configuration is a slice of them |
| Algorithms.SiblingsAsWritten | pkg/algorithms/bruteforce.go:14-21 | the loop over one call's children over Go slices; the arrays only grow and the best configuration is a slice of them |
| Algorithms.AliasedBestOverwritten | pkg/algorithms/bruteforce.go:15-19 | at the call for prefix [0, 1, 2] on five unit-weight items worth 10, 10, 10, 10, 1 at capacity 4, Go reports value 40 with a configuration reading [0, 1, 2, 4], worth 31 |
| Algorithms.AliasFirstChild | pkg/algorithms/bruteforce.go:15-19 | in that example, child 3 appends in place to [0, 1, 2, 3], worth 40, and its own child 4 grows a new array and is rejected as too heavy |
| Algorithms.AliasSecondChild | pkg/algorithms/bruteforce.go:15-19 | in that example, child 4's append writes 4 into the cell the kept best [0, 1, 2, 3] reads, and the best value stays 40 |
| MigrationPolicies.Contains | pkg/monitoring/migration_policy.go:161-169 | true exactly when the string occurs in the list |
| MigrationPolicies.FilterPods | pkg/monitoring/migration_policy.go:59-67 | keeps exactly the pods not listed to ignore, with unchanged memory |
| MigrationPolicies.RemoveDuplicateInt | pkg/monitoring/migration_policy.go:85-95 | computes the first-occurrence deduplication of the input |
| MigrationPolicies.DedupElements | pkg/monitoring/migration_policy.go:85-95 | deduplication keeps exactly the elements of the input not seen before |
| MigrationPolicies.DedupDistinct | pkg/monitoring/migration_policy.go:85-95 | the result has no repeats and nothing already seen |
| MigrationPolicies.DedupSubsequence | pkg/monitoring/migration_policy.go:85-95 | the result keeps the input's order |
| MigrationPolicies.DedupAppend | pkg/monitoring/migration_policy.go:85-95 | deduplicating a concatenation deduplicates the tail against everything in the head |
| MigrationPolicies.DedupOfDistinct | pkg/monitoring/migration_policy.go:85-95 | a list without repeats comes back unchanged |
| MigrationPolicies.DedupIdempotent | pkg/monitoring/migration_policy.go:85-95 | deduplicating twice is deduplicating once |
| MigrationPolicies.HalfPower | pkg/monitoring/migration_policy.go:191 | 0.5 to a natural power lies in (0, 1] |
| MigrationPolicies.GetValueWithPunishedMigration | pkg/monitoring/migration_policy.go:190-192 | a pod's knapsack value keeps the sign of its size and is never more than a non-negative size |
| MigrationPolicies.PunishmentHalves | pkg/monitoring/migration_policy.go:190-192 | a never-moved pod is worth its size; each earlier relocation halves its value; a positive size keeps a positive value no bigger than the size |
| MigrationPolicies.CreateItemsAndNameMap | pkg/monitoring/migration_policy.go:171-188 | one item per pod bigger than the minimum whose relocation count is known; at item indices 0 to |items|-1 the name map names those pods and no other, each once, plus possibly one stale entry at index |items| for a pod whose count could not be read; each item is weighted by the truncated size and valued by the punished size |
| MigrationPolicies.GetMaxPod | pkg/monitoring/migration_policy.go:250-259 | a pod whose memory is not below any pod above -1 GB; "" when there is none |
| MigrationPolicies.GetMinPodBiggerThan | pkg/monitoring/migration_policy.go:239-248 | the smallest pod of at least `amount` and below 9999 GB; "" when there is none |
| MigrationPolicies.MaxGetMigrationCmds | pkg/monitoring/migration_policy.go:203-214 | a client error gives no command; otherwise one command for a largest pod of the node, or for the pod "" when no pod is above -1 GB, with an error exactly when its size is below the request |
| MigrationPolicies.BigEnoughGetMigrationCmds | pkg/monitoring/migration_policy.go:225-237 | a client error gives no command; otherwise one command for the node's smallest pod that covers the request, with no error, or for the pod "" when none covers it |
| MigrationPolicies.BigEnoughScenario | pkg/monitoring/migration_policy_test.go:78-86 | of 20, 30 and 40 GB pods, a 26 GB request takes the 30 GB pod |
| MigrationPolicies.MaxPodScenario | pkg/monitoring/controller_test.go:149-151 | the larger of two pods is found |
| MigrationPolicies.OptimalGetMigrationCmdsWithTime | pkg/monitoring/migration_policy.go:130-159 | not ready or a client error gives the matching error and no command; a success gives a feasible batch: distinct pods that are eligible, not in flight and with known memory, whose truncated total fits the truncated request; with a non-negative minimum size no feasible batch has a greater punished value; the no-pod error is raised exactly when no candidate fits on its own. Optimality holds for the search with copied configurations; Go's shared slices can break it (see Findings) |
| MigrationPolicies.SelectBatch | pkg/monitoring/migration_policy.go:139-158 | from the filtered pods: a non-empty feasible batch or the no-pod error, the error exactly when no candidate fits alone, and no feasible batch worth more |
| MigrationPolicies.BatchAsSelection | pkg/monitoring/migration_policy.go:139-158 | every feasible batch is an ascending knapsack selection of the items with the same weight and value |
| MigrationPolicies.OptimumBeatsEveryBatch | pkg/algorithms/bruteforce.go:6-24 | the knapsack's best value bounds the punished value of every feasible batch |
| MigrationPolicies.PenaltyScenarioCandidate | pkg/monitoring/migration_policy_test.go:115-123 | ow_z2 and ot_z2 together form a feasible batch worth 37 |
| MigrationPolicies.PenaltyScenarioOnlyBest | pkg/monitoring/migration_policy_test.go:115-123 | every feasible batch worth at least 37 contains ow_z2 and ot_z2, since the once-moved mr_z2 counts half |
| MigrationPolicies.PenaltyScenario | pkg/monitoring/migration_policy_test.go:115-123 | a 50 GB request on z2 succeeds and its batch contains ow_z2 (20 GB) and ot_z2 (17 GB) |
| MigrationPolicies.CandidatesOfFiltered | pkg/monitoring/migration_policy.go:138-140 | after filtering, the eligible pods are the eligible pods that are not in flight |
| MigrationPolicies.OptimalSelectionEmpty | pkg/monitoring/migration_policy.go:143-148 | the knapsack selects nothing exactly when every item alone exceeds the capacity |
| MigrationPolicies.SelectedCommands | pkg/monitoring/migration_policy.go:153-157 | commands built from an ascending configuration name distinct eligible pods, and their truncated sizes sum to the configuration's weight |
| MigrationPolicies.AdapterGetMigrationCmdsWithTime | pkg/monitoring/migration_policy.go:50-57 | not ready gives the not-ready error; otherwise a client error gives no command, and an answer is one command carrying the map's reading for its pod, with an error exactly when it is below the request; the max policy picks a largest pod above -1 GB (or "" when none is), the big-enough policy a smallest pod covering the request (or "" when none does) |
| MigrationPolicies.GetMigrationCmdsWithTime | pkg/monitoring/migration_policy.go:37-41 | every policy answers not-ready when its checker is not ready; a success is a non-empty batch whose sizes are the memory map's readings for their pods (0 for a pod not in the map, such as the "" pod of the max policy) and which has no destination yet |
| MigrationPolicies.StartMigration | pkg/monitoring/migration_policy.go:69-76 | both policies record the command's pod, size and time in their checker |
| RequestPolicies.FreeGbAmountMeaning | pkg/monitoring/request_policy.go:157-161 | the amount is positive exactly when the node is below the threshold, and freeing it restores the threshold |
| RequestPolicies.FreeGbAmountExample | pkg/monitoring/request_test.go:63-68 | at a 40 % threshold with 15 % free on 100 GB nodes, 25 GB must go |
| RequestPolicies.GetFreeGbAmount | pkg/monitoring/request_policy.go:157-161 | the amount is the gap between the threshold and the available percentage, converted to GB of one node |
| RequestPolicies.GetLeastUsedNode | pkg/monitoring/request_policy.go:72-82 | a node other than the origin with the most free percentage above 0, or "" when none has any |
| RequestPolicies.GetAvailableNodeWithLeastUsage | pkg/monitoring/request_policy.go:57-70 | the least-used node when it stays above the threshold after taking the pod, "" otherwise |
| RequestPolicies.AcceptedIsStampedSubsequence | pkg/monitoring/request_policy.go:104-114 | the validated commands are a subsequence of the input, each bound for the least-used node |
| RequestPolicies.AcceptedKeepsMargin | pkg/monitoring/request_policy.go:105-112 | after every accepted command the destination keeps the threshold plus 5 % free |
| RequestPolicies.AcceptedAllWhenRoomForAll | pkg/monitoring/request_policy.go:104-114 | when the destination can take the whole batch within the margin, every command is accepted |
| RequestPolicies.ValidateCmds | pkg/monitoring/request_policy.go:99-116 | the destination is the least-used other node, and the result is the greedy in-order acceptance that keeps the margin |
| RequestPolicies.ValidateCmdsScenario | pkg/monitoring/request_test.go:28-36 | 60 GB would leave z1 below the margin, so only the 40 GB pod goes, to z1 |
| RequestPolicies.ThresholdPolicy.constructor | pkg/monitoring/request_policy.go:130-132 | stores the threshold and the cluster |
| RequestPolicies.ThresholdPolicy.SetThreshold | pkg/monitoring/request_policy.go:139-141 | replaces the threshold |
| RequestPolicies.ThresholdPolicy.GetNodeFreeGbRequests | pkg/monitoring/request_policy.go:143-151 | one request per node below the threshold and none for any other node; each asks for the GB that restore the threshold, a positive amount |
| RequestPolicies.SumSlopes | pkg/monitoring/request_policy.go:36-41 | the sum of the slopes of the node's pods |
| RequestPolicies.SlopeRequester.constructor | pkg/monitoring/request_policy.go:28-30 | stores the threshold and cluster with a five-minute horizon |
| RequestPolicies.SlopeRequester.WithTime | pkg/monitoring/request_policy.go:23-25 | stores the threshold, horizon and cluster |
| RequestPolicies.SlopeRequester.SetThreshold | pkg/monitoring/request_policy.go:89-91 | replaces the threshold |
| RequestPolicies.SlopeRequester.GetNodeFreeGbRequests | pkg/monitoring/request_policy.go:32-51 | one request per node predicted below the threshold at the horizon, none for others; each asks for what restores the threshold against the prediction |
| RequestPolicies.SlopeScenarioSlopeZ2 | pkg/monitoring/request_test.go:48-61 | the z2 pods grow 2.5 GB/min together |
| RequestPolicies.SlopeScenarioSlopeZ1 | pkg/monitoring/request_test.go:48-61 | the z1 pods grow 3 GB/min together |
| RequestPolicies.SlopeScenarioPredictions | pkg/monitoring/request_test.go:48-61 | five minutes ahead z2 is predicted at 2.5 % free and z1 at 5 % |
| RequestPolicies.SlopeScenarioCritical | pkg/monitoring/request_test.go:48-61 | at a 10 % threshold both nodes are critical |
| RequestPolicies.SlopeScenarioRequests | pkg/monitoring/request_test.go:48-61 | the only possible requests are 7.5 GB on z2 and 5 GB on z1 |
| RequestPolicies.NewRequestPolicy | pkg/monitoring/request_policy.go:118-128 | "slope" gives the slope policy with a five-minute horizon; every other name, including "thresold", gives the threshold policy; both get the threshold and cluster |
| RequestPolicies.GetNodeFreeGbRequests | pkg/monitoring/request_policy.go:10-14 | either policy names each known node at most once |
| RequestPolicies.SetThreshold | pkg/monitoring/request_policy.go:10-14 | either policy takes the new threshold |
| SlopeMigrators.Item.constructor | pkg/monitoring/slope_migrator.go:67-72 | stores name, priority and index |
| SlopeMigrators.PriorityQueue.constructor | pkg/monitoring/slope_migrator.go:28 | an empty queue |
| SlopeMigrators.PriorityQueue.Swap | pkg/monitoring/slope_migrator.go:84-88 | exchanges two entries and keeps each one's index equal to its position |
| SlopeMigrators.PriorityQueue.Push | pkg/monitoring/slope_migrator.go:90-95 | appends the item at the end, indexed by its position |
| SlopeMigrators.PriorityQueue.Pop | pkg/monitoring/slope_migrator.go:97-108 | nil on an empty queue; otherwise removes the last item and marks it unqueued |
| SlopeMigrators.LessIsStrictOrder | pkg/monitoring/slope_migrator.go:79-82 | "higher slope first" is irreflexive, asymmetric and transitive |
| SlopeMigrators.PriorityQueue.Less | pkg/monitoring/slope_migrator.go:79-82 | an item sorts before another only if it is a different entry with no smaller priority |
| SlopeMigrators.HeapPop | pkg/monitoring/slope_migrator.go:55 | removes and returns the item at position 0, whatever its slope; the rest is a permutation of the remaining items |
| SlopeMigrators.PopSteepest | pkg/monitoring/slope_migrator.go:79-82 | removes and returns an item of the highest slope in the queue; the rest is a permutation of the remaining items |
| SlopeMigrators.SteepestIndex | pkg/monitoring/slope_migrator.go:79-82 | a position in the queue whose slope is not below any queued slope |
| SlopeMigrators.UnorderedPopScenario | pkg/monitoring/slope_migrator.go:28-55 | pushing a (2 GB/min) then b (5 GB/min) without heap order, the pop returns a and leaves b |
| SlopeMigrators.SteepestPopScenario | pkg/monitoring/slope_migrator.go:79-82 | on the same queue the steepest pop returns b |
| SlopeMigrators.QueuedGrowthIsTotal | pkg/monitoring/slope_migrator.go:45 | the predicted growth summed over the queue is the growth of the queued pods |
| SlopeMigrators.QueueGrowingPods | pkg/monitoring/slope_migrator.go:26-47 | queues exactly the pods with a known slope above 1 GB/min, once each, with their slopes; the predicted usage is their total growth over the horizon |
| SlopeMigrators.TakeUntilFits | pkg/monitoring/slope_migrator.go:50-59 | takes distinct queued pods with their memory until the growth of the rest fits the buffer or none is left, and takes none once it fits; it runs dry exactly when every growing pod is taken and the buffer is negative |
| SlopeMigrators.TakeSteepestUntilFits | pkg/monitoring/slope_migrator.go:50-59 | as TakeUntilFits, and each taken pod is at least as steep as every pod taken after it or left queued |
| SlopeMigrators.SteepestStep | pkg/monitoring/slope_migrator.go:55-58 | taking a pod at least as steep as all still queued keeps the batch steepest first |
| SlopeMigrators.GetMigrationCmdsAsWritten | pkg/monitoring/slope_migrator.go:18-64 | the batch is distinct growing pods with their memory; the rest fits the buffer or every growing pod is taken; no pod is taken once the rest fits, and none when all growth fits; the error is the memory query's, except that it is dropped exactly when every growing pod is taken and the buffer is negative (the early return) |
| SlopeMigrators.GetMigrationCmds | pkg/monitoring/slope_migrator.go:18-64 | everything GetMigrationCmdsAsWritten promises, and the batch is taken steepest first |
| SlopeMigrators.SlopeScenario | pkg/monitoring/slope_test.go:17-25 | of a 3 and a 1 GB/min pod over a 10 GB buffer, only the 3 GB/min pod is taken |
| SlopeMigrators.ScenarioOutcome | pkg/monitoring/slope_test.go:17-25 | in whatever order pods are taken, the scenario's only outcome is w_z2 with no error |
| SlopeMigrators.SteepestScenario | pkg/monitoring/slope_migrator.go:50-59 | a 2 and a 5 GB/min pod over a 20 GB buffer: steepest first takes the 5 GB/min pod alone |
| SlopeMigrators.SteepestHead | pkg/monitoring/slope_migrator.go:79-82 | the first pod of a steepest-first batch is at least as steep as every growing pod |
| SlopeMigrators.StopsOnceFits | pkg/monitoring/slope_migrator.go:50 | no second pod is taken once the rest fits after the first |
| FilteredClients.NewFilteredClient | pkg/monitoring/client.go:11-13 | wraps the given client |
| FilteredClients.KeptPodsShrinks | pkg/monitoring/client.go:24-43 | filtering only drops pods and keeps every memory value |
| FilteredClients.KeptPodsIdempotent | pkg/monitoring/client.go:24-43 | filtering twice is filtering once |
| FilteredClients.FilterPods | pkg/monitoring/client.go:24-43 | keeps exactly the pods at most 95 % through their runtime with at least 180 s left to run |
| FilteredClients.GetPodMemories | pkg/monitoring/client.go:15-22 | a client error gives no map and the error; otherwise the filtered map |
| FilteredClients.AsClient | pkg/monitoring/client.go:7-22 | the embedding client answers every query but pod memories like the wrapped one; pod memories fail exactly when the wrapped client's do, and are then empty, and otherwise are the filtered map |
| FilteredClients.AsClientPodMemories | pkg/monitoring/client.go:7-22 | through the client interface, pod memories are the filtered subset |
| Controllers.NewController | pkg/monitoring/controller.go:27-29 | the given requester and migrator, with 7 GB as the smallest request handled |
| Controllers.ValidatedBatch | pkg/monitoring/controller.go:52 | every validated command carries the critical node's memory reading for its pod (0 for a pod the node does not report) and is bound for the least-used other node |
| Controllers.ExamineRequest | pkg/monitoring/controller.go:47-55 | a not-ready checker gives the wrapped error; any error returns nothing; a node-full error comes when nothing of a non-empty batch validates; success gives a non-empty batch that is the greedy acceptance, against the least-used other node, of candidates carrying their pods' memory readings |
| Controllers.AdmitAll | pkg/monitoring/controller.go:57-60 | every command is admitted in the checker at the current time, together with those admitted before; admitting a non-negative size moves the latest finish to the current time or later |
| Controllers.AcceptRequest | pkg/monitoring/controller.go:47-60 | one pass of the corrected loop: a not-ready checker yields an error; on success the non-empty batch is the request's validation outcome and is admitted after the earlier commands; with non-negative pod memories, the checker's latest finish reaches the current time |
| Controllers.HandleRequests | pkg/monitoring/controller.go:40-63 | corrected loop; handles requests in order; the accepted commands are exactly the concatenation of each handled request's non-empty validation outcome, all admitted, and are returned when all requests pass; stops with nothing on a too-small request or a selection error, and with the commands so far on a full node; a checker not ready at the start admits nothing; with non-negative pod memories, anything admitted leaves the latest finish at the current time or later |
| Controllers.BatchesStep | pkg/monitoring/controller.go:42-60 | one more request's validation outcome extends the list of batches, and its commands follow the earlier ones |
| Controllers.BatchesAt | pkg/monitoring/controller.go:42-60 | the batches of the handled requests, position by position: each is non-empty and is the validation outcome of the request at its position |
| Controllers.HandleRequestsAsWritten | pkg/monitoring/controller.go:42-62 | the loop as written; every handled request validates at least one command, yet nothing is returned and the checker records no admission |
| Controllers.GetMigrations | pkg/monitoring/controller.go:40-63 | corrected tick; every returned command is admitted now, carries a reported node's memory reading for its pod (0 for a pod that node does not report) and goes to that node's least-used other node; errors are selection or node-full errors; a checker that is not ready yields no command; with non-negative pod memories, any returned command leaves the latest finish at the current time or later |
| Controllers.GetMigrationsAsWritten | pkg/monitoring/controller.go:40-63 | the tick as written always returns no command and admits none |
| Controllers.ValidatedNonNegative | pkg/monitoring/controller.go:52 | validated commands carry non-negative sizes when the client reports non-negative memories |
| Controllers.RepeatedTick | pkg/monitoring/controller_test.go:64-80 | with the blocking checker, a tick that returns commands is followed, at the same instant, by a tick that returns none |
| Controllers.SumPodMemories | pkg/monitoring/controller.go:66-72 | the total memory of the commands; 0 for none; non-negative for non-negative sizes |

## Left out

- Logging, printing and the Influx-backed client (monitoring.go, influx_client.go) are not modelled. The client is a value whose answers are parameters.
- Wall-clock time is not modelled. `clock.Clock` is an integer number of seconds. `OptimalMigrator.GetMigrationCmds` (migration_policy.go:99-128) reads `time.Now()`, so it is left out; its time-parameterised twin is modelled.
- The executor that carries out a relocation (pkg/migration) is not part of this model.
- Go map iteration order is not modelled. Loops over maps pick any remaining key, so the contracts promise only what holds for every order: ties between equal pods or nodes, and the order of requests and queued pods, are left open.
- Floating point is not modelled. GB and percentages are exact reals, so rounding in the conversions is not captured.
- `NewMigrationPolicy` (migration_policy.go:16-29) is not modelled. It builds the older `MigrationPolicy` interface, and its default branch leaves the optimal policy with a nil checker.
- `NewControllerWithPolicy` (controller.go:22-25) is not modelled. It depends on `NewMigrationPolicy`.
- The `ValidateMigrationsTo` and `enoughSpaceAvailableOn` wrappers (request_policy.go:53-55, 84-87, 163-170) are not modelled separately. They only forward to `GetAvailableNodeWithLeastUsage`.
- `NodeFullError.Error` (controller.go:36-38) only formats a message, so it is not modelled. The error itself is `NodeFull(request, migrations)`.
- `RequestPolicies.ValidateCmds`: in the source only the threshold policy declares it. The model uses the one algorithm for both requesters, as the tests exercise it on both.
- `RequestPolicies.GetNodeFreeGbRequests`: the dispatch states only what both policies share. The per-policy meaning is stated by `ThresholdPolicy.GetNodeFreeGbRequests` and `SlopeRequester.GetNodeFreeGbRequests`.
- `SlopeMigrators.HeapPop`: `container/heap` is not part of this model. The queue is never put in heap order, so `heap.Pop` returns whatever sits at position 0, as the contract says. The sift-down inside `heap.Pop` is not modelled: the rest is only said to be a permutation, so the order of later pops is left open.
- `SlopeMigrators.PriorityQueue.Len` carries no contract. It only returns the length of the item list.
- `Algorithms.KnapsackBruteForce`: models the search with each configuration copied, which is what the source evidently means. In Go, `append(indexes, i)` writes into the backing array shared by sibling calls, so a later sibling can overwrite the configuration a call kept as best (see Findings). `Algorithms.KnapsackAsWritten` models that sharing; its optimality is not proved.
- `Algorithms.Append`: the growth of a new array is the doubling Go uses for short int slices (1, 2, 4, 8, ...); the growth rule for long slices is not modelled.
- `MigrationPolicies.AdapterGetMigrationCmdsWithTime` does not skip pods that are already in flight, because the source leaves that filter commented out.
- The cluster computations require a node size other than 0, because they divide by it. Go would produce an infinity or NaN instead.
- `cluster.go` names the GB-to-percentage conversion `getFreePercent`, while its callers use `GetUsagePercent`. Both are `Clusters.GetUsagePercent` here.
- `Controllers.HandleRequests`: the corrected loop keeps the source's `return nil, nil` on a request below the minimum size. Commands admitted for earlier requests are then not returned.
- The slope query (field `podMemorySlope` of `Types.Client`) takes only the node and the pod. Go also passes a time window, ("-5", "") in slope_migrator.go:32 and ("now", "1m") in request_policy.go:38, so both policies read one slope per pod here.
- `Controllers.HandleRequests`: controller.go:48 calls `c.Migrator.GetMigrationCmds(t, request)`, which `MigrationPolicyNew` does not declare. The model reads that call as `GetMigrationCmdsWithTime`.
- `Controllers.ExamineRequest`: the candidates it validates are those the migration policy returned; its contract names them only as some batch carrying the node's memory readings, because the policy's choice depends on the checker's state.
- `Controllers.HandleRequests`, `Controllers.AcceptRequest` and `Controllers.ExamineRequest` split one Go function into the loop, its body and the part of the body before admission.
- `Controllers.RepeatedTick`: assumes the client reports non-negative pod memories. A negative size could move the latest finish before the current time.

## Findings

| source | as written | input that shows it | evidently intended | confidence | as-written member | corrected member |
|---|---|---|---|---|---|---|
| pkg/monitoring/slope_migrator.go:30-38 | `heap.Init` runs on the empty queue and pods are added with `pq.Push`, not `heap.Push`, so the queue is never in heap order; `heap.Pop` (line 55) then returns the pod at position 0, not the steepest | a 20 GB buffer (20 % free on a 100 GB node), a five-minute horizon, a_z2 at 2 GB/min and b_z2 at 5 GB/min, with the map yielding a_z2 first: the pop order is a_z2 then b_z2 and both are taken, where steepest first takes b_z2 alone | queue with `heap.Push` (or heapify after the loop), so the steepest pod leaves first, as the comment at line 80 and the test name at slope_test.go:17 say | not executed | SlopeMigrators.UnorderedPopScenario | SlopeMigrators.GetMigrationCmds |
| pkg/algorithms/bruteforce.go:15-19 | `append(indexes, i)` writes cell `len(indexes)` of the backing array whenever capacity remains, and `bestConfiguration = configuration` keeps a slice of that same array, so the next sibling's append overwrites the last index of the kept best; the reported value then belongs to a different configuration | capacity 4, five items of weight 1 worth 10, 10, 10, 10, 1: the call for prefix [0, 1, 2] holds it in a 4-cell array (Go grows 1, 2, 4), keeps [0, 1, 2, 3] worth 40, then its child for 4 overwrites cell 3; the call reports value 40 with [0, 1, 2, 4], worth 31, and no later call of the top-level search beats 40, so the search returns that configuration | copy the prefix before appending (`append(indexes[:len(indexes):len(indexes)], i)`), so that every configuration keeps its own array and the best reported is worth its value | not executed | Algorithms.AliasedBestOverwritten | Algorithms.KnapsackBruteForce |
| pkg/monitoring/controller.go:57-60 | the admission loop ranges over `migrations`, which nothing ever appends to, so validated commands are neither admitted in the checker nor returned; every tick yields `nil` | one critical node z2 with a 15 GB request; the max policy picks its largest pod and the validator accepts it for z1; `GetMigrations` returns no command and the checker stays empty | append each validated command to `migrations` and start its migration | not executed | Controllers.HandleRequestsAsWritten | Controllers.HandleRequests |

=== FILE: bruteforce.dfy ===
/**
 * Exhaustive 0/1 knapsack (pkg/algorithms/bruteforce.go). A configuration
 * is a list of item indices; the search extends the given prefix with
 * strictly increasing indices from `lastIndex` on.
 */
module Algorithms {

  datatype FItem = FItem(weight: int, value: real)

  /** `s` lists indices in [lo, n) in strictly increasing order. */
  ghost predicate Ascending(s: seq<int>, lo: int, n: int)
  {
    && (forall k :: 0 <= k < |s| ==> lo <= s[k] < n)
    && (forall j, k :: 0 <= j < k < |s| ==> s[j] < s[k])
  }

  predicate InRange(s: seq<int>, n: int)
  {
    forall k :: 0 <= k < |s| ==> 0 <= s[k] < n
  }

  /** Total weight of the items a configuration selects. */
  function Weight(items: seq<FItem>, s: seq<int>): int
    requires InRange(s, |items|)
  {
    if s == [] then 0 else items[s[0]].weight + Weight(items, s[1..])
  }

  /** Total value of the items a configuration selects. */
  function Value(items: seq<FItem>, s: seq<int>): real
    requires InRange(s, |items|)
  {
    if s == [] then 0.0 else items[s[0]].value + Value(items, s[1..])
  }

  predicate NonNegativeWeights(items: seq<FItem>)
  {
    forall k :: 0 <= k < |items| ==> items[k].weight >= 0
  }

  lemma {:induction false} WeightNonNegative(items: seq<FItem>, s: seq<int>)
    requires InRange(s, |items|) && NonNegativeWeights(items)
    ensures Weight(items, s) >= 0
  {
    if s != [] {
      WeightNonNegative(items, s[1..]);
    }
  }

  /** An ascending configuration has no index twice. */
  lemma AscendingDistinct(s: seq<int>, lo: int, n: int)
    requires Ascending(s, lo, n)
    ensures forall j, k :: 0 <= j < |s| && 0 <= k < |s| && j != k ==> s[j] != s[k]
  {
  }

  /** An ascending configuration within [lo, n) has at most n - lo entries. */
  lemma {:induction false} AscendingLength(s: seq<int>, lo: int, n: int)
    requires Ascending(s, lo, n)
    ensures |s| <= if lo <= n then n - lo else 0
    decreases |s|
  {
    if s != [] {
      assert Ascending(s[1..], s[0] + 1, n);
      AscendingLength(s[1..], s[0] + 1, n);
    }
  }

  /** No index is left to add once the search has passed the last item. */
  lemma NothingLeft(lo: int, n: int)
    requires n <= lo
    ensures forall s :: Ascending(s, lo, n) ==> s == []
  {
    forall s | Ascending(s, lo, n) ensures s == [] {
      AscendingLength(s, lo, n);
    }
  }

  /** A configuration that starts with index `s[0]` continues ascending after it. */
  lemma SplitFirst(items: seq<FItem>, s: seq<int>, lo: int)
    requires 0 <= lo && Ascending(s, lo, |items|) && s != []
    ensures Ascending(s[1..], s[0] + 1, |items|)
    ensures Weight(items, s) == items[s[0]].weight + Weight(items, s[1..])
    ensures Value(items, s) == items[s[0]].value + Value(items, s[1..])
  {
  }

  /** What a child call (prefix `indexes + [i]`) added, seen from its parent (prefix `indexes`). */
  lemma ChildConfiguration(items: seq<FItem>, indexes: seq<int>, lastIndex: int, i: int, configuration: seq<int>)
    requires 0 <= lastIndex <= i < |items|
    requires |indexes| + 1 <= |configuration| && configuration[..|indexes| + 1] == indexes + [i]
    requires Ascending(configuration[|indexes| + 1..], i + 1, |items|)
    ensures configuration[..|indexes|] == indexes
    ensures Ascending(configuration[|indexes|..], lastIndex, |items|)
    ensures configuration[|indexes|..] != []
    ensures Value(items, configuration[|indexes|..]) == items[i].value + Value(items, configuration[|indexes| + 1..])
    ensures Weight(items, configuration[|indexes|..]) == items[i].weight + Weight(items, configuration[|indexes| + 1..])
    ensures configuration == indexes + [i] <==> configuration[|indexes| + 1..] == []
  {
    var n := |indexes|;
    assert configuration[..n + 1][..n] == configuration[..n];
    assert (indexes + [i])[..n] == indexes;
    var added := configuration[n..];
    assert added == [i] + configuration[n + 1..];
    assert added[1..] == configuration[n + 1..];
    if configuration[n + 1..] == [] {
      assert configuration == configuration[..n + 1] + configuration[n + 1..];
    }
  }

  /** The members of `indices` in [lo, n), in increasing order. */
  function IndicesFrom(indices: set<int>, lo: int, n: int): seq<int>
    decreases n - lo
  {
    if lo >= n then []
    else if lo in indices then [lo] + IndicesFrom(indices, lo + 1, n)
    else IndicesFrom(indices, lo + 1, n)
  }

  /** `IndicesFrom` lists what it promises, ascending. */
  lemma {:induction false} IndicesFromAscending(indices: set<int>, lo: int, n: int)
    ensures Ascending(IndicesFrom(indices, lo, n), lo, n)
    ensures forall x :: x in IndicesFrom(indices, lo, n) <==> x in indices && lo <= x < n
    decreases n - lo
  {
    if lo < n {
      IndicesFromAscending(indices, lo + 1, n);
    }
  }

  /** Indices below `lo` do not matter. */
  lemma {:induction false} IndicesFromBelow(indices: set<int>, j: int, lo: int, n: int)
    requires j < lo
    ensures IndicesFrom(indices + {j}, lo, n) == IndicesFrom(indices, lo, n)
    decreases n - lo
  {
    if lo < n {
      IndicesFromBelow(indices, j, lo + 1, n);
    }
  }

  /** Adding one index to the set adds its item's weight and value. */
  lemma {:induction false} IndicesFromInsert(items: seq<FItem>, indices: set<int>, j: int, lo: int)
    requires 0 <= lo <= j < |items| && j !in indices
    ensures InRange(IndicesFrom(indices, lo, |items|), |items|)
    ensures InRange(IndicesFrom(indices + {j}, lo, |items|), |items|)
    ensures Weight(items, IndicesFrom(indices + {j}, lo, |items|))
            == Weight(items, IndicesFrom(indices, lo, |items|)) + items[j].weight
    ensures Value(items, IndicesFrom(indices + {j}, lo, |items|))
            == Value(items, IndicesFrom(indices, lo, |items|)) + items[j].value
    decreases |items| - lo
  {
    var n := |items|;
    IndicesFromAscending(indices, lo, n);
    IndicesFromAscending(indices + {j}, lo, n);
    var with := IndicesFrom(indices + {j}, lo, n);
    var without := IndicesFrom(indices, lo, n);
    if lo == j {
      IndicesFromBelow(indices, j, lo + 1, n);
      assert with == [j] + without;
      assert with[1..] == without;
    } else {
      IndicesFromInsert(items, indices, j, lo + 1);
      var with' := IndicesFrom(indices + {j}, lo + 1, n);
      var without' := IndicesFrom(indices, lo + 1, n);
      if lo in indices {
        assert with == [lo] + with' && with[1..] == with';
        assert without == [lo] + without' && without[1..] == without';
      }
    }
  }

  /** No index, no weight and no value. */
  lemma {:induction false} IndicesFromEmpty(lo: int, n: int)
    ensures IndicesFrom({}, lo, n) == []
    decreases n - lo
  {
    if lo < n {
      IndicesFromEmpty(lo + 1, n);
    }
  }

  /**
   * `s`, an ascending extension from `lo`, is no counterexample to `best`
   * being optimal: if it fits the capacity it is worth at most `best`.
   */
  ghost predicate NoBetter(items: seq<FItem>, lo: int, capacity: int, sumWeight: int, sumValue: real,
                           best: real, s: seq<int>)
    requires 0 <= lo
  {
    Ascending(s, lo, |items|) && sumWeight + Weight(items, s) <= capacity ==> sumValue + Value(items, s) <= best
  }

  /**
   * The extensions that start with index `i` are covered by the child call
   * on prefix `indexes + [i]`: worth at most its value, and none of them fits
   * when the child's prefix weight already exceeds the capacity.
   */
  lemma ChildCovers(items: seq<FItem>, lastIndex: int, i: int, capacity: int, sumWeight: int, sumValue: real,
                    value: real, newBest: real)
    requires 0 <= lastIndex <= i < |items| && NonNegativeWeights(items)
    requires forall t :: Ascending(t, i + 1, |items|) && sumWeight + items[i].weight + Weight(items, t) <= capacity
                         ==> sumValue + items[i].value + Value(items, t) <= value
    requires value <= newBest || sumWeight + items[i].weight > capacity
    ensures forall s :: s != [] && s[0] == i ==> NoBetter(items, lastIndex, capacity, sumWeight, sumValue, newBest, s)
  {
    forall s | s != [] && s[0] == i
      ensures NoBetter(items, lastIndex, capacity, sumWeight, sumValue, newBest, s)
    {
      if Ascending(s, lastIndex, |items|) {
        SplitFirst(items, s, lastIndex);
        WeightNonNegative(items, s[1..]);
      }
    }
  }

  /** Covering the extensions that start below `i` and those that start at `i` covers those below `i + 1`. */
  lemma CoveredStep(items: seq<FItem>, lastIndex: int, i: int, capacity: int, sumWeight: int, sumValue: real,
                    previous: real, best: real)
    requires 0 <= lastIndex && previous <= best
    requires forall s :: s != [] && s[0] < i ==> NoBetter(items, lastIndex, capacity, sumWeight, sumValue, previous, s)
    requires forall s :: s != [] && s[0] == i ==> NoBetter(items, lastIndex, capacity, sumWeight, sumValue, best, s)
    ensures forall s :: s != [] && s[0] < i + 1 ==> NoBetter(items, lastIndex, capacity, sumWeight, sumValue, best, s)
  {
    forall s | s != [] && s[0] < i + 1
      ensures NoBetter(items, lastIndex, capacity, sumWeight, sumValue, best, s)
    {
      if s[0] < i {
        assert NoBetter(items, lastIndex, capacity, sumWeight, sumValue, previous, s);
      }
    }
  }

  /** Once every first index is covered, no fitting extension beats `best`. */
  lemma AllCovered(items: seq<FItem>, lastIndex: int, capacity: int, sumWeight: int, sumValue: real, best: real)
    requires 0 <= lastIndex && sumValue <= best
    requires forall s :: s != [] && s[0] < |items| ==> NoBetter(items, lastIndex, capacity, sumWeight, sumValue, best, s)
    ensures forall s :: Ascending(s, lastIndex, |items|) && sumWeight + Weight(items, s) <= capacity
              ==> sumValue + Value(items, s) <= best
  {
    forall s | Ascending(s, lastIndex, |items|) && sumWeight + Weight(items, s) <= capacity
      ensures sumValue + Value(items, s) <= best
    {
      if s != [] {
        assert NoBetter(items, lastIndex, capacity, sumWeight, sumValue, best, s);
      }
    }
  }

  /**
   * The search. The returned weight is always the `sumWeight` argument:
   * `bestWeight` is never updated, so a parent compares only the weight of
   * its child's prefix against the capacity.
   */
  method KnapsackBruteForce(capacity: int, items: seq<FItem>, indexes: seq<int>, lastIndex: int,
                            sumWeight: int, sumValue: real)
    returns (bestWeight: int, bestValue: real, bestConfiguration: seq<int>)
    requires 0 <= lastIndex
    ensures bestWeight == sumWeight
    ensures |indexes| <= |bestConfiguration| && bestConfiguration[..|indexes|] == indexes
    ensures Ascending(bestConfiguration[|indexes|..], lastIndex, |items|)
    ensures bestValue == sumValue + Value(items, bestConfiguration[|indexes|..])
    // feasibility: whatever is added fits the capacity together with the prefix weight
    ensures bestConfiguration == indexes
            || sumWeight + Weight(items, bestConfiguration[|indexes|..]) <= capacity
    // optimality: no fitting extension is worth more
    ensures NonNegativeWeights(items) ==>
              forall s :: Ascending(s, lastIndex, |items|) && sumWeight + Weight(items, s) <= capacity
                ==> sumValue + Value(items, s) <= bestValue
    // nothing fits: the inputs come back unchanged
    ensures (forall k :: lastIndex <= k < |items| ==> sumWeight + items[k].weight > capacity)
              ==> bestConfiguration == indexes && bestValue == sumValue
    decreases |items| - lastIndex
  {
    bestWeight := sumWeight;
    bestValue := sumValue;
    bestConfiguration := indexes;
    if lastIndex == |items| {
      assert bestConfiguration[|indexes|..] == [];
      NothingLeft(lastIndex, |items|);
      return;
    }
    var i := lastIndex;
    while i < |items|
      invariant lastIndex <= i && (i <= |items| || i == lastIndex)
      invariant |indexes| <= |bestConfiguration| && bestConfiguration[..|indexes|] == indexes
      invariant Ascending(bestConfiguration[|indexes|..], lastIndex, |items|)
      invariant bestValue == sumValue + Value(items, bestConfiguration[|indexes|..])
      invariant bestValue >= sumValue
      invariant bestConfiguration == indexes
                || sumWeight + Weight(items, bestConfiguration[|indexes|..]) <= capacity
      invariant NonNegativeWeights(items) ==>
                  forall s :: s != [] && s[0] < i ==> NoBetter(items, lastIndex, capacity, sumWeight, sumValue, bestValue, s)
      invariant (forall k :: lastIndex <= k < |items| ==> sumWeight + items[k].weight > capacity)
                  ==> bestConfiguration == indexes && bestValue == sumValue
    {
      var weight, value, configuration :=
        KnapsackBruteForce(capacity, items, indexes + [i], i + 1, sumWeight + items[i].weight, sumValue + items[i].value);
      ChildConfiguration(items, indexes, lastIndex, i, configuration);
      ghost var previous := bestValue;
      if value > bestValue && weight <= capacity {
        bestValue := value;
        bestConfiguration := configuration;
      }
      if NonNegativeWeights(items) {
        ChildCovers(items, lastIndex, i, capacity, sumWeight, sumValue, value, bestValue);
        CoveredStep(items, lastIndex, i, capacity, sumWeight, sumValue, previous, bestValue);
      }
      i := i + 1;
    }
    if NonNegativeWeights(items) {
      AllCovered(items, lastIndex, capacity, sumWeight, sumValue, bestValue);
    }
  }

  // ----- the search as Go runs it, with slices sharing backing arrays -----

  /** A Go slice of ints: the first `len` cells of backing array number `arr`, which has `cap` cells. */
  datatype Slice = Slice(arr: nat, len: nat, cap: nat)

  /** The backing arrays, numbered by their position. */
  type Arrays = seq<seq<int>>

  predicate Fits(mem: Arrays, s: Slice)
  {
    s.arr < |mem| && s.len <= s.cap == |mem[s.arr]|
  }

  /** `after` keeps every array of `before` at its size and may add new ones. */
  predicate Grows(before: Arrays, after: Arrays)
  {
    |before| <= |after| && forall a :: 0 <= a < |before| ==> |after[a]| == |before[a]|
  }

  /** What a slice reads: the first `len` cells of its array. */
  function Contents(mem: Arrays, s: Slice): seq<int>
    requires Fits(mem, s)
  {
    mem[s.arr][..s.len]
  }

  /**
   * Go's `append` of one int: while capacity remains it writes the next
   * cell of the same array, which every other slice of that array longer
   * than `s` also reads; otherwise it copies into a new array of twice the
   * capacity (1 for an empty slice), the growth Go gives short int slices.
   */
  function Append(mem: Arrays, s: Slice, x: int): (r: (Arrays, Slice))
    requires Fits(mem, s)
    ensures Fits(r.0, r.1) && Grows(mem, r.0)
    ensures Contents(r.0, r.1) == Contents(mem, s) + [x]
    ensures s.len < s.cap ==> r.1.arr == s.arr && r.0 == mem[s.arr := mem[s.arr][s.len := x]]
    ensures s.len == s.cap ==> r.1.arr == |mem| && r.0[..|mem|] == mem
  {
    if s.len < s.cap then
      (mem[s.arr := mem[s.arr][s.len := x]], Slice(s.arr, s.len + 1, s.cap))
    else
      var newCap := if s.cap == 0 then 1 else 2 * s.cap;
      var cells := Contents(mem, s) + [x] + seq(newCap - s.len - 1, _ => 0);
      (mem + [cells], Slice(|mem|, s.len + 1, newCap))
  }

  /**
   * KnapsackBruteForce as Go runs it: `append(indexes, i)` may write into
   * the array that a configuration kept as best also reads. Returns the
   * weight, value, configuration and the arrays afterwards.
   */
  function KnapsackAsWritten(capacity: int, items: seq<FItem>, mem: Arrays, indexes: Slice, lastIndex: int,
                             sumWeight: int, sumValue: real): (r: (int, real, Slice, Arrays))
    requires 0 <= lastIndex <= |items| && Fits(mem, indexes)
    ensures Grows(mem, r.3) && Fits(r.3, r.2)
    decreases |items| - lastIndex, 1
  {
    if lastIndex == |items| then (sumWeight, sumValue, indexes, mem)
    else SiblingsAsWritten(capacity, items, mem, indexes, lastIndex, lastIndex, sumWeight, sumValue, sumValue, indexes)
  }

  /** The loop over the children `i`, `i + 1`, … of one call, with the best found so far. */
  function SiblingsAsWritten(capacity: int, items: seq<FItem>, mem: Arrays, indexes: Slice, lastIndex: int, i: int,
                             sumWeight: int, sumValue: real, bestValue: real, bestConfiguration: Slice)
    : (r: (int, real, Slice, Arrays))
    requires 0 <= lastIndex <= i <= |items| && Fits(mem, indexes) && Fits(mem, bestConfiguration)
    ensures Grows(mem, r.3) && Fits(r.3, r.2)
    decreases |items| - lastIndex, 0, |items| - i
  {
    if i == |items| then (sumWeight, bestValue, bestConfiguration, mem)
    else
      var (mem1, child) := Append(mem, indexes, i);
      var (weight, value, configuration, mem2) :=
        KnapsackAsWritten(capacity, items, mem1, child, i + 1, sumWeight + items[i].weight, sumValue + items[i].value);
      if value > bestValue && weight <= capacity then
        SiblingsAsWritten(capacity, items, mem2, indexes, lastIndex, i + 1, sumWeight, sumValue, value, configuration)
      else
        SiblingsAsWritten(capacity, items, mem2, indexes, lastIndex, i + 1, sumWeight, sumValue, bestValue, bestConfiguration)
  }

  /** Five items of weight 1, worth 10, 10, 10, 10 and 1. */
  function AliasItems(): seq<FItem>
  {
    [FItem(1, 10.0), FItem(1, 10.0), FItem(1, 10.0), FItem(1, 10.0), FItem(1, 1.0)]
  }

  /**
   * The call for prefix [0, 1, 2] at capacity 4, with the prefix in a
   * 4-cell array as Go's growth leaves it. Its child for 3 keeps [0, 1, 2, 3]
   * (worth 40) in that array; the next child's append writes 4 into the
   * same cell. The call reports value 40 with a configuration that reads
   * [0, 1, 2, 4], which is worth 31.
   */
  lemma AliasedBestOverwritten()
    ensures var r := KnapsackAsWritten(4, AliasItems(), [[0, 1, 2, 0]], Slice(0, 3, 4), 3, 3, 30.0);
            && r.1 == 40.0
            && Contents(r.3, r.2) == [0, 1, 2, 4]
            && Value(AliasItems(), [0, 1, 2, 4]) == 31.0
            && Value(AliasItems(), Contents(r.3, r.2)) != r.1
  {
    var items := AliasItems();
    var prefix := Slice(0, 3, 4);
    AliasFirstChild();
    AliasSecondChild();
    assert SiblingsAsWritten(4, items, [[0, 1, 2, 0]], prefix, 3, 3, 3, 30.0, 30.0, prefix)
           == (3, 40.0, Slice(0, 4, 4), [[0, 1, 2, 4], [0, 1, 2, 3, 4, 0, 0, 0]]);
    assert [0, 1, 2, 4][1..] == [1, 2, 4] && [1, 2, 4][1..] == [2, 4] && [2, 4][1..] == [4];
  }

  /**
   * Child 3 of that call: the prefix grows in place to [0, 1, 2, 3], worth
   * 40; its own child 4 needs a new array, weighs 5 and is rejected.
   */
  lemma AliasFirstChild()
    ensures Append([[0, 1, 2, 0]], Slice(0, 3, 4), 3) == ([[0, 1, 2, 3]], Slice(0, 4, 4))
    ensures KnapsackAsWritten(4, AliasItems(), [[0, 1, 2, 3]], Slice(0, 4, 4), 4, 4, 40.0)
            == (4, 40.0, Slice(0, 4, 4), [[0, 1, 2, 3], [0, 1, 2, 3, 4, 0, 0, 0]])
  {
    var items := AliasItems();
    var mem0: Arrays := [[0, 1, 2, 0]];
    var mem1: Arrays := [[0, 1, 2, 3]];
    assert [0, 1, 2, 0][3 := 3] == [0, 1, 2, 3];
    assert mem0[0 := [0, 1, 2, 3]] == mem1;
    var mem2: Arrays := [[0, 1, 2, 3], [0, 1, 2, 3, 4, 0, 0, 0]];
    assert seq(3, _ => 0) == [0, 0, 0];
    assert Contents(mem1, Slice(0, 4, 4)) == [0, 1, 2, 3];
    assert [0, 1, 2, 3] + [4] + [0, 0, 0] == [0, 1, 2, 3, 4, 0, 0, 0];
    assert mem1 + [[0, 1, 2, 3, 4, 0, 0, 0]] == mem2;
    assert Append(mem1, Slice(0, 4, 4), 4) == (mem2, Slice(1, 5, 8));
    assert KnapsackAsWritten(4, items, mem2, Slice(1, 5, 8), 5, 5, 41.0) == (5, 41.0, Slice(1, 5, 8), mem2);
    assert SiblingsAsWritten(4, items, mem2, Slice(0, 4, 4), 4, 5, 4, 40.0, 40.0, Slice(0, 4, 4))
           == (4, 40.0, Slice(0, 4, 4), mem2);
  }

  /**
   * Child 4 of that call, after child 3 was kept as the best: the append
   * writes 4 into the cell the kept configuration reads, and the child,
   * worth 31, does not replace the best.
   */
  lemma AliasSecondChild()
    ensures SiblingsAsWritten(4, AliasItems(), [[0, 1, 2, 3], [0, 1, 2, 3, 4, 0, 0, 0]], Slice(0, 3, 4), 3, 4,
                              3, 30.0, 40.0, Slice(0, 4, 4))
            == (3, 40.0, Slice(0, 4, 4), [[0, 1, 2, 4], [0, 1, 2, 3, 4, 0, 0, 0]])
  {
    var items := AliasItems();
    var mem2: Arrays := [[0, 1, 2, 3], [0, 1, 2, 3, 4, 0, 0, 0]];
    var mem3: Arrays := [[0, 1, 2, 4], [0, 1, 2, 3, 4, 0, 0, 0]];
    assert [0, 1, 2, 3][3 := 4] == [0, 1, 2, 4];
    assert mem2[0 := [0, 1, 2, 4]] == mem3;
    assert Append(mem2, Slice(0, 3, 4), 4) == (mem3, Slice(0, 4, 4));
    assert KnapsackAsWritten(4, items, mem3, Slice(0, 4, 4), 5, 4, 31.0) == (4, 31.0, Slice(0, 4, 4), mem3);
    assert SiblingsAsWritten(4, items, mem3, Slice(0, 3, 4), 3, 5, 3, 30.0, 40.0, Slice(0, 4, 4))
           == (3, 40.0, Slice(0, 4, 4), mem3);
  }
}

=== FILE: checker.dfy ===
/**
 * The migration admission tracker (pkg/monitoring/checker.go). Relocations
 * are queued back-to-back against one shared completion horizon
 * `latestFinish`; the blocking variant additionally refuses a new round
 * until the horizon plus a back-off interval has passed.
 *
 * Time is a whole number of seconds; `Add` is `+`, `BeforeOrEqual` is `<=`.
 */
module Checkers {
  import opened Types

  /** Seconds to wait after the last relocation finishes before a new round. */
  const BackoffInterval: int := 30

  /** The zero value of a clock, read for a pod that was never admitted. */
  const ZeroClock: int := 0

  /** Relocation duration in whole seconds: the ceiling of 3.3506 seconds per GB. */
  function GetMigrationTime(gbSize: real): (d: int)
    ensures d as real - 1.0 < 3.3506 * gbSize <= d as real
  {
    Ceil(3.3506 * gbSize)
  }

  lemma MigrationTimeMonotone(g1: real, g2: real)
    requires g1 <= g2
    ensures GetMigrationTime(g1) <= GetMigrationTime(g2)
  {
  }

  lemma MigrationTimeAnchors(g: real)
    ensures GetMigrationTime(0.0) == 0
    ensures g > 0.0 ==> GetMigrationTime(g) > 0
  {
  }

  /** The later of two instants. */
  function MaxClock(t1: int, t2: int): (startTime: int)
    ensures startTime >= t1 && startTime >= t2
    ensures startTime == t1 || startTime == t2
  {
    if t2 <= t1 then t1 else t2
  }

  /**
   * When a relocation of `gbSize` GB admitted at `now` finishes: it starts
   * once the horizon has passed (the first admission takes `now` as the
   * horizon) and lasts GetMigrationTime(gbSize).
   */
  function FinishTime(latestFinish: Option<int>, now: int, gbSize: real): int
  {
    MaxClock(if latestFinish.Some? then latestFinish.value else now, now) + GetMigrationTime(gbSize)
  }

  /** The pods whose recorded finish lies strictly after `now`. */
  function InFlight(finish: map<string, int>, now: int): set<string>
  {
    set p | p in finish && finish[p] > now
  }

  /** The pods of `pods` whose finish time in `finish` (same positions) lies after `t`. */
  function Unfinished(finish: seq<int>, pods: seq<string>, t: int): seq<string>
    requires |finish| <= |pods|
  {
    if finish == [] then []
    else
      var n := |finish| - 1;
      Unfinished(finish[..n], pods, t) + (if finish[n] > t then [pods[n]] else [])
  }

  /** The unthrottled checker: always ready, records every admission. */
  class ConcurrentChecker {
    var migrationFinish: map<string, int>
    var migrationStart: map<string, int>
    var latestFinish: Option<int>

    /** Every admitted pod has both records; no horizon before the first admission. */
    ghost predicate Valid()
      reads this
    {
      && migrationStart.Keys == migrationFinish.Keys
      && (latestFinish.None? ==> migrationFinish == map[])
    }

    /** Every relocation finishes after it starts and no later than the horizon. */
    ghost predicate Ordered()
      reads this
    {
      forall p :: p in migrationFinish && p in migrationStart ==>
        && migrationStart[p] <= migrationFinish[p]
        && (latestFinish.Some? ==> migrationFinish[p] <= latestFinish.value)
    }

    constructor ()
      ensures Valid() && Ordered()
      ensures migrationFinish == map[] && migrationStart == map[] && latestFinish == None
    {
      migrationFinish := map[];
      migrationStart := map[];
      latestFinish := None;
    }

    /** Admit `pod` at `t`; its record replaces any earlier one. */
    method StartMigration(t: int, gbSize: real, pod: string)
      requires Valid()
      modifies this
      ensures Valid()
      ensures latestFinish == Some(FinishTime(old(latestFinish), t, gbSize))
      ensures migrationStart == old(migrationStart)[pod := t]
      ensures migrationFinish == old(migrationFinish)[pod := latestFinish.value]
      ensures gbSize >= 0.0 && old(latestFinish).Some? ==> old(latestFinish).value <= latestFinish.value
      ensures gbSize >= 0.0 && old(Ordered()) ==> Ordered()
    {
      migrationStart := migrationStart[pod := t];
      var finish := UpdateLastMigrationFinishTime(gbSize, t);
      migrationFinish := migrationFinish[pod := finish];
    }

    /** Queue a relocation behind the horizon and move the horizon to its finish. */
    method UpdateLastMigrationFinishTime(gbSize: real, now: int) returns (res: int)
      modifies this`latestFinish
      ensures res == FinishTime(old(latestFinish), now, gbSize)
      ensures latestFinish == Some(res)
      ensures res >= now + GetMigrationTime(gbSize)
    {
      if latestFinish.None? {
        latestFinish := Some(now);
      }
      var startTime := MaxClock(latestFinish.value, now);
      res := startTime + GetMigrationTime(gbSize);
      latestFinish := Some(res);
    }

    /** The pods still relocating at `now`; the state is left as it is. */
    method GetMigratingJobs(now: int) returns (res: seq<string>)
      ensures forall p :: p in res <==> p in InFlight(migrationFinish, now)
      ensures forall j, k :: 0 <= j < k < |res| ==> res[j] != res[k]
    {
      res := [];
      var pending := migrationFinish.Keys;
      while pending != {}
        invariant pending <= migrationFinish.Keys
        invariant forall p :: p in res <==> p in migrationFinish && p !in pending && migrationFinish[p] > now
        invariant forall j, k :: 0 <= j < k < |res| ==> res[j] != res[k]
        decreases pending
      {
        var pod :| pod in pending;
        if !(migrationFinish[pod] <= now) {
          res := res + [pod];
        }
        pending := pending - {pod};
      }
    }

    function GetMigrationFinishTime(pod: string): (finish: int)
      reads this
      ensures pod in migrationFinish ==> finish == migrationFinish[pod]
      ensures pod !in migrationFinish ==> finish == ZeroClock
    {
      if pod in migrationFinish then migrationFinish[pod] else ZeroClock
    }

    function IsReady(current: int): (ready: bool)
      ensures ready
    {
      true
    }
  }

  /** The cooling-down checker: records admissions in its wrapper and gates rounds. */
  class BlockingChecker {
    const wrapper: ConcurrentChecker
    var migrationFinishTime: seq<int>
    var migrationPods: seq<string>

    /** Nothing ever appends to the local finish-time list. */
    ghost predicate Valid()
      reads this, wrapper
    {
      wrapper.Valid() && migrationFinishTime == []
    }

    constructor ()
      ensures Valid() && fresh(wrapper) && wrapper.Ordered()
      ensures wrapper.migrationFinish == map[] && wrapper.migrationStart == map[]
      ensures wrapper.latestFinish == None
      ensures migrationPods == []
    {
      wrapper := new ConcurrentChecker();
      migrationFinishTime := [];
      migrationPods := [];
    }

    /**
     * Filters the local lists and stores the result as the new pod list.
     * As admissions only reach the wrapper, the result is always empty.
     */
    method GetMigratingJobs(t: int) returns (res: seq<string>)
      requires |migrationFinishTime| <= |migrationPods|
      modifies this`migrationPods
      ensures res == Unfinished(migrationFinishTime, old(migrationPods), t)
      ensures migrationPods == res
      ensures old(Valid()) ==> Valid() && res == []
    {
      res := [];
      var idx := 0;
      while idx < |migrationFinishTime|
        invariant 0 <= idx <= |migrationFinishTime|
        invariant res == Unfinished(migrationFinishTime[..idx], migrationPods, t)
      {
        assert migrationFinishTime[..idx + 1][..idx] == migrationFinishTime[..idx];
        if !(migrationFinishTime[idx] <= t) {
          res := res + [migrationPods[idx]];
        }
        idx := idx + 1;
      }
      assert migrationFinishTime[..idx] == migrationFinishTime;
      migrationPods := res;
    }

    method StartMigration(t: int, gbSize: real, pod: string)
      requires Valid()
      modifies wrapper
      ensures Valid()
      ensures wrapper.latestFinish == Some(FinishTime(old(wrapper.latestFinish), t, gbSize))
      ensures wrapper.migrationStart == old(wrapper.migrationStart)[pod := t]
      ensures wrapper.migrationFinish == old(wrapper.migrationFinish)[pod := wrapper.latestFinish.value]
    {
      wrapper.StartMigration(t, gbSize, pod);
    }

    function GetMigrationFinishTime(pod: string): (finish: int)
      reads wrapper
      ensures finish == (if pod in wrapper.migrationFinish then wrapper.migrationFinish[pod] else ZeroClock)
    {
      wrapper.GetMigrationFinishTime(pod)
    }

    /** Ready before any admission, and afterwards once the horizon plus the back-off has passed. */
    predicate IsReady(current: int): (ready: bool)
      reads wrapper
      ensures wrapper.latestFinish.None? ==> ready
      ensures ready && wrapper.Valid() && wrapper.Ordered() ==> InFlight(wrapper.migrationFinish, current) == {}
    {
      if wrapper.latestFinish.None? then true
      else wrapper.latestFinish.value + BackoffInterval <= current
    }
  }

  /**
   * Once ready, the blocking checker stays ready as time advances; after an
   * admission, the first ready instant is the latest finish plus the back-off.
   */
  lemma BlockingReadiness(b: BlockingChecker, current: int, later: int)
    requires current <= later
    ensures b.IsReady(current) ==> b.IsReady(later)
    ensures b.wrapper.latestFinish.Some? ==>
              var first := b.wrapper.latestFinish.value + BackoffInterval;
              b.IsReady(first) && !b.IsReady(first - 1)
  {
  }

  /** The checker variants, resolved once at construction (MigrationCheckerI). */
  datatype MigrationChecker = Concurrent(concurrent: ConcurrentChecker) | Blocking(blocking: BlockingChecker)
  {
    /** The object holding the per-pod records and the horizon. */
    function Tracker(): ConcurrentChecker
    {
      match this
      case Concurrent(c) => c
      case Blocking(b) => b.wrapper
    }

    ghost function Repr(): set<object>
    {
      match this
      case Concurrent(c) => {c}
      case Blocking(b) => {b, b.wrapper}
    }

    ghost predicate Valid()
      reads Repr()
    {
      match this
      case Concurrent(c) => c.Valid()
      case Blocking(b) => b.Valid()
    }

    predicate IsReady(now: int): (ready: bool)
      reads Repr()
      ensures !ready ==> Blocking?
    {
      match this
      case Concurrent(c) => c.IsReady(now)
      case Blocking(b) => b.IsReady(now)
    }

    /** The pods GetMigratingJobs reports at `now`. */
    ghost function MigratingJobs(now: int): set<string>
      reads Repr()
    {
      match this
      case Concurrent(c) => InFlight(c.migrationFinish, now)
      case Blocking(b) =>
        if |b.migrationFinishTime| <= |b.migrationPods|
        then (var s := Unfinished(b.migrationFinishTime, b.migrationPods, now); set k | 0 <= k < |s| :: s[k])
        else {}
    }
  }

  /** "blocking" and any unknown tag give the blocking checker; "concurrent" the unthrottled one. */
  method NewMigrationChecker(checkerType: string) returns (m: MigrationChecker)
    ensures m.Valid() && fresh(m.Repr())
    ensures m.Concurrent? <==> checkerType == "concurrent"
    ensures m.Tracker().latestFinish == None && m.Tracker().migrationFinish == map[]
  {
    if checkerType == "concurrent" {
      var c := new ConcurrentChecker();
      m := Concurrent(c);
    } else {
      var b := new BlockingChecker();
      m := Blocking(b);
    }
  }

  method StartMigration(m: MigrationChecker, t: int, gbSize: real, pod: string)
    requires m.Valid()
    modifies m.Tracker()
    ensures m.Valid()
    ensures m.Tracker().latestFinish == Some(FinishTime(old(m.Tracker().latestFinish), t, gbSize))
    ensures m.Tracker().migrationStart == old(m.Tracker().migrationStart)[pod := t]
    ensures m.Tracker().migrationFinish == old(m.Tracker().migrationFinish)[pod := m.Tracker().latestFinish.value]
  {
    match m
    case Concurrent(c) => c.StartMigration(t, gbSize, pod);
    case Blocking(b) => b.StartMigration(t, gbSize, pod);
  }

  method GetMigratingJobs(m: MigrationChecker, now: int) returns (res: seq<string>)
    requires m.Valid()
    modifies if m.Blocking? then {m.blocking} else {}
    ensures m.Valid()
    ensures forall p :: p in res <==> p in old(m.MigratingJobs(now))
    ensures forall j, k :: 0 <= j < k < |res| ==> res[j] != res[k]
  {
    match m
    case Concurrent(c) =>
      res := c.GetMigratingJobs(now);
    case Blocking(b) =>
      res := b.GetMigratingJobs(now);
  }

  /**
   * Two admissions at the same instant run one after the other, and an
   * admission long after the horizon starts at its own time.
   */
  method ConcurrentAdmissionScenario(now: int) returns (finish1: int, finish2: int, finish3: int)
    ensures finish1 == now + GetMigrationTime(10.0)
    ensures finish2 == now + GetMigrationTime(10.0) + GetMigrationTime(20.0)
    ensures finish3 == now + 5 * 3600 + GetMigrationTime(10.0)
  {
    var checker := new ConcurrentChecker();
    checker.StartMigration(now, 10.0, "pod1");
    finish1 := checker.GetMigrationFinishTime("pod1");
    checker.StartMigration(now, 20.0, "pod2");
    finish2 := checker.GetMigrationFinishTime("pod2");
    var later := now + 5 * 3600;
    checker.StartMigration(later, 10.0, "pod3");
    finish3 := checker.GetMigrationFinishTime("pod3");
  }

  /** After one admission the blocking checker is not ready again until the back-off has passed. */
  method BlockingAdmissionScenario(now: int, gbSize: real) returns (readyDuring: bool, readyAfter: bool)
    requires gbSize > 0.0
    ensures !readyDuring
    ensures readyAfter
  {
    var checker := new BlockingChecker();
    checker.StartMigration(now, gbSize, "pod");
    readyDuring := checker.IsReady(now + BackoffInterval);
    readyAfter := checker.IsReady(now + GetMigrationTime(gbSize) + BackoffInterval);
  }
}

=== FILE: client.dfy ===
/**
 * The filtered metrics client (pkg/monitoring/client.go): it answers every
 * query like the client it wraps, except that pod memories leave out the
 * pods that are about to finish and so are not worth relocating.
 */
module FilteredClients {
  import opened Types

  /** Pods above this share of their runtime are left alone. */
  const MaxRuntimePercentage: real := 95.0

  /** Pods with fewer seconds than this left to run are left alone. */
  const MinRemainingRuntime: int := 180

  /** FilteredClient embeds the client it wraps. */
  datatype FilteredClient = FilteredClient(inner: Client)

  function NewFilteredClient(client: Client): (c: FilteredClient)
    ensures c.inner == client
  {
    FilteredClient(client)
  }

  /** The pod is still worth relocating: not too far into its runtime, and long enough left to run. */
  predicate Keep(client: Client, pod: string)
  {
    && !(client.runtimePercentage(pod) > MaxRuntimePercentage)
    && !(client.runtime(pod) - client.executionTime(pod) < MinRemainingRuntime)
  }

  /** The pods of `podMems` worth relocating, with their memory. */
  function KeptPods(client: Client, podMems: PodMemMap): PodMemMap
  {
    map p | p in podMems && Keep(client, p) :: podMems[p]
  }

  /** The filter only drops entries and never changes a memory value. */
  lemma KeptPodsShrinks(client: Client, podMems: PodMemMap)
    ensures KeptPods(client, podMems).Keys <= podMems.Keys
    ensures forall p :: p in KeptPods(client, podMems) ==> KeptPods(client, podMems)[p] == podMems[p]
  {
  }

  /** Filtering twice is filtering once. */
  lemma KeptPodsIdempotent(client: Client, podMems: PodMemMap)
    ensures KeptPods(client, KeptPods(client, podMems)) == KeptPods(client, podMems)
  {
  }

  /**
   * filterPods: copies the entries of the pods worth relocating into a new
   * map, one map entry at a time.
   */
  method FilterPods(c: FilteredClient, podMems: PodMemMap) returns (filtered: PodMemMap)
    ensures filtered == KeptPods(c.inner, podMems)
    ensures forall p :: p in podMems && c.inner.runtimePercentage(p) > MaxRuntimePercentage ==> p !in filtered
    ensures forall p :: p in podMems && c.inner.runtime(p) < c.inner.executionTime(p) + MinRemainingRuntime ==>
              p !in filtered
  {
    filtered := map[];
    var pending := podMems.Keys;
    while pending != {}
      invariant pending <= podMems.Keys
      invariant forall p :: p in filtered <==> p in podMems && p !in pending && Keep(c.inner, p)
      invariant forall p :: p in filtered ==> filtered[p] == podMems[p]
      decreases |pending|
    {
      var job :| job in pending;
      var amount := podMems[job];
      pending := pending - {job};
      if c.inner.runtimePercentage(job) > MaxRuntimePercentage {
        continue;
      }
      var exec := c.inner.executionTime(job);
      var runtime := c.inner.runtime(job);
      if runtime - exec < MinRemainingRuntime {
        continue;
      }
      filtered := filtered[job := amount];
    }
  }

  /**
   * GetPodMemories: the wrapped client's answer, filtered; on a client
   * error, no map and the error.
   */
  method GetPodMemories(c: FilteredClient, node: string) returns (pods: PodMemMap, err: Option<Error>)
    ensures c.inner.podMemories(node).failed ==> pods == map[] && err == Some(ClientFailure)
    ensures !c.inner.podMemories(node).failed ==>
              pods == KeptPods(c.inner, c.inner.podMemories(node).value) && err == None
  {
    var res := c.inner.podMemories(node);
    if res.failed {
      return map[], Some(ClientFailure);
    }
    pods := FilterPods(c, res.value);
    err := None;
  }

  /**
   * The filtered client seen through the client interface: every query
   * is the wrapped client's, except pod memories.
   */
  function AsClient(c: FilteredClient): (r: Client)
    ensures r == c.inner.(podMemories := r.podMemories)
    ensures forall node :: r.podMemories(node).failed == c.inner.podMemories(node).failed
    ensures forall node :: !c.inner.podMemories(node).failed ==>
              r.podMemories(node).value == KeptPods(c.inner, c.inner.podMemories(node).value)
    ensures forall node :: c.inner.podMemories(node).failed ==> r.podMemories(node).value == map[]
  {
    c.inner.(podMemories := node =>
      if c.inner.podMemories(node).failed then Reply(map[], true)
      else Reply(KeptPods(c.inner, c.inner.podMemories(node).value), false))
  }

  /** GetPodMemories answers what the filtered client reports through the interface. */
  lemma AsClientPodMemories(c: FilteredClient, node: string)
    ensures AsClient(c).podMemories(node).value.Keys <= c.inner.podMemories(node).value.Keys
    ensures !c.inner.podMemories(node).failed ==>
              AsClient(c).podMemories(node).value == KeptPods(c.inner, c.inner.podMemories(node).value)
  {
  }
}

=== FILE: cluster.dfy ===
/**
 * The cluster's static capacity facts and the conversions between a node's
 * free percentage and free gigabytes (pkg/monitoring/cluster.go).
 */
module Clusters {
  import opened Types

  datatype Cluster = Cluster(nbrNodes: int, nodeGb: real)
  {
    /** Construction-time invariant: at least one node, positive node size. */
    predicate Valid()
    {
      nbrNodes >= 1 && nodeGb > 0.0
    }
  }

  /** The production cluster: two nodes of 450 GB. */
  function NewCluster(): (c: Cluster)
    ensures c.Valid()
    ensures c.nbrNodes == 2 && c.nodeGb == 450.0
  {
    Cluster(2, 450.0)
  }

  /** There is still a node without a request exactly when not every node has one. */
  function IsSpaceAvailableBefore(c: Cluster, nodes: seq<NodeFreeGbRequest>): (r: bool)
    ensures !r <==> |nodes| == c.nbrNodes
  {
    |nodes| != c.nbrNodes
  }

  /** `freeNodeGb` gigabytes as a percentage of one node (getFreePercent, GetUsagePercent). */
  function GetUsagePercent(c: Cluster, freeNodeGb: real): (r: real)
    requires c.nodeGb != 0.0
    ensures freeNodeGb == 0.0 ==> r == 0.0
    ensures freeNodeGb == c.nodeGb ==> r == 100.0
  {
    assert c.nodeGb / c.nodeGb == 1.0;
    freeNodeGb / c.nodeGb * 100.0
  }

  /** `freeNodePercent` percent of one node, in gigabytes. */
  function GetAvailableGb(c: Cluster, freeNodePercent: real): (r: real)
    ensures freeNodePercent == 0.0 ==> r == 0.0
    ensures freeNodePercent == 100.0 ==> r == c.nodeGb
  {
    freeNodePercent / 100.0 * c.nodeGb
  }

  lemma AvailableGbOfUsagePercent(c: Cluster, gb: real)
    requires c.nodeGb != 0.0
    ensures GetAvailableGb(c, GetUsagePercent(c, gb)) == gb
  {
  }

  lemma UsagePercentOfAvailableGb(c: Cluster, p: real)
    requires c.nodeGb != 0.0
    ensures GetUsagePercent(c, GetAvailableGb(c, p)) == p
  {
  }

  lemma ConversionAnchors(c: Cluster)
    requires c.nodeGb != 0.0
    ensures GetUsagePercent(c, c.nodeGb) == 100.0
    ensures GetAvailableGb(c, 0.0) == 0.0
  {
    assert c.nodeGb / c.nodeGb == 1.0;
  }

  lemma ConversionsStrictlyIncreasing(c: Cluster, x: real, y: real)
    requires c.nodeGb > 0.0
    requires x < y
    ensures GetUsagePercent(c, x) < GetUsagePercent(c, y)
    ensures GetAvailableGb(c, x) < GetAvailableGb(c, y)
  {
    UsagePercentOrder(c, x, y);
    AvailableGbOrder(c, x, y);
  }

  /** A larger amount of GB is a larger percentage. */
  lemma UsagePercentOrder(c: Cluster, x: real, y: real)
    requires c.nodeGb > 0.0 && x < y
    ensures GetUsagePercent(c, x) < GetUsagePercent(c, y)
  {
    assert x / c.nodeGb < y / c.nodeGb;
  }

  /** A larger percentage is a larger amount of GB. */
  lemma AvailableGbOrder(c: Cluster, x: real, y: real)
    requires c.nodeGb > 0.0 && x < y
    ensures GetAvailableGb(c, x) < GetAvailableGb(c, y)
  {
    assert (y / 100.0 - x / 100.0) * c.nodeGb > 0.0;
  }
}

=== FILE: controller.dfy ===
/**
 * The migration controller (pkg/monitoring/controller.go): each tick it
 * asks the request policy which nodes need memory freed, asks the
 * migration policy for pods to move off each of them, lets the request
 * policy validate the commands against the destination node, and admits
 * what passes with the migration policy's checker.
 */
module Controllers {
  import opened Types
  import opened Clusters
  import opened Checkers
  import opened RequestPolicies
  import opened MigrationPolicies

  /** Requests for fewer GB than this end the tick without migrations. */
  const DefaultMinRequestSize: real := 7.0

  datatype Controller = Controller(requester: Requester, migrator: Migrator, minRequestSize: real)

  function NewController(requester: Requester, migrator: Migrator): (c: Controller)
    ensures c.requester == requester && c.migrator == migrator
    ensures c.minRequestSize == DefaultMinRequestSize
  {
    Controller(requester, migrator, DefaultMinRequestSize)
  }

  /**
   * `cmd` is what validation makes of a candidate for `request`: a pod of
   * the request's node, at that pod's memory, headed to the least-used
   * other node.
   */
  ghost predicate ValidatedFor(client: Client, node: string, cmd: MigrationCmd)
  {
    && cmd.usage == Lookup(client.podMemories(node).value, cmd.pod)
    && IsLeastUsed(client.freeMemoryOfNodes, node, cmd.newNode)
  }

  /**
   * `validated` is what validating a batch of the policy's candidates for
   * `request` keeps: the greedy in-order acceptance against the least-used
   * other node of candidates that carry their pods' memory.
   */
  ghost predicate ValidationOf(threshold: real, cluster: Cluster, client: Client, request: NodeFreeGbRequest,
                               validated: seq<MigrationCmd>)
  {
    exists candidates: seq<MigrationCmd>, leastNode: string ::
      ValidationFrom(threshold, cluster, client, request, candidates, leastNode, validated)
  }

  /** `validated` is what validation keeps of `candidates`, sent to `leastNode`. */
  ghost predicate ValidationFrom(threshold: real, cluster: Cluster, client: Client, request: NodeFreeGbRequest,
                                 candidates: seq<MigrationCmd>, leastNode: string, validated: seq<MigrationCmd>)
  {
    && cluster.nodeGb != 0.0
    && SoundBatch(client.podMemories(request.node).value, candidates)
    && IsLeastUsed(client.freeMemoryOfNodes, request.node, leastNode)
    && validated == Accepted(candidates, GetAvailableGb(cluster, Lookup(client.freeMemoryOfNodes, leastNode)),
                             leastNode, threshold, cluster)
  }

  /**
   * Batch after batch, each batch is the non-empty validation outcome of the
   * request at its position (BatchesAt states it position by position).
   */
  ghost predicate BatchesOf(threshold: real, cluster: Cluster, client: Client, requests: seq<NodeFreeGbRequest>,
                            batches: seq<seq<MigrationCmd>>)
    decreases |batches|
  {
    && |batches| <= |requests|
    && (batches != [] ==>
          && BatchesOf(threshold, cluster, client, requests, batches[..|batches| - 1])
          && batches[|batches| - 1] != []
          && ValidationOf(threshold, cluster, client, requests[|batches| - 1], batches[|batches| - 1]))
  }

  /** Every batch is the non-empty validation outcome of the request at its position. */
  lemma {:induction false} BatchesAt(threshold: real, cluster: Cluster, client: Client, requests: seq<NodeFreeGbRequest>,
                                     batches: seq<seq<MigrationCmd>>)
    requires BatchesOf(threshold, cluster, client, requests, batches)
    ensures |batches| <= |requests|
    ensures forall j :: 0 <= j < |batches| ==>
              batches[j] != [] && ValidationOf(threshold, cluster, client, requests[j], batches[j])
    decreases |batches|
  {
    if batches != [] {
      var front := batches[..|batches| - 1];
      BatchesAt(threshold, cluster, client, requests, front);
      forall j | 0 <= j < |front|
        ensures batches[j] == front[j]
      {
      }
    }
  }

  /** One more request's validated batch extends the batches and their commands. */
  lemma BatchesStep(threshold: real, cluster: Cluster, client: Client, requests: seq<NodeFreeGbRequest>,
                    batches: seq<seq<MigrationCmd>>, validated: seq<MigrationCmd>)
    requires BatchesOf(threshold, cluster, client, requests, batches) && |batches| < |requests|
    requires validated != [] && ValidationOf(threshold, cluster, client, requests[|batches|], validated)
    ensures BatchesOf(threshold, cluster, client, requests, batches + [validated])
    ensures Concat(batches + [validated]) == Concat(batches) + validated
  {
    var all := batches + [validated];
    assert all[..|all| - 1] == batches && all[|all| - 1] == validated;
  }

  /** The commands of the batches, batch after batch. */
  function Concat(batches: seq<seq<MigrationCmd>>): (cmds: seq<MigrationCmd>)
    ensures batches == [] ==> cmds == []
  {
    if batches == [] then [] else Concat(batches[..|batches| - 1]) + batches[|batches| - 1]
  }

  /** `cmd` is validated for one of the first `handled` requests. */
  ghost predicate ValidatedForOneOf(client: Client, requests: seq<NodeFreeGbRequest>, handled: nat, cmd: MigrationCmd)
  {
    exists j :: 0 <= j < handled && j < |requests| && ValidatedFor(client, requests[j].node, cmd)
  }

  /** Each of `cmds` is validated for one of the first `handled` requests. */
  ghost predicate AllValidated(client: Client, requests: seq<NodeFreeGbRequest>, handled: nat, cmds: seq<MigrationCmd>)
  {
    forall k :: 0 <= k < |cmds| ==> ValidatedForOneOf(client, requests, handled, cmds[k])
  }

  /** `cmd` is validated for some node the client reports on. */
  ghost predicate ValidatedForSomeNode(client: Client, cmd: MigrationCmd)
  {
    exists node :: node in client.freeMemoryOfNodes && ValidatedFor(client, node, cmd)
  }

  lemma AllValidatedStep(client: Client, requests: seq<NodeFreeGbRequest>, handled: nat,
                         accepted: seq<MigrationCmd>, validated: seq<MigrationCmd>)
    requires AllValidated(client, requests, handled, accepted)
    requires handled < |requests|
    requires forall k :: 0 <= k < |validated| ==> ValidatedFor(client, requests[handled].node, validated[k])
    ensures AllValidated(client, requests, handled + 1, accepted + validated)
  {
    var all := accepted + validated;
    forall k | 0 <= k < |all|
      ensures ValidatedForOneOf(client, requests, handled + 1, all[k])
    {
      if k < |accepted| {
        assert all[k] == accepted[k];
        var j :| 0 <= j < handled && j < |requests| && ValidatedFor(client, requests[j].node, accepted[k]);
        assert ValidatedFor(client, requests[j].node, all[k]);
      } else {
        assert all[k] == validated[k - |accepted|];
        assert ValidatedFor(client, requests[handled].node, all[k]);
      }
    }
  }

  /** The checker has recorded `pod` as started at `now`. */
  ghost predicate Admitted(tracker: ConcurrentChecker, pod: string, now: int)
    reads tracker
  {
    pod in tracker.migrationStart && tracker.migrationStart[pod] == now
  }

  /** The checker has recorded every pod of `cmds` as started at `now`. */
  ghost predicate AllAdmitted(tracker: ConcurrentChecker, cmds: seq<MigrationCmd>, now: int)
    reads tracker
  {
    forall k :: 0 <= k < |cmds| ==> Admitted(tracker, cmds[k].pod, now)
  }

  /** The checker's horizon has reached `now`: its latest finish is not before `now`. */
  ghost predicate BusyUntil(tracker: ConcurrentChecker, now: int)
    reads tracker
  {
    tracker.latestFinish.Some? && tracker.latestFinish.value >= now
  }

  /** Every pod memory the client reports is non-negative. */
  ghost predicate NonNegativeMemories(client: Client)
  {
    forall node, p :: p in client.podMemories(node).value ==> client.podMemories(node).value[p] >= 0.0
  }

  predicate NonNegativeUsages(cmds: seq<MigrationCmd>)
  {
    forall k :: 0 <= k < |cmds| ==> cmds[k].usage >= 0.0
  }

  /**
   * The admission loop the source means to run: each validated command is
   * started with the checker, in order. Admitting a relocation of
   * non-negative size moves the horizon to `now` or later.
   */
  method AdmitAll(mig: Migrator, ghost earlier: seq<MigrationCmd>, cmds: seq<MigrationCmd>, now: int)
    requires mig.Checker().Valid()
    requires AllAdmitted(mig.Checker().Tracker(), earlier, now)
    modifies mig.Checker().Tracker()
    ensures mig.Checker().Valid()
    ensures AllAdmitted(mig.Checker().Tracker(), earlier + cmds, now)
    ensures NonNegativeUsages(cmds) && (old(BusyUntil(mig.Checker().Tracker(), now)) || cmds != []) ==>
              BusyUntil(mig.Checker().Tracker(), now)
  {
    for i := 0 to |cmds|
      invariant mig.Checker().Valid()
      invariant AllAdmitted(mig.Checker().Tracker(), earlier + cmds[..i], now)
      invariant NonNegativeUsages(cmds) && (old(BusyUntil(mig.Checker().Tracker(), now)) || i > 0) ==>
                  BusyUntil(mig.Checker().Tracker(), now)
    {
      MigrationPolicies.StartMigration(mig, cmds[i], now);
      assert earlier + cmds[..i + 1] == (earlier + cmds[..i]) + [cmds[i]];
    }
    assert cmds[..|cmds|] == cmds;
  }

  /** Every accepted command is one of the candidates, re-addressed to `dest`. */
  lemma {:induction false} AcceptedFromCandidates(cmds: seq<MigrationCmd>, freeGb: real, dest: string,
                                                  threshold: real, cluster: Cluster)
    requires cluster.nodeGb != 0.0
    ensures forall x :: x in Accepted(cmds, freeGb, dest, threshold, cluster) ==>
              x.newNode == dest && exists j :: 0 <= j < |cmds| && x.pod == cmds[j].pod && x.usage == cmds[j].usage
  {
    if cmds != [] {
      var newFreeGb := freeGb - cmds[0].usage;
      AcceptedFromCandidates(cmds[1..], freeGb, dest, threshold, cluster);
      AcceptedFromCandidates(cmds[1..], newFreeGb, dest, threshold, cluster);
      forall x | x in Accepted(cmds, freeGb, dest, threshold, cluster)
        ensures x.newNode == dest && exists j :: 0 <= j < |cmds| && x.pod == cmds[j].pod && x.usage == cmds[j].usage
      {
        if x != cmds[0].(newNode := dest) {
          var rest := if GetUsagePercent(cluster, newFreeGb) < threshold + ValidationMargin
                      then Accepted(cmds[1..], freeGb, dest, threshold, cluster)
                      else Accepted(cmds[1..], newFreeGb, dest, threshold, cluster);
          assert x in rest;
          var j :| 0 <= j < |cmds[1..]| && x.pod == cmds[1..][j].pod && x.usage == cmds[1..][j].usage;
          assert cmds[1..][j] == cmds[j + 1];
        }
      }
    }
  }

  /** What validation keeps of a sound batch is validated for the request. */
  lemma ValidatedBatch(client: Client, request: NodeFreeGbRequest, cmds: seq<MigrationCmd>,
                       validated: seq<MigrationCmd>, leastNode: string, threshold: real, cluster: Cluster)
    requires cluster.nodeGb != 0.0
    requires SoundBatch(client.podMemories(request.node).value, cmds)
    requires IsLeastUsed(client.freeMemoryOfNodes, request.node, leastNode)
    requires validated == Accepted(cmds, GetAvailableGb(cluster, Lookup(client.freeMemoryOfNodes, leastNode)),
                                   leastNode, threshold, cluster)
    ensures forall k :: 0 <= k < |validated| ==> ValidatedFor(client, request.node, validated[k])
  {
    AcceptedFromCandidates(cmds, GetAvailableGb(cluster, Lookup(client.freeMemoryOfNodes, leastNode)),
                           leastNode, threshold, cluster);
    forall k | 0 <= k < |validated|
      ensures ValidatedFor(client, request.node, validated[k])
    {
      assert validated[k] in validated;
    }
  }

  /** Commands validated against a client reporting non-negative memories move non-negative sizes. */
  lemma ValidatedNonNegative(client: Client, node: string, cmds: seq<MigrationCmd>)
    requires NonNegativeMemories(client)
    requires forall k :: 0 <= k < |cmds| ==> ValidatedFor(client, node, cmds[k])
    ensures NonNegativeUsages(cmds)
  {
    forall k | 0 <= k < |cmds|
      ensures cmds[k].usage >= 0.0
    {
      var pods := client.podMemories(node).value;
      if cmds[k].pod in pods {
        assert pods[cmds[k].pod] >= 0.0;
      }
    }
  }

  /**
   * The body of the source's request loop for a request large enough to
   * handle: the migration policy's candidates, validated against the
   * least-used other node. An error of the policy comes back wrapped; a
   * batch validation rejects entirely is a full node.
   */
  method ExamineRequest(c: Controller, client: Client, now: int, request: NodeFreeGbRequest)
    returns (validated: seq<MigrationCmd>, err: Option<Error>)
    requires c.requester.ClusterOf().nodeGb != 0.0
    requires c.migrator.Checker().Valid()
    modifies if c.migrator.Checker().Blocking? then {c.migrator.Checker().blocking} else {}
    ensures c.migrator.Checker().Valid() && unchanged(c.migrator.Checker().Tracker())
    ensures !old(c.migrator.Checker().IsReady(now)) ==> err == Some(ProblemDuringRequest(CheckerNotReady))
    ensures err.Some? ==>
              && validated == []
              && (|| err.value.ProblemDuringRequest?
                  || (err.value.NodeFull? && err.value.request == request && err.value.migrations != []))
    ensures err.None? ==> validated != [] && forall k :: 0 <= k < |validated| ==> ValidatedFor(client, request.node, validated[k])
    ensures err.None? ==>
              ValidationOf(c.requester.ThresholdFreePercent(), c.requester.ClusterOf(), client, request, validated)
    ensures err.None? && NonNegativeMemories(client) ==> NonNegativeUsages(validated)
  {
    var cmds, e := GetMigrationCmdsWithTime(c.migrator, client, now, request);
    if e.Some? {
      return [], Some(ProblemDuringRequest(e.value));
    }
    var threshold, cluster := c.requester.ThresholdFreePercent(), c.requester.ClusterOf();
    ghost var leastNode;
    validated, leastNode := ValidateCmds(threshold, cluster, client, request.node, cmds);
    if |validated| == 0 && |cmds| > 0 {
      return [], Some(NodeFull(request, cmds));
    }
    ValidatedBatch(client, request, cmds, validated, leastNode, threshold, cluster);
    assert ValidationFrom(threshold, cluster, client, request, cmds, leastNode, validated);
    if NonNegativeMemories(client) {
      ValidatedNonNegative(client, request.node, validated);
    }
    err := None;
  }

  /**
   * One pass of the source's request loop for a request large enough to
   * handle: the request examined and, when validation accepts commands for
   * it, those commands admitted with the checker after the `earlier` ones.
   */
  method AcceptRequest(c: Controller, client: Client, now: int, requests: seq<NodeFreeGbRequest>, n: nat,
                       ghost earlier: seq<MigrationCmd>, ghost batches: seq<seq<MigrationCmd>>)
    returns (validated: seq<MigrationCmd>, err: Option<Error>, ghost batches': seq<seq<MigrationCmd>>)
    requires n < |requests|
    requires |batches| == n && earlier == Concat(batches)
    requires BatchesOf(c.requester.ThresholdFreePercent(), c.requester.ClusterOf(), client, requests, batches)
    requires c.requester.ClusterOf().nodeGb != 0.0
    requires c.migrator.Checker().Valid()
    requires AllValidated(client, requests, n, earlier)
    requires AllAdmitted(c.migrator.Checker().Tracker(), earlier, now)
    modifies c.migrator.Checker().Repr()
    ensures c.migrator.Checker().Valid()
    ensures !old(c.migrator.Checker().IsReady(now)) ==> err.Some?
    ensures err.Some? ==>
              && validated == []
              && (|| err.value.ProblemDuringRequest?
                  || (err.value.NodeFull? && err.value.request == requests[n] && err.value.migrations != []))
    ensures err.None? ==> validated != [] && AllValidated(client, requests, n + 1, earlier + validated)
    ensures |batches'| == (if err.None? then n + 1 else n) && Concat(batches') == earlier + validated
    ensures BatchesOf(c.requester.ThresholdFreePercent(), c.requester.ClusterOf(), client, requests, batches')
    ensures AllAdmitted(c.migrator.Checker().Tracker(), earlier + validated, now)
    ensures NonNegativeMemories(client) && (old(BusyUntil(c.migrator.Checker().Tracker(), now)) || validated != []) ==>
              BusyUntil(c.migrator.Checker().Tracker(), now)
  {
    ghost var threshold, cluster := c.requester.ThresholdFreePercent(), c.requester.ClusterOf();
    validated, err := ExamineRequest(c, client, now, requests[n]);
    if err.Some? {
      assert earlier + validated == earlier;
      return validated, err, batches;
    }
    AllValidatedStep(client, requests, n, earlier, validated);
    BatchesStep(threshold, cluster, client, requests, batches, validated);
    batches' := batches + [validated];
    AdmitAll(c.migrator, earlier, validated, now);
  }

  /**
   * One tick's handling of the node requests, with the commands that pass
   * validation admitted with the checker and returned. `handled` counts
   * the requests that were handled to the end; `batches` holds what
   * validation accepted for each of them, and `accepted` all of it.
   */
  method HandleRequests(c: Controller, client: Client, now: int, requests: seq<NodeFreeGbRequest>)
    returns (migrations: seq<MigrationCmd>, err: Option<Error>, ghost handled: nat, ghost accepted: seq<MigrationCmd>,
             ghost batches: seq<seq<MigrationCmd>>)
    requires c.requester.ClusterOf().nodeGb != 0.0
    requires c.migrator.Checker().Valid()
    modifies c.migrator.Checker().Repr()
    ensures c.migrator.Checker().Valid()
    ensures handled <= |requests|
    ensures forall k :: 0 <= k < handled ==> requests[k].amount >= c.minRequestSize
    // every handled request contributes at least one accepted command
    ensures |accepted| >= handled
    // the accepted commands are exactly the validated batches of the handled requests
    ensures |batches| == handled && accepted == Concat(batches)
    ensures BatchesOf(c.requester.ThresholdFreePercent(), c.requester.ClusterOf(), client, requests, batches)
    ensures AllValidated(client, requests, handled, accepted)
    ensures AllAdmitted(c.migrator.Checker().Tracker(), accepted, now)
    ensures migrations == [] || migrations == accepted
    ensures handled == |requests| ==> migrations == accepted && err == None
    // a request that is too small ends the tick with nothing returned
    ensures handled < |requests| && requests[handled].amount < c.minRequestSize ==> migrations == [] && err == None
    ensures handled < |requests| && requests[handled].amount >= c.minRequestSize ==>
              || (migrations == [] && err.Some? && err.value.ProblemDuringRequest?)
              || (migrations == accepted && err.Some? && err.value.NodeFull?
                  && err.value.request == requests[handled] && err.value.migrations != [])
    // a checker that is not ready admits nothing
    ensures !old(c.migrator.Checker().IsReady(now)) ==> accepted == []
    // what is admitted keeps the checker busy until `now` at least
    ensures NonNegativeMemories(client) && accepted != [] ==> BusyUntil(c.migrator.Checker().Tracker(), now)
  {
    migrations := [];
    accepted := [];
    batches := [];
    handled := 0;
    err := None;
    ghost var tracker := c.migrator.Checker().Tracker();
    ghost var readyAtStart := c.migrator.Checker().IsReady(now);
    var n := 0;
    while n < |requests|
      invariant handled == n <= |requests|
      invariant c.migrator.Checker().Valid()
      invariant forall k :: 0 <= k < handled ==> requests[k].amount >= c.minRequestSize
      invariant migrations == accepted && |accepted| >= handled
      invariant |batches| == handled && accepted == Concat(batches)
      invariant BatchesOf(c.requester.ThresholdFreePercent(), c.requester.ClusterOf(), client, requests, batches)
      invariant AllValidated(client, requests, handled, accepted)
      invariant AllAdmitted(tracker, accepted, now)
      invariant !readyAtStart ==> accepted == [] && !c.migrator.Checker().IsReady(now)
      invariant NonNegativeMemories(client) && accepted != [] ==> BusyUntil(tracker, now)
      decreases |requests| - n
    {
      var request := requests[n];
      if request.amount < c.minRequestSize {
        migrations := [];
        return;
      }
      var validated, e;
      validated, e, batches := AcceptRequest(c, client, now, requests, n, accepted, batches);
      if e.Some? {
        assert accepted + validated == accepted;
        if e.value.ProblemDuringRequest? {
          migrations := [];
        }
        err := e;
        return;
      }
      migrations := migrations + validated;
      accepted := accepted + validated;
      n := n + 1;
      handled := n;
    }
  }

  /**
   * The same handling as the source writes it: the admission loop ranges
   * over `migrations`, which nothing appends to, so it starts nothing and
   * the tick returns no command whatever validation accepted.
   */
  method HandleRequestsAsWritten(c: Controller, client: Client, now: int, requests: seq<NodeFreeGbRequest>)
    returns (migrations: seq<MigrationCmd>, err: Option<Error>, ghost handled: nat, ghost accepted: seq<MigrationCmd>)
    requires c.requester.ClusterOf().nodeGb != 0.0
    requires c.migrator.Checker().Valid()
    modifies c.migrator.Checker().Repr()
    ensures c.migrator.Checker().Valid()
    ensures handled <= |requests|
    ensures forall k :: 0 <= k < handled ==> requests[k].amount >= c.minRequestSize
    ensures |accepted| >= handled
    ensures AllValidated(client, requests, handled, accepted)
    // nothing accepted is returned or admitted
    ensures migrations == []
    ensures c.migrator.Checker().Tracker().migrationStart == old(c.migrator.Checker().Tracker().migrationStart)
    ensures c.migrator.Checker().Tracker().latestFinish == old(c.migrator.Checker().Tracker().latestFinish)
    ensures handled == |requests| ==> err == None
    ensures handled < |requests| && requests[handled].amount < c.minRequestSize ==> err == None
    ensures handled < |requests| && requests[handled].amount >= c.minRequestSize ==>
              || (err.Some? && err.value.ProblemDuringRequest?)
              || (err.Some? && err.value.NodeFull? && err.value.request == requests[handled] && err.value.migrations != [])
  {
    migrations := [];
    accepted := [];
    handled := 0;
    err := None;
    var n := 0;
    while n < |requests|
      invariant handled == n <= |requests|
      invariant c.migrator.Checker().Valid()
      invariant forall k :: 0 <= k < handled ==> requests[k].amount >= c.minRequestSize
      invariant |accepted| >= handled
      invariant AllValidated(client, requests, handled, accepted)
      invariant c.migrator.Checker().Tracker().migrationStart == old(c.migrator.Checker().Tracker().migrationStart)
      invariant c.migrator.Checker().Tracker().latestFinish == old(c.migrator.Checker().Tracker().latestFinish)
      decreases |requests| - n
    {
      var request := requests[n];
      if request.amount < c.minRequestSize {
        return;
      }
      var validated, e := ExamineRequest(c, client, now, request);
      if e.Some? {
        err := e;
        return;
      }
      AllValidatedStep(client, requests, n, accepted, validated);
      // the admission loop over the still empty `migrations` does nothing
      accepted := accepted + validated;
      n := n + 1;
      handled := n;
    }
  }

  /** GetMigrations: the request policy's requests for this tick, handled in order. */
  method GetMigrations(c: Controller, client: Client, now: int)
    returns (migrations: seq<MigrationCmd>, err: Option<Error>)
    requires c.requester.ClusterOf().nodeGb != 0.0
    requires c.migrator.Checker().Valid()
    modifies c.migrator.Checker().Repr()
    ensures c.migrator.Checker().Valid()
    ensures AllAdmitted(c.migrator.Checker().Tracker(), migrations, now)
    ensures forall k :: 0 <= k < |migrations| ==> ValidatedForSomeNode(client, migrations[k])
    ensures err.Some? ==> err.value.ProblemDuringRequest? || err.value.NodeFull?
    ensures !old(c.migrator.Checker().IsReady(now)) ==> migrations == []
    ensures NonNegativeMemories(client) && migrations != [] ==> BusyUntil(c.migrator.Checker().Tracker(), now)
  {
    var requests := GetNodeFreeGbRequests(c.requester, client);
    ghost var handled, accepted, batches;
    migrations, err, handled, accepted, batches := HandleRequests(c, client, now, requests);
    forall k | 0 <= k < |migrations|
      ensures ValidatedForSomeNode(client, migrations[k])
    {
      assert migrations == accepted && migrations[k] == accepted[k];
      var j :| 0 <= j < handled && j < |requests| && ValidatedFor(client, requests[j].node, accepted[k]);
      assert requests[j].node in RequestedNodes(requests);
      assert ValidatedFor(client, requests[j].node, migrations[k]);
    }
  }

  /**
   * Two ticks at the same instant with the blocking checker: once the
   * first tick has admitted commands, the checker is cooling down and the
   * second tick returns none.
   */
  method RepeatedTick(c: Controller, client: Client, now: int)
    returns (first: seq<MigrationCmd>, second: seq<MigrationCmd>)
    requires c.requester.ClusterOf().nodeGb != 0.0
    requires c.migrator.Checker().Valid() && c.migrator.Checker().Blocking?
    requires NonNegativeMemories(client)
    modifies c.migrator.Checker().Repr()
    ensures first != [] ==> second == []
  {
    var firstErr, secondErr;
    first, firstErr := GetMigrations(c, client, now);
    second, secondErr := GetMigrations(c, client, now);
  }

  /** GetMigrations as the source writes it: never a command. */
  method GetMigrationsAsWritten(c: Controller, client: Client, now: int)
    returns (migrations: seq<MigrationCmd>, err: Option<Error>)
    requires c.requester.ClusterOf().nodeGb != 0.0
    requires c.migrator.Checker().Valid()
    modifies c.migrator.Checker().Repr()
    ensures c.migrator.Checker().Valid()
    ensures migrations == []
    ensures c.migrator.Checker().Tracker().migrationStart == old(c.migrator.Checker().Tracker().migrationStart)
    ensures err.Some? ==> err.value.ProblemDuringRequest? || err.value.NodeFull?
  {
    var requests := GetNodeFreeGbRequests(c.requester, client);
    ghost var handled, accepted;
    migrations, err, handled, accepted := HandleRequestsAsWritten(c, client, now, requests);
  }

  /** sumPodMemories: the GB a batch of commands moves, added up in order. */
  method SumPodMemories(cmds: seq<MigrationCmd>) returns (memSum: real)
    ensures memSum == UsageSum(cmds)
    ensures cmds == [] ==> memSum == 0.0
    ensures (forall k :: 0 <= k < |cmds| ==> cmds[k].usage >= 0.0) ==> memSum >= 0.0
  {
    memSum := 0.0;
    for i := 0 to |cmds|
      invariant memSum + UsageSum(cmds[i..]) == UsageSum(cmds)
    {
      assert cmds[i..][1..] == cmds[i + 1..];
      memSum := memSum + cmds[i].usage;
    }
    if forall k :: 0 <= k < |cmds| ==> cmds[k].usage >= 0.0 {
      UsageSumNonNegative(cmds);
    }
  }
}

=== FILE: migration_policy.dfy ===
/**
 * Migration (selection) policies (pkg/monitoring/migration_policy.go): given
 * a request "free N GB on node X", choose which pods of X to move. The
 * optimal selector runs the knapsack search over the pods' sizes, the max
 * and big-enough pickers choose one pod, and an adapter puts the simple
 * pickers behind an admission checker.
 */
module MigrationPolicies {
  import opened Types
  import opened Clusters
  import opened Checkers
  import opened Algorithms

  /** Whether `str` occurs in `s`. */
  method Contains(s: seq<string>, str: string) returns (found: bool)
    ensures found <==> str in s
  {
    for i := 0 to |s|
      invariant str !in s[..i]
    {
      if s[i] == str {
        return true;
      }
    }
    assert s[..|s|] == s;
    return false;
  }

  /** The pod map without the jobs to ignore. */
  method FilterPods(podMems: PodMemMap, jobsToIgnore: seq<string>) returns (filtered: PodMemMap)
    ensures forall p :: p in filtered <==> p in podMems && p !in jobsToIgnore
    ensures forall p :: p in filtered ==> filtered[p] == podMems[p]
  {
    filtered := map[];
    var pending := podMems.Keys;
    while pending != {}
      invariant pending <= podMems.Keys
      invariant forall p :: p in filtered <==> p in podMems && p !in pending && p !in jobsToIgnore
      invariant forall p :: p in filtered ==> filtered[p] == podMems[p]
      decreases |pending|
    {
      var job :| job in pending;
      var ignored := Contains(jobsToIgnore, job);
      if !ignored {
        filtered := filtered[job := podMems[job]];
      }
      pending := pending - {job};
    }
  }

  // ----- removeDuplicateInt -----

  /** `s` without repeats: each value at its first occurrence, values in `seen` skipped. */
  function Dedup(s: seq<int>, seen: set<int>): seq<int>
  {
    if s == [] then []
    else if s[0] in seen then Dedup(s[1..], seen)
    else [s[0]] + Dedup(s[1..], seen + {s[0]})
  }

  predicate NoDuplicates(s: seq<int>)
  {
    forall j, k :: 0 <= j < k < |s| ==> s[j] != s[k]
  }

  method RemoveDuplicateInt(intSlice: seq<int>) returns (list: seq<int>)
    ensures list == Dedup(intSlice, {})
  {
    var allKeys: set<int> := {};
    list := [];
    for i := 0 to |intSlice|
      invariant list + Dedup(intSlice[i..], allKeys) == Dedup(intSlice, {})
    {
      var item := intSlice[i];
      assert intSlice[i..][1..] == intSlice[i + 1..];
      if item !in allKeys {
        allKeys := allKeys + {item};
        list := list + [item];
      }
    }
  }

  /** The result holds exactly the input values not already seen. */
  lemma {:induction false} DedupElements(s: seq<int>, seen: set<int>)
    ensures forall x :: x in Dedup(s, seen) <==> x in s && x !in seen
  {
    if s != [] {
      DedupElements(s[1..], seen);
      DedupElements(s[1..], seen + {s[0]});
    }
  }

  /** The result has no repeats and avoids `seen`. */
  lemma {:induction false} DedupDistinct(s: seq<int>, seen: set<int>)
    ensures NoDuplicates(Dedup(s, seen))
    ensures forall k :: 0 <= k < |Dedup(s, seen)| ==> Dedup(s, seen)[k] !in seen
  {
    if s != [] {
      DedupDistinct(s[1..], seen);
      DedupDistinct(s[1..], seen + {s[0]});
    }
  }

  /** The values keep their input order. */
  lemma {:induction false} DedupSubsequence(s: seq<int>, seen: set<int>)
    ensures IsSubsequence(Dedup(s, seen), s)
  {
    if s != [] {
      DedupSubsequence(s[1..], seen);
      DedupSubsequence(s[1..], seen + {s[0]});
      var r := Dedup(s, seen);
      if s[0] in seen {
        if r != [] {
          assert IsSubsequence(r, s[1..]);
        }
      } else {
        assert r[0] == s[0] && r[1..] == Dedup(s[1..], seen + {s[0]});
      }
    }
  }

  /**
   * First occurrences decide the order: the values of a prefix come first,
   * and the rest contributes only the values the prefix did not have.
   */
  lemma {:induction false} DedupAppend(s: seq<int>, t: seq<int>, seen: set<int>)
    ensures Dedup(s + t, seen) == Dedup(s, seen) + Dedup(t, seen + set x | x in s)
  {
    if s == [] {
      assert s + t == t;
      assert (set x | x in s) == {};
      assert seen + {} == seen;
    } else {
      assert (s + t)[0] == s[0] && (s + t)[1..] == s[1..] + t;
      var rest := set x | x in s[1..];
      assert (set x | x in s) == {s[0]} + rest;
      if s[0] in seen {
        DedupAppend(s[1..], t, seen);
        assert seen + rest == seen + ({s[0]} + rest);
      } else {
        DedupAppend(s[1..], t, seen + {s[0]});
        assert seen + {s[0]} + rest == seen + ({s[0]} + rest);
      }
    }
  }

  /** A list without repeats that avoids `seen` passes through unchanged. */
  lemma {:induction false} DedupOfDistinct(s: seq<int>, seen: set<int>)
    requires NoDuplicates(s)
    requires forall k :: 0 <= k < |s| ==> s[k] !in seen
    ensures Dedup(s, seen) == s
  {
    if s != [] {
      assert s[0] !in s[1..];
      DedupOfDistinct(s[1..], seen + {s[0]});
    }
  }

  /** Removing duplicates twice is removing them once. */
  lemma DedupIdempotent(s: seq<int>)
    ensures Dedup(Dedup(s, {}), {}) == Dedup(s, {})
  {
    DedupDistinct(s, {});
    DedupOfDistinct(Dedup(s, {}), {});
  }

  // ----- item construction -----

  /** 0.5 to the power `n`. */
  function HalfPower(n: nat): (r: real)
    ensures 0.0 < r <= 1.0
  {
    if n == 0 then 1.0 else 0.5 * HalfPower(n - 1)
  }

  /** A pod's worth to the knapsack: its size, halved for every earlier migration. */
  function GetValueWithPunishedMigration(nbrMigrations: nat, size: real): (r: real)
    ensures r > 0.0 <==> size > 0.0
    ensures size >= 0.0 ==> r <= size
  {
    HalfPower(nbrMigrations) * size
  }

  lemma PunishmentHalves(n: nat, size: real)
    ensures GetValueWithPunishedMigration(0, size) == size
    ensures GetValueWithPunishedMigration(n + 1, size) == GetValueWithPunishedMigration(n, size) / 2.0
    ensures size > 0.0 ==> 0.0 < GetValueWithPunishedMigration(n, size) <= size
  {
    var h := HalfPower(n);
    if size > 0.0 {
      assert (1.0 - h) * size >= 0.0;
      assert h * size <= size;
    }
  }

  /** A pod that becomes a knapsack item: larger than `minSize`, with a known migration count. */
  predicate Eligible(podMems: PodMemMap, minSize: real, client: Client, p: string)
  {
    p in podMems && podMems[p] > minSize && !client.countMigrations(p).failed
  }

  function EligiblePods(podMems: PodMemMap, minSize: real, client: Client): set<string>
  {
    set p | p in podMems && Eligible(podMems, minSize, client, p)
  }

  /** The item of a pod: its truncated size as weight, its punished size as value. */
  function ItemFor(podMems: PodMemMap, client: Client, p: string): FItem
    requires p in podMems
  {
    FItem(Trunc(podMems[p]), GetValueWithPunishedMigration(client.countMigrations(p).value, podMems[p]))
  }

  /** The pods named by item indices 0 .. n-1. */
  function ItemNames(nameMap: map<int, string>, n: int): set<string>
  {
    set k | 0 <= k < n && k in nameMap :: nameMap[k]
  }

  /** Item `k` is the item of the eligible pod `nameMap[k]`. */
  ghost predicate NamedItem(podMems: PodMemMap, minSize: real, client: Client, items: seq<FItem>,
                            nameMap: map<int, string>, k: int)
    requires 0 <= k < |items|
  {
    k in nameMap && Eligible(podMems, minSize, client, nameMap[k]) && items[k] == ItemFor(podMems, client, nameMap[k])
  }

  lemma ItemNamesExtend(nameMap: map<int, string>, n: nat, p: string)
    ensures ItemNames(nameMap[n := p], n + 1) == ItemNames(nameMap, n) + {p}
  {
    var m := nameMap[n := p];
    forall q | q in ItemNames(m, n + 1) ensures q in ItemNames(nameMap, n) + {p} {
      var k :| 0 <= k < n + 1 && k in m && m[k] == q;
      if k < n {
        assert q in ItemNames(nameMap, n);
      }
    }
    forall q | q in ItemNames(nameMap, n) ensures q in ItemNames(m, n + 1) {
      var k :| 0 <= k < n && k in nameMap && nameMap[k] == q;
      assert m[k] == q;
    }
    assert m[n] == p;
  }

  lemma ItemNamesOverwrite(nameMap: map<int, string>, n: nat, p: string)
    ensures ItemNames(nameMap[n := p], n) == ItemNames(nameMap, n)
  {
    var m := nameMap[n := p];
    forall q | q in ItemNames(m, n) ensures q in ItemNames(nameMap, n) {
      var k :| 0 <= k < n && k in m && m[k] == q;
      assert nameMap[k] == q;
    }
    forall q | q in ItemNames(nameMap, n) ensures q in ItemNames(m, n) {
      var k :| 0 <= k < n && k in nameMap && nameMap[k] == q;
      assert m[k] == q;
    }
  }

  /** The loop state of CreateItemsAndNameMap once the pods outside `pending` are done. */
  ghost predicate ItemsSoFar(podMems: PodMemMap, minSize: real, client: Client, items: seq<FItem>,
                             nameMap: map<int, string>, pending: set<string>)
  {
    && pending <= podMems.Keys
    && (forall k :: 0 <= k < |items| ==> NamedItem(podMems, minSize, client, items, nameMap, k))
    && (forall k :: 0 <= k < |items| && k in nameMap ==> nameMap[k] !in pending)
    && (forall j, k :: 0 <= j < k < |items| && j in nameMap && k in nameMap ==> nameMap[j] != nameMap[k])
    && ItemNames(nameMap, |items|) == EligiblePods(podMems, minSize, client) - pending
    && (forall k :: k in nameMap ==> 0 <= k <= |items|)
  }

  /** An eligible pod becomes the next item. */
  lemma AddItem(podMems: PodMemMap, minSize: real, client: Client, items: seq<FItem>,
                nameMap: map<int, string>, pending: set<string>, name: string)
    requires ItemsSoFar(podMems, minSize, client, items, nameMap, pending)
    requires name in pending && Eligible(podMems, minSize, client, name)
    ensures ItemsSoFar(podMems, minSize, client, items + [ItemFor(podMems, client, name)],
                       nameMap[|items| := name], pending - {name})
  {
    var items' := items + [ItemFor(podMems, client, name)];
    var nameMap' := nameMap[|items| := name];
    ItemNamesExtend(nameMap, |items|, name);
    forall k | 0 <= k < |items'| ensures NamedItem(podMems, minSize, client, items', nameMap', k) {
      if k < |items| {
        assert NamedItem(podMems, minSize, client, items, nameMap, k);
      }
    }
  }

  /**
   * A pod that is not eligible adds no item; if it is large enough it
   * still overwrites the name at the next index.
   */
  lemma SkipPod(podMems: PodMemMap, minSize: real, client: Client, items: seq<FItem>,
                nameMap: map<int, string>, pending: set<string>, name: string)
    requires ItemsSoFar(podMems, minSize, client, items, nameMap, pending)
    requires name in pending && !Eligible(podMems, minSize, client, name)
    ensures ItemsSoFar(podMems, minSize, client, items, nameMap, pending - {name})
    ensures ItemsSoFar(podMems, minSize, client, items, nameMap[|items| := name], pending - {name})
  {
    ItemNamesOverwrite(nameMap, |items|, name);
    var nameMap' := nameMap[|items| := name];
    forall k | 0 <= k < |items| ensures NamedItem(podMems, minSize, client, items, nameMap', k) {
      assert NamedItem(podMems, minSize, client, items, nameMap, k);
    }
  }

  /**
   * One item per eligible pod, `nameMap` naming the pod of each item index.
   * A pod whose migration count cannot be read still claims the next index
   * in `nameMap` before it is skipped, so `nameMap` may hold one stale entry
   * at index |items|.
   */
  method CreateItemsAndNameMap(podMems: PodMemMap, minSize: real, client: Client)
    returns (items: seq<FItem>, nameMap: map<int, string>)
    ensures forall k :: 0 <= k < |items| ==> NamedItem(podMems, minSize, client, items, nameMap, k)
    ensures forall j, k :: 0 <= j < k < |items| && j in nameMap && k in nameMap ==> nameMap[j] != nameMap[k]
    ensures ItemNames(nameMap, |items|) == EligiblePods(podMems, minSize, client)
    ensures forall k :: k in nameMap ==> 0 <= k <= |items|
  {
    items := [];
    nameMap := map[];
    var pending := podMems.Keys;
    while pending != {}
      invariant ItemsSoFar(podMems, minSize, client, items, nameMap, pending)
      decreases |pending|
    {
      var name :| name in pending;
      var usage := podMems[name];
      if usage > minSize {
        var count := client.countMigrations(name);
        if count.failed {
          SkipPod(podMems, minSize, client, items, nameMap, pending, name);
          nameMap := nameMap[|items| := name];
        } else {
          AddItem(podMems, minSize, client, items, nameMap, pending, name);
          nameMap := nameMap[|items| := name];
          var value := GetValueWithPunishedMigration(count.value, usage);
          items := items + [FItem(Trunc(usage), value)];
        }
      } else {
        SkipPod(podMems, minSize, client, items, nameMap, pending, name);
      }
      pending := pending - {name};
    }
    assert EligiblePods(podMems, minSize, client) - {} == EligiblePods(podMems, minSize, client);
  }

  // ----- single-pod pickers -----

  /** A pod with the largest memory; "" when no pod uses more than -1 GB (an empty map). */
  method GetMaxPod(pods: PodMemMap) returns (pod: string)
    ensures forall p :: p in pods && pods[p] > -1.0 ==> pod in pods && pods[p] <= pods[pod]
    ensures (forall p :: p in pods ==> pods[p] <= -1.0) ==> pod == ""
  {
    var max := -1.0;
    pod := "";
    var pending := pods.Keys;
    while pending != {}
      invariant pending <= pods.Keys
      invariant max >= -1.0
      invariant max > -1.0 ==> pod in pods && pods[pod] == max
      invariant max == -1.0 ==> pod == ""
      invariant forall p :: p in pods && p !in pending ==> pods[p] <= max
      decreases |pending|
    {
      var p :| p in pending;
      var mem := pods[p];
      if mem > max {
        max := mem;
        pod := p;
      }
      pending := pending - {p};
    }
  }

  /**
   * The pod with the smallest memory of at least `amount` (and below 9999
   * GB, the search's starting bound); "" when there is none.
   */
  method GetMinPodBiggerThan(pods: PodMemMap, amount: real) returns (pod: string)
    ensures forall p :: p in pods && amount <= pods[p] < 9999.0 ==> pod in pods && amount <= pods[pod] <= pods[p]
    ensures (forall p :: p in pods ==> !(amount <= pods[p] < 9999.0)) ==> pod == ""
  {
    var min := 9999.0;
    pod := "";
    var pending := pods.Keys;
    while pending != {}
      invariant pending <= pods.Keys
      invariant min <= 9999.0
      invariant min < 9999.0 ==> pod in pods && pods[pod] == min && amount <= min
      invariant min == 9999.0 ==> pod == ""
      invariant forall p :: p in pods && p !in pending && amount <= pods[p] ==> min <= pods[p]
      decreases |pending|
    {
      var p :| p in pending;
      var mem := pods[p];
      if mem < min && mem >= amount {
        min := mem;
        pod := p;
      }
      pending := pending - {p};
    }
  }

  /** The outcome shared by the single-pod pickers once the pod is chosen. */
  ghost predicate SinglePodOutcome(pods: PodMemMap, request: NodeFreeGbRequest,
                                   cmds: seq<MigrationCmd>, err: Option<Error>)
  {
    && |cmds| == 1
    && cmds[0].usage == Lookup(pods, cmds[0].pod)
    && cmds[0].newNode == ""
    && (err.Some? <==> cmds[0].usage < request.amount)
    && (err.Some? ==> err == Some(RequestNotFulfilled(cmds[0].usage, request.node, request.amount)))
  }

  /** The max picker's answer: a largest pod above -1 GB, or "" when there is none. */
  ghost predicate LargestPodOutcome(pods: PodMemMap, request: NodeFreeGbRequest,
                                    cmds: seq<MigrationCmd>, err: Option<Error>)
  {
    && SinglePodOutcome(pods, request, cmds, err)
    && (forall p :: p in pods && pods[p] > -1.0 ==> cmds[0].pod in pods && pods[p] <= cmds[0].usage)
    && ((forall p :: p in pods ==> pods[p] <= -1.0) ==> cmds[0].pod == "")
    && (forall p :: p in pods && pods[p] > -1.0 && pods[p] >= request.amount ==> err.None?)
  }

  /** The big-enough picker's answer: a smallest pod covering the request, or "" when none does. */
  ghost predicate SmallestCoveringOutcome(pods: PodMemMap, request: NodeFreeGbRequest,
                                          cmds: seq<MigrationCmd>, err: Option<Error>)
  {
    && SinglePodOutcome(pods, request, cmds, err)
    && (forall p :: p in pods && request.amount <= pods[p] < 9999.0 ==>
          cmds[0].pod in pods && request.amount <= cmds[0].usage <= pods[p])
    && ((forall p :: p in pods ==> !(request.amount <= pods[p] < 9999.0)) ==> cmds[0].pod == "")
    && (forall p :: p in pods && request.amount <= pods[p] < 9999.0 ==> err.None?)
  }

  /**
   * MaxMigrator: one command for the largest pod, with an error when even
   * that pod is smaller than the request.
   */
  method MaxGetMigrationCmds(client: Client, request: NodeFreeGbRequest)
    returns (cmds: seq<MigrationCmd>, err: Option<Error>)
    ensures client.podMemories(request.node).failed ==> cmds == [] && err == Some(ClientFailure)
    ensures !client.podMemories(request.node).failed ==>
              LargestPodOutcome(client.podMemories(request.node).value, request, cmds, err)
  {
    var reply := client.podMemories(request.node);
    if reply.failed {
      return [], Some(ClientFailure);
    }
    var pod := GetMaxPod(reply.value);
    var podMem := Lookup(reply.value, pod);
    err := None;
    if podMem < request.amount {
      err := Some(RequestNotFulfilled(podMem, request.node, request.amount));
    }
    cmds := [MigrationCmd(pod, podMem, "")];
  }

  /**
   * BigEnoughMigrator: one command for the smallest pod that covers the
   * request, with an error when no pod does.
   */
  method BigEnoughGetMigrationCmds(client: Client, request: NodeFreeGbRequest)
    returns (cmds: seq<MigrationCmd>, err: Option<Error>)
    ensures client.podMemories(request.node).failed ==> cmds == [] && err == Some(ClientFailure)
    ensures !client.podMemories(request.node).failed ==>
              SmallestCoveringOutcome(client.podMemories(request.node).value, request, cmds, err)
  {
    var reply := client.podMemories(request.node);
    if reply.failed {
      return [], Some(ClientFailure);
    }
    var pod := GetMinPodBiggerThan(reply.value, request.amount);
    var podMem := Lookup(reply.value, pod);
    err := None;
    if podMem < request.amount {
      err := Some(RequestNotFulfilled(podMem, request.node, request.amount));
    }
    cmds := [MigrationCmd(pod, podMem, "")];
  }

  /** Of pods of 20, 30 and 40 GB, a 26 GB request takes the 30 GB pod. */
  method BigEnoughScenario() returns (pod: string)
    ensures pod == "oq_z2"
  {
    var pods := map["ow_z2" := 20.0, "oq_z2" := 30.0, "z2_r" := 40.0];
    pod := GetMinPodBiggerThan(pods, 26.0);
    assert pods["oq_z2"] == 30.0;
  }

  /** The largest of two pods is found whatever the order of the map. */
  method MaxPodScenario() returns (pod: string)
    ensures pod == "q_z1"
  {
    var pods := map["w_z1" := 1000.0, "q_z1" := 5000000.0];
    pod := GetMaxPod(pods);
    assert pods["q_z1"] == 5000000.0;
  }

  // ----- optimal selector -----

  datatype OptimalMigrator = OptimalMigrator(cluster: Cluster, minSize: real, checker: MigrationChecker)

  /** Go's `nameMap[idx]`: "" for an index without an entry. */
  function Name(nameMap: map<int, string>, idx: int): string
  {
    if idx in nameMap then nameMap[idx] else ""
  }

  /** The command for a selected item index. */
  function CmdFor(nameMap: map<int, string>, podMems: PodMemMap, idx: int): MigrationCmd
  {
    MigrationCmd(Name(nameMap, idx), Lookup(podMems, Name(nameMap, idx)), "")
  }

  /** Sum of the truncated sizes: the knapsack weight of a batch. */
  function TruncSum(cmds: seq<MigrationCmd>): int
  {
    if cmds == [] then 0 else Trunc(cmds[0].usage) + TruncSum(cmds[1..])
  }

  /** The knapsack value of a batch: the sum of its pods' punished sizes. */
  function PunishedValue(client: Client, cmds: seq<MigrationCmd>): real
  {
    if cmds == [] then 0.0
    else GetValueWithPunishedMigration(client.countMigrations(cmds[0].pod).value, cmds[0].usage)
         + PunishedValue(client, cmds[1..])
  }

  /** A command the optimal selector may emit for a request on a node. */
  ghost predicate Selectable(pods: PodMemMap, minSize: real, client: Client, inFlight: set<string>, c: MigrationCmd)
  {
    && Eligible(pods, minSize, client, c.pod)
    && c.pod !in inFlight
    && c.usage == pods[c.pod]
    && c.newNode == ""
  }

  /**
   * A batch the optimal selector could return: distinct selectable pods
   * whose truncated sizes fit the capacity.
   */
  ghost predicate FeasibleBatch(pods: PodMemMap, minSize: real, client: Client, inFlight: set<string>,
                                capacity: int, cmds: seq<MigrationCmd>)
  {
    && DistinctPods(cmds)
    && (forall k :: 0 <= k < |cmds| ==> Selectable(pods, minSize, client, inFlight, cmds[k]))
    && TruncSum(cmds) <= capacity
  }

  /** The batch's knapsack weight and value are those of the selected items. */
  lemma {:induction false} WeightOfCommands(client: Client, items: seq<FItem>, config: seq<int>, cmds: seq<MigrationCmd>)
    requires InRange(config, |items|) && |cmds| == |config|
    requires forall k :: 0 <= k < |config| ==> items[config[k]].weight == Trunc(cmds[k].usage)
    requires forall k :: 0 <= k < |config| ==>
               items[config[k]].value == GetValueWithPunishedMigration(client.countMigrations(cmds[k].pod).value, cmds[k].usage)
    ensures TruncSum(cmds) == Weight(items, config)
    ensures PunishedValue(client, cmds) == Value(items, config)
  {
    if config != [] {
      WeightOfCommands(client, items, config[1..], cmds[1..]);
    }
  }

  /** A single fitting item beats the empty selection when its value is positive. */
  lemma SingleItemFits(items: seq<FItem>, k: int, capacity: int)
    requires 0 <= k < |items| && items[k].weight <= capacity
    ensures Ascending([k], 0, |items|)
    ensures Weight(items, [k]) == items[k].weight && Value(items, [k]) == items[k].value
  {
    assert [k][1..] == [];
  }

  /**
   * GetMigrationCmdsWithTime: when the checker admits a round, the pods of
   * the node that are not in flight and larger than `minSize` become
   * knapsack items and the best-valued selection within the request's
   * truncated amount becomes the batch.
   */
  method OptimalGetMigrationCmdsWithTime(m: OptimalMigrator, client: Client, now: int, request: NodeFreeGbRequest)
    returns (cmds: seq<MigrationCmd>, err: Option<Error>)
    requires m.checker.Valid()
    modifies if m.checker.Blocking? then {m.checker.blocking} else {}
    ensures m.checker.Valid()
    ensures err.Some? ==> cmds == []
    ensures !old(m.checker.IsReady(now)) ==> err == Some(CheckerNotReady)
    ensures old(m.checker.IsReady(now)) && client.podMemories(request.node).failed ==> err == Some(ClientFailure)
    ensures old(m.checker.IsReady(now)) && !client.podMemories(request.node).failed ==>
              err.None? || err == Some(NoMigrationPod)
    ensures err.None? ==>
              && old(m.checker.IsReady(now)) && !client.podMemories(request.node).failed
              && cmds != []
              && FeasibleBatch(client.podMemories(request.node).value, m.minSize, client,
                               old(m.checker.MigratingJobs(now)), Trunc(request.amount), cmds)
    // the batch is worth the most of all feasible batches
    ensures err.None? && m.minSize >= 0.0 ==>
              forall b :: FeasibleBatch(client.podMemories(request.node).value, m.minSize, client,
                                        old(m.checker.MigratingJobs(now)), Trunc(request.amount), b)
                          ==> PunishedValue(client, b) <= PunishedValue(client, cmds)
    // a selection is empty exactly when no candidate pod fits the request on its own
    ensures old(m.checker.IsReady(now)) && !client.podMemories(request.node).failed && m.minSize >= 0.0 ==>
              (err == Some(NoMigrationPod) <==>
                 forall p :: p in client.podMemories(request.node).value && p !in old(m.checker.MigratingJobs(now))
                             && Eligible(client.podMemories(request.node).value, m.minSize, client, p)
                             ==> Trunc(client.podMemories(request.node).value[p]) > Trunc(request.amount))
  {
    if !m.checker.IsReady(now) {
      return [], Some(CheckerNotReady);
    }
    var reply := client.podMemories(request.node);
    if reply.failed {
      return [], Some(ClientFailure);
    }
    var podMems := reply.value;
    ghost var inFlight := m.checker.MigratingJobs(now);
    var ignoreJobs := GetMigratingJobs(m.checker, now);
    var filtered := FilterPods(podMems, ignoreJobs);
    cmds, err := SelectBatch(podMems, inFlight, ignoreJobs, filtered, m.minSize, client, Trunc(request.amount));
  }

  /**
   * The selection proper, once the in-flight pods are filtered out: items
   * for the eligible pods, the knapsack's best selection within `capacity`,
   * and one command per selected item, sized from the unfiltered map.
   */
  method SelectBatch(podMems: PodMemMap, ghost inFlight: set<string>, ignoreJobs: seq<string>, filtered: PodMemMap,
                     minSize: real, client: Client, capacity: int)
    returns (cmds: seq<MigrationCmd>, err: Option<Error>)
    requires forall p :: p in ignoreJobs <==> p in inFlight
    requires forall p :: p in filtered <==> p in podMems && p !in ignoreJobs
    requires forall p :: p in filtered ==> filtered[p] == podMems[p]
    ensures err.None? || err == Some(NoMigrationPod)
    ensures err.Some? ==> cmds == []
    ensures err.None? ==> cmds != [] && FeasibleBatch(podMems, minSize, client, inFlight, capacity, cmds)
    // a selection is empty exactly when no candidate pod fits on its own
    ensures minSize >= 0.0 ==>
              (err.Some? <==> forall p :: p in podMems && p !in inFlight && Eligible(podMems, minSize, client, p)
                                          ==> Trunc(podMems[p]) > capacity)
    // the batch is worth the most of all feasible batches
    ensures err.None? && minSize >= 0.0 ==>
              forall b :: FeasibleBatch(podMems, minSize, client, inFlight, capacity, b)
                          ==> PunishedValue(client, b) <= PunishedValue(client, cmds)
  {
    var items, nameMap := CreateItemsAndNameMap(filtered, minSize, client);
    var bestWeight, bestValue, bestConfig := KnapsackBruteForce(capacity, items, [], 0, 0, 0.0);
    assert bestConfig[0..] == bestConfig;
    AscendingDistinct(bestConfig, 0, |items|);
    DedupOfDistinct(bestConfig, {});
    bestConfig := RemoveDuplicateInt(bestConfig);
    OptimalSelectionEmpty(filtered, minSize, client, items, nameMap, capacity, bestValue, bestConfig);
    if |bestConfig| == 0 {
      CandidatesOfFiltered(podMems, inFlight, ignoreJobs, filtered, minSize, client);
      return [], Some(NoMigrationPod);
    }
    cmds := [];
    for i := 0 to |bestConfig|
      invariant |cmds| == i
      invariant forall k :: 0 <= k < i ==> cmds[k] == CmdFor(nameMap, podMems, bestConfig[k])
    {
      var pod := Name(nameMap, bestConfig[i]);
      cmds := cmds + [MigrationCmd(pod, Lookup(podMems, pod), "")];
    }
    err := None;
    CandidatesOfFiltered(podMems, inFlight, ignoreJobs, filtered, minSize, client);
    SelectedCommands(podMems, inFlight, ignoreJobs, filtered, minSize, client, items, nameMap, bestConfig, cmds);
    if minSize >= 0.0 {
      OptimumBeatsEveryBatch(podMems, inFlight, filtered, minSize, client, items, nameMap, capacity, bestValue);
    }
  }

  /** Pods of 20, 16, 33 and 17 GB on z2; the 33 GB pod has been relocated once before. */
  function PenaltyScenarioClient(): Client
  {
    Client(map["z2" := 0.0, "z1" := 0.0],
           _ => 0.0,
           node => Reply(if node == "z2" then PenaltyScenarioPods() else map[], false),
           (node, pod) => Reply(0.0, false),
           _ => 0.0, _ => 0, _ => 0,
           pod => Reply(if pod == "mr_z2" then 1 else 0, false))
  }

  function PenaltyScenarioPods(): PodMemMap
  {
    map["ow_z2" := 20.0, "oq_z2" := 16.0, "mr_z2" := 33.0, "ot_z2" := 17.0]
  }

  /** The knapsack weight of a set of the scenario's pods. */
  function PenaltyScenarioWeight(pods: set<string>): int
  {
    (if "ow_z2" in pods then 20 else 0) + (if "oq_z2" in pods then 16 else 0)
    + (if "mr_z2" in pods then 33 else 0) + (if "ot_z2" in pods then 17 else 0)
  }

  /** The knapsack value of a set of the scenario's pods: the relocated pod counts half. */
  function PenaltyScenarioValue(pods: set<string>): real
  {
    (if "ow_z2" in pods then 20.0 else 0.0) + (if "oq_z2" in pods then 16.0 else 0.0)
    + (if "mr_z2" in pods then 16.5 else 0.0) + (if "ot_z2" in pods then 17.0 else 0.0)
  }

  /** The first command's pod, added to the pods of the rest, which do not name it. */
  lemma PodsOfCons(cmds: seq<MigrationCmd>)
    requires cmds != [] && DistinctPods(cmds)
    ensures Pods(cmds) == {cmds[0].pod} + Pods(cmds[1..])
    ensures cmds[0].pod !in Pods(cmds[1..])
  {
    var rest := cmds[1..];
    forall p | p in Pods(cmds) ensures p in {cmds[0].pod} + Pods(rest) {
      var k :| 0 <= k < |cmds| && cmds[k].pod == p;
      if k > 0 {
        assert rest[k - 1] == cmds[k];
      }
    }
    forall p | p in Pods(rest) ensures p in Pods(cmds) {
      var k :| 0 <= k < |rest| && rest[k].pod == p;
      assert cmds[k + 1] == rest[k];
    }
    forall k | 0 <= k < |rest| ensures rest[k].pod != cmds[0].pod {
      assert rest[k] == cmds[k + 1];
    }
  }

  /** Adding one of the scenario's pods to a set adds its weight and its punished value. */
  lemma PenaltyScenarioAdd(pods: set<string>, c: MigrationCmd)
    requires c.pod in PenaltyScenarioPods() && c.usage == PenaltyScenarioPods()[c.pod] && c.pod !in pods
    ensures PenaltyScenarioWeight(pods + {c.pod}) == Trunc(c.usage) + PenaltyScenarioWeight(pods)
    ensures PenaltyScenarioValue(pods + {c.pod})
            == GetValueWithPunishedMigration(PenaltyScenarioClient().countMigrations(c.pod).value, c.usage)
               + PenaltyScenarioValue(pods)
  {
    assert HalfPower(1) == 0.5;
  }

  /** A batch of the scenario's pods weighs and is worth what its set of pods does. */
  lemma {:induction false} PenaltyScenarioSums(cmds: seq<MigrationCmd>)
    requires DistinctPods(cmds)
    requires forall k :: 0 <= k < |cmds| ==>
               cmds[k].pod in PenaltyScenarioPods() && cmds[k].usage == PenaltyScenarioPods()[cmds[k].pod]
    ensures TruncSum(cmds) == PenaltyScenarioWeight(Pods(cmds))
    ensures PunishedValue(PenaltyScenarioClient(), cmds) == PenaltyScenarioValue(Pods(cmds))
  {
    if cmds == [] {
      assert Pods(cmds) == {};
    } else {
      PenaltyScenarioSums(cmds[1..]);
      PodsOfCons(cmds);
      PenaltyScenarioAdd(Pods(cmds[1..]), cmds[0]);
    }
  }

  /** The 20 GB and 17 GB pods together are a feasible batch worth 37. */
  lemma PenaltyScenarioCandidate()
    ensures FeasibleBatch(PenaltyScenarioPods(), 5.0, PenaltyScenarioClient(), {}, 50,
                          [MigrationCmd("ow_z2", 20.0, ""), MigrationCmd("ot_z2", 17.0, "")])
    ensures PunishedValue(PenaltyScenarioClient(), [MigrationCmd("ow_z2", 20.0, ""), MigrationCmd("ot_z2", 17.0, "")]) == 37.0
  {
    var best := [MigrationCmd("ow_z2", 20.0, ""), MigrationCmd("ot_z2", 17.0, "")];
    PenaltyScenarioSums(best);
    assert Pods(best) == {"ow_z2", "ot_z2"} by {
      assert best[0].pod == "ow_z2" && best[1].pod == "ot_z2";
    }
  }

  /** Any feasible batch worth as much as the candidate holds the 20 GB and 17 GB pods. */
  lemma PenaltyScenarioOnlyBest(cmds: seq<MigrationCmd>)
    requires FeasibleBatch(PenaltyScenarioPods(), 5.0, PenaltyScenarioClient(), {}, 50, cmds)
    requires PunishedValue(PenaltyScenarioClient(), cmds) >= 37.0
    ensures MigrationCmd("ow_z2", 20.0, "") in cmds && MigrationCmd("ot_z2", 17.0, "") in cmds
  {
    var pods := PenaltyScenarioPods();
    PenaltyScenarioSums(cmds);
    var chosen := Pods(cmds);
    assert chosen <= pods.Keys;
    assert "ow_z2" in chosen && "ot_z2" in chosen;
    var i :| 0 <= i < |cmds| && cmds[i].pod == "ow_z2";
    var j :| 0 <= j < |cmds| && cmds[j].pod == "ot_z2";
    assert Selectable(pods, 5.0, PenaltyScenarioClient(), {}, cmds[i]);
    assert Selectable(pods, 5.0, PenaltyScenarioClient(), {}, cmds[j]);
  }

  /**
   * A 50 GB request on z2: the pod relocated before is worth only half its
   * size, so the batch takes the 20 GB and 17 GB pods (37 GB of value)
   * rather than the 33 GB pod with the 17 GB one (33.5).
   */
  method PenaltyScenario() returns (cmds: seq<MigrationCmd>, err: Option<Error>)
    ensures err == None
    ensures MigrationCmd("ow_z2", 20.0, "") in cmds && MigrationCmd("ot_z2", 17.0, "") in cmds
  {
    var checker := new BlockingChecker();
    var m := OptimalMigrator(NewCluster(), 5.0, Blocking(checker));
    assert PenaltyScenarioPods()["ow_z2"] == 20.0 && Trunc(20.0) == 20;
    cmds, err := OptimalGetMigrationCmdsWithTime(m, PenaltyScenarioClient(), 0, NodeFreeGbRequest("z2", 50.0));
    PenaltyScenarioCandidate();
    PenaltyScenarioOnlyBest(cmds);
  }

  /** The filtered map's eligible pods are the node's eligible pods that are not in flight. */
  lemma CandidatesOfFiltered(podMems: PodMemMap, inFlight: set<string>, ignoreJobs: seq<string>,
                             filtered: PodMemMap, minSize: real, client: Client)
    requires forall p :: p in ignoreJobs <==> p in inFlight
    requires forall p :: p in filtered <==> p in podMems && p !in ignoreJobs
    requires forall p :: p in filtered ==> filtered[p] == podMems[p]
    ensures forall p :: Eligible(filtered, minSize, client, p) <==> Eligible(podMems, minSize, client, p) && p !in inFlight
  {
  }

  /**
   * The knapsack's selection is empty exactly when no single item fits
   * (given non-negative weights, which a non-negative `minSize` ensures).
   */
  lemma OptimalSelectionEmpty(filtered: PodMemMap, minSize: real, client: Client, items: seq<FItem>,
                              nameMap: map<int, string>, capacity: int, bestValue: real, config: seq<int>)
    requires forall k :: 0 <= k < |items| ==> NamedItem(filtered, minSize, client, items, nameMap, k)
    requires ItemNames(nameMap, |items|) == EligiblePods(filtered, minSize, client)
    requires Ascending(config, 0, |items|) && bestValue == Value(items, config)
    requires config == [] || Weight(items, config) <= capacity
    requires NonNegativeWeights(items) ==>
               forall s :: Ascending(s, 0, |items|) && 0 + Weight(items, s) <= capacity ==> 0.0 + Value(items, s) <= bestValue
    requires (forall k :: 0 <= k < |items| ==> 0 + items[k].weight > capacity) ==> config == [] && bestValue == 0.0
    ensures minSize >= 0.0 ==>
              (config == [] <==>
                 forall p :: Eligible(filtered, minSize, client, p) ==> Trunc(filtered[p]) > capacity)
  {
    if minSize >= 0.0 {
      assert NonNegativeWeights(items) by {
        forall k | 0 <= k < |items| ensures items[k].weight >= 0 {
          assert NamedItem(filtered, minSize, client, items, nameMap, k);
        }
      }
      if forall p :: Eligible(filtered, minSize, client, p) ==> Trunc(filtered[p]) > capacity {
        forall k | 0 <= k < |items| ensures 0 + items[k].weight > capacity {
          assert NamedItem(filtered, minSize, client, items, nameMap, k);
        }
      } else {
        var p :| Eligible(filtered, minSize, client, p) && Trunc(filtered[p]) <= capacity;
        assert p in ItemNames(nameMap, |items|);
        var k :| 0 <= k < |items| && k in nameMap && nameMap[k] == p;
        assert NamedItem(filtered, minSize, client, items, nameMap, k);
        SingleItemFits(items, k, capacity);
        PunishmentHalves(client.countMigrations(p).value, filtered[p]);
        assert 0.0 < Value(items, [k]) <= bestValue;
      }
    }
  }

  /** Every command of the batch names a distinct candidate pod, and the batch fits the request. */
  lemma SelectedCommands(podMems: PodMemMap, inFlight: set<string>, ignoreJobs: seq<string>,
                         filtered: PodMemMap, minSize: real, client: Client, items: seq<FItem>,
                         nameMap: map<int, string>, config: seq<int>, cmds: seq<MigrationCmd>)
    requires forall p :: Eligible(filtered, minSize, client, p) <==> Eligible(podMems, minSize, client, p) && p !in inFlight
    requires forall p :: p in filtered ==> p in podMems && filtered[p] == podMems[p]
    requires forall k :: 0 <= k < |items| ==> NamedItem(filtered, minSize, client, items, nameMap, k)
    requires forall j, k :: 0 <= j < k < |items| && j in nameMap && k in nameMap ==> nameMap[j] != nameMap[k]
    requires Ascending(config, 0, |items|)
    requires |cmds| == |config| && forall k :: 0 <= k < |config| ==> cmds[k] == CmdFor(nameMap, podMems, config[k])
    ensures DistinctPods(cmds)
    ensures forall k :: 0 <= k < |cmds| ==> Selectable(podMems, minSize, client, inFlight, cmds[k])
    ensures TruncSum(cmds) == Weight(items, config)
    ensures PunishedValue(client, cmds) == Value(items, config)
  {
    forall k | 0 <= k < |config|
      ensures Selectable(podMems, minSize, client, inFlight, cmds[k])
      ensures items[config[k]].weight == Trunc(cmds[k].usage)
      ensures items[config[k]].value
              == GetValueWithPunishedMigration(client.countMigrations(cmds[k].pod).value, cmds[k].usage)
    {
      assert NamedItem(filtered, minSize, client, items, nameMap, config[k]);
    }
    forall j, k | 0 <= j < k < |cmds| ensures cmds[j].pod != cmds[k].pod {
      assert NamedItem(filtered, minSize, client, items, nameMap, config[j]);
      assert NamedItem(filtered, minSize, client, items, nameMap, config[k]);
      if config[j] < config[k] {
        assert nameMap[config[j]] != nameMap[config[k]];
      }
    }
    WeightOfCommands(client, items, config, cmds);
  }

  /**
   * Every feasible batch is a selection of items: the indices of its pods,
   * in increasing order, weigh its truncated size and are worth its value.
   */
  lemma {:induction false} BatchAsSelection(podMems: PodMemMap, inFlight: set<string>, filtered: PodMemMap,
                                            minSize: real, client: Client, items: seq<FItem>,
                                            nameMap: map<int, string>, cmds: seq<MigrationCmd>)
    returns (indices: set<int>)
    requires forall p :: Eligible(filtered, minSize, client, p) <==> Eligible(podMems, minSize, client, p) && p !in inFlight
    requires forall p :: p in filtered ==> p in podMems && filtered[p] == podMems[p]
    requires forall k :: 0 <= k < |items| ==> NamedItem(filtered, minSize, client, items, nameMap, k)
    requires ItemNames(nameMap, |items|) == EligiblePods(filtered, minSize, client)
    requires DistinctPods(cmds)
    requires forall k :: 0 <= k < |cmds| ==> Selectable(podMems, minSize, client, inFlight, cmds[k])
    ensures forall i :: i in indices ==> 0 <= i < |items| && i in nameMap && nameMap[i] in Pods(cmds)
    ensures InRange(IndicesFrom(indices, 0, |items|), |items|)
    ensures Weight(items, IndicesFrom(indices, 0, |items|)) == TruncSum(cmds)
    ensures Value(items, IndicesFrom(indices, 0, |items|)) == PunishedValue(client, cmds)
    decreases |cmds|
  {
    IndicesFromAscending({}, 0, |items|);
    if cmds == [] {
      IndicesFromEmpty(0, |items|);
      return {};
    }
    var rest := BatchAsSelection(podMems, inFlight, filtered, minSize, client, items, nameMap, cmds[1..]);
    var c := cmds[0];
    assert Selectable(podMems, minSize, client, inFlight, c);
    assert c.pod in ItemNames(nameMap, |items|);
    var j :| 0 <= j < |items| && j in nameMap && nameMap[j] == c.pod;
    assert NamedItem(filtered, minSize, client, items, nameMap, j);
    assert c.pod !in Pods(cmds[1..]) by {
      forall k | 0 <= k < |cmds[1..]| ensures cmds[1..][k].pod != c.pod {
        assert cmds[1..][k] == cmds[k + 1];
      }
    }
    assert j !in rest;
    IndicesFromInsert(items, rest, j, 0);
    indices := rest + {j};
    forall i | i in indices ensures 0 <= i < |items| && i in nameMap && nameMap[i] in Pods(cmds) {
      if i in rest {
        var k :| 0 <= k < |cmds[1..]| && cmds[1..][k].pod == nameMap[i];
        assert cmds[k + 1].pod == nameMap[i];
      } else {
        assert cmds[0].pod == nameMap[i];
      }
    }
  }

  /**
   * With a non-negative `minSize`, the knapsack optimum is worth at least
   * every feasible batch.
   */
  lemma OptimumBeatsEveryBatch(podMems: PodMemMap, inFlight: set<string>, filtered: PodMemMap,
                               minSize: real, client: Client, items: seq<FItem>, nameMap: map<int, string>,
                               capacity: int, bestValue: real)
    requires minSize >= 0.0
    requires forall p :: Eligible(filtered, minSize, client, p) <==> Eligible(podMems, minSize, client, p) && p !in inFlight
    requires forall p :: p in filtered ==> p in podMems && filtered[p] == podMems[p]
    requires forall k :: 0 <= k < |items| ==> NamedItem(filtered, minSize, client, items, nameMap, k)
    requires ItemNames(nameMap, |items|) == EligiblePods(filtered, minSize, client)
    requires NonNegativeWeights(items) ==>
               forall s :: Ascending(s, 0, |items|) && 0 + Weight(items, s) <= capacity ==> 0.0 + Value(items, s) <= bestValue
    ensures forall b :: FeasibleBatch(podMems, minSize, client, inFlight, capacity, b) ==> PunishedValue(client, b) <= bestValue
  {
    assert NonNegativeWeights(items) by {
      forall k | 0 <= k < |items| ensures items[k].weight >= 0 {
        assert NamedItem(filtered, minSize, client, items, nameMap, k);
      }
    }
    forall b | FeasibleBatch(podMems, minSize, client, inFlight, capacity, b)
      ensures PunishedValue(client, b) <= bestValue
    {
      var indices := BatchAsSelection(podMems, inFlight, filtered, minSize, client, items, nameMap, b);
      IndicesFromAscending(indices, 0, |items|);
    }
  }

  // ----- policies behind one interface -----

  /** The pickers that need an admission checker in front of them. */
  datatype SimplePolicy = MaxPolicy | BigEnoughPolicy

  /** A simple picker behind an admission checker (MigratorAdapter). */
  datatype MigratorAdapter = MigratorAdapter(policy: SimplePolicy, checker: MigrationChecker)

  /** The migration policies the controller drives (MigrationPolicyNew). */
  datatype Migrator = Optimal(optimal: OptimalMigrator) | Adapter(adapter: MigratorAdapter)
  {
    function Checker(): MigrationChecker
    {
      match this
      case Optimal(o) => o.checker
      case Adapter(a) => a.checker
    }
  }

  /**
   * The adapter asks its checker first and then its picker; it does not
   * leave out in-flight pods.
   */
  method AdapterGetMigrationCmdsWithTime(a: MigratorAdapter, client: Client, now: int, request: NodeFreeGbRequest)
    returns (cmds: seq<MigrationCmd>, err: Option<Error>)
    ensures !a.checker.IsReady(now) ==> cmds == [] && err == Some(CheckerNotReady)
    ensures a.checker.IsReady(now) && client.podMemories(request.node).failed ==>
              cmds == [] && err == Some(ClientFailure)
    ensures a.checker.IsReady(now) && !client.podMemories(request.node).failed && a.policy.MaxPolicy? ==>
              LargestPodOutcome(client.podMemories(request.node).value, request, cmds, err)
    ensures a.checker.IsReady(now) && !client.podMemories(request.node).failed && a.policy.BigEnoughPolicy? ==>
              SmallestCoveringOutcome(client.podMemories(request.node).value, request, cmds, err)
  {
    if !a.checker.IsReady(now) {
      return [], Some(CheckerNotReady);
    }
    match a.policy
    case MaxPolicy =>
      cmds, err := MaxGetMigrationCmds(client, request);
    case BigEnoughPolicy =>
      cmds, err := BigEnoughGetMigrationCmds(client, request);
  }

  /** What every policy's successful batch satisfies. */
  ghost predicate SoundBatch(pods: PodMemMap, cmds: seq<MigrationCmd>)
  {
    forall k :: 0 <= k < |cmds| ==> cmds[k].usage == Lookup(pods, cmds[k].pod) && cmds[k].newNode == ""
  }

  method GetMigrationCmdsWithTime(mig: Migrator, client: Client, now: int, request: NodeFreeGbRequest)
    returns (cmds: seq<MigrationCmd>, err: Option<Error>)
    requires mig.Checker().Valid()
    modifies if mig.Checker().Blocking? then {mig.Checker().blocking} else {}
    ensures mig.Checker().Valid()
    ensures !old(mig.Checker().IsReady(now)) ==> cmds == [] && err == Some(CheckerNotReady)
    ensures err.None? ==>
              && !client.podMemories(request.node).failed && cmds != []
              && SoundBatch(client.podMemories(request.node).value, cmds)
  {
    match mig
    case Optimal(o) =>
      cmds, err := OptimalGetMigrationCmdsWithTime(o, client, now, request);
    case Adapter(a) =>
      cmds, err := AdapterGetMigrationCmdsWithTime(a, client, now, request);
  }

  /** Admitting a command records its pod with the checker (both migrators). */
  method StartMigration(mig: Migrator, cmd: MigrationCmd, now: int)
    requires mig.Checker().Valid()
    modifies mig.Checker().Tracker()
    ensures mig.Checker().Valid()
    ensures mig.Checker().Tracker().latestFinish == Some(FinishTime(old(mig.Checker().Tracker().latestFinish), now, cmd.usage))
    ensures mig.Checker().Tracker().migrationStart == old(mig.Checker().Tracker().migrationStart)[cmd.pod := now]
    ensures mig.Checker().Tracker().migrationFinish
            == old(mig.Checker().Tracker().migrationFinish)[cmd.pod := mig.Checker().Tracker().latestFinish.value]
  {
    Checkers.StartMigration(mig.Checker(), now, cmd.usage, cmd.pod);
  }
}

=== FILE: request_policy.dfy ===
/**
 * Criticality (request) policies (pkg/monitoring/request_policy.go). A
 * requester turns the free percentage of every node into "free N GB on
 * node X" requests; the destination validator accepts relocation commands
 * one by one against the most-free other node.
 *
 * The metrics client is the `Client` snapshot passed to each operation.
 */
module RequestPolicies {
  import opened Types
  import opened Clusters
  import opened Sums

  /** The gigabytes to free so that a node at `availablePercent` reaches `thresholdPercent`. */
  function GetFreeGbAmount(thresholdPercent: real, availablePercent: real, cluster: Cluster): (r: real)
    ensures r == GetAvailableGb(cluster, thresholdPercent - availablePercent)
  {
    var targetAvailableGb := thresholdPercent / 100.0 * cluster.nodeGb;
    var availableGb := GetAvailableGb(cluster, availablePercent);
    targetAvailableGb - availableGb
  }

  /**
   * A request is positive exactly for a node below the threshold, and
   * freeing the requested GB brings the node exactly to the threshold.
   */
  lemma FreeGbAmountMeaning(thresholdPercent: real, availablePercent: real, cluster: Cluster)
    requires cluster.nodeGb > 0.0
    ensures GetFreeGbAmount(thresholdPercent, availablePercent, cluster) > 0.0 <==> availablePercent < thresholdPercent
    ensures GetUsagePercent(cluster, GetAvailableGb(cluster, availablePercent)
                                     + GetFreeGbAmount(thresholdPercent, availablePercent, cluster))
            == thresholdPercent
  {
    var amount := GetFreeGbAmount(thresholdPercent, availablePercent, cluster);
    var share := (thresholdPercent - availablePercent) / 100.0;
    assert amount == share * cluster.nodeGb;
    assert share > 0.0 <==> availablePercent < thresholdPercent;
    assert share > 0.0 ==> share * cluster.nodeGb > 0.0;
    assert share <= 0.0 ==> share * cluster.nodeGb <= 0.0;
  }

  /** 40 % wanted, 15 % free, 100 GB nodes: 25 GB must go. */
  lemma FreeGbAmountExample()
    ensures GetFreeGbAmount(40.0, 15.0, Cluster(2, 100.0)) == 25.0
  {
  }

  /** The nodes a batch of requests names. */
  function RequestedNodes(requests: seq<NodeFreeGbRequest>): set<string>
  {
    set k | 0 <= k < |requests| :: requests[k].node
  }

  /** No node is named by two requests. */
  predicate DistinctNodes(requests: seq<NodeFreeGbRequest>)
  {
    forall j, k :: 0 <= j < k < |requests| ==> requests[j].node != requests[k].node
  }

  /** The nodes whose free percentage is strictly below `threshold`. */
  function BelowThreshold(nodes: NodeFreeMemMap, threshold: real): set<string>
  {
    set n | n in nodes && nodes[n] < threshold
  }

  /**
   * One step of a scan over the nodes: appending the request for a
   * pending node that belongs in `critical` keeps the requests distinct and
   * naming exactly the critical nodes already scanned.
   */
  lemma RequestStep(requests: seq<NodeFreeGbRequest>, r: NodeFreeGbRequest, critical: set<string>, pending: set<string>)
    requires DistinctNodes(requests) && RequestedNodes(requests) == critical - pending
    requires r.node in pending && r.node in critical
    ensures DistinctNodes(requests + [r])
    ensures RequestedNodes(requests + [r]) == critical - (pending - {r.node})
  {
    var extended := requests + [r];
    assert extended[|requests|] == r;
    forall n | n in RequestedNodes(requests) ensures n in RequestedNodes(extended) {
      var k :| 0 <= k < |requests| && requests[k].node == n;
      assert extended[k] == requests[k];
    }
    assert RequestedNodes(extended) == RequestedNodes(requests) + {r.node};
  }

  /** A scanned node outside `critical` changes nothing. */
  lemma SkipStep(critical: set<string>, pending: set<string>, node: string)
    requires node !in critical
    ensures critical - pending == critical - (pending - {node})
  {
  }

  /**
   * `leastNode` is a most-free node other than `originalNode` with a free
   * percentage above 0, or "" when there is none. Among equally free nodes
   * the choice follows map iteration order and is left open.
   */
  predicate IsLeastUsed(nodes: NodeFreeMemMap, originalNode: string, leastNode: string)
  {
    && (leastNode != "" ==> leastNode in nodes && leastNode != originalNode && nodes[leastNode] > 0.0)
    && (forall n :: n in nodes && n != originalNode && nodes[n] > 0.0 ==>
          leastNode in nodes && leastNode != originalNode && nodes[n] <= nodes[leastNode])
  }

  /** Scan the nodes for the one with the most free memory, skipping `originalNode`. */
  method GetLeastUsedNode(nodeAvailablePercents: NodeFreeMemMap, originalNode: string) returns (leastNode: string)
    ensures IsLeastUsed(nodeAvailablePercents, originalNode, leastNode)
  {
    var mostFreePercent := 0.0;
    leastNode := "";
    var pending := nodeAvailablePercents.Keys;
    while pending != {}
      invariant pending <= nodeAvailablePercents.Keys
      invariant mostFreePercent >= 0.0
      invariant mostFreePercent == 0.0 ==> leastNode == ""
      invariant mostFreePercent > 0.0 ==>
                  && leastNode in nodeAvailablePercents && leastNode != originalNode
                  && nodeAvailablePercents[leastNode] == mostFreePercent
      invariant forall n :: n in nodeAvailablePercents && n !in pending && n != originalNode ==>
                  nodeAvailablePercents[n] <= mostFreePercent
      decreases |pending|
    {
      var node :| node in pending;
      var availablePercent := nodeAvailablePercents[node];
      if availablePercent > mostFreePercent && node != originalNode {
        mostFreePercent := availablePercent;
        leastNode := node;
      }
      pending := pending - {node};
    }
  }

  /**
   * The least-used node if it still stays above `thresholdFreePercent`
   * after receiving `podMemory` GB, otherwise "".
   */
  method GetAvailableNodeWithLeastUsage(cluster: Cluster, thresholdFreePercent: real,
                                        nodeAvailablePercents: NodeFreeMemMap, originalNode: string, podMemory: real)
    returns (node: string, ghost leastNode: string)
    requires cluster.nodeGb != 0.0
    ensures IsLeastUsed(nodeAvailablePercents, originalNode, leastNode)
    ensures (GetUsagePercent(cluster, GetAvailableGb(cluster, Lookup(nodeAvailablePercents, leastNode)) - podMemory)
             > thresholdFreePercent) ==> node == leastNode
    ensures (GetUsagePercent(cluster, GetAvailableGb(cluster, Lookup(nodeAvailablePercents, leastNode)) - podMemory)
             <= thresholdFreePercent) ==> node == ""
  {
    var least := GetLeastUsedNode(nodeAvailablePercents, originalNode);
    leastNode := least;
    var availablePercent := Lookup(nodeAvailablePercents, least);
    var freeGb := GetAvailableGb(cluster, availablePercent);
    var newFreeGb := freeGb - podMemory;
    if GetUsagePercent(cluster, newFreeGb) > thresholdFreePercent {
      node := least;
    } else {
      node := "";
    }
  }

  /** The safety margin, in percent, a destination keeps above the threshold. */
  const ValidationMargin: real := 5.0

  /**
   * The commands the validator accepts, in order, when the destination
   * `dest` has `freeGb` GB free: a command is accepted (and stamped with
   * `dest`) when the destination stays at or above threshold + 5 % after
   * it; a rejected command leaves the free GB as it was.
   */
  function Accepted(cmds: seq<MigrationCmd>, freeGb: real, dest: string, threshold: real, cluster: Cluster)
    : seq<MigrationCmd>
    requires cluster.nodeGb != 0.0
  {
    if cmds == [] then []
    else
      var newFreeGb := freeGb - cmds[0].usage;
      if GetUsagePercent(cluster, newFreeGb) < threshold + ValidationMargin
      then Accepted(cmds[1..], freeGb, dest, threshold, cluster)
      else [cmds[0].(newNode := dest)] + Accepted(cmds[1..], newFreeGb, dest, threshold, cluster)
  }

  /** The GB a batch of commands moves. */
  function UsageSum(cmds: seq<MigrationCmd>): real
  {
    if cmds == [] then 0.0 else cmds[0].usage + UsageSum(cmds[1..])
  }

  /** `cmds` with every destination set to `dest`. */
  function Stamp(cmds: seq<MigrationCmd>, dest: string): (r: seq<MigrationCmd>)
    ensures |r| == |cmds|
    ensures forall k :: 0 <= k < |cmds| ==> r[k] == cmds[k].(newNode := dest)
  {
    if cmds == [] then [] else [cmds[0].(newNode := dest)] + Stamp(cmds[1..], dest)
  }

  /**
   * What the validator keeps is the input, in its order, with rejected
   * commands dropped and the destination filled in.
   */
  lemma {:induction false} AcceptedIsStampedSubsequence(cmds: seq<MigrationCmd>, freeGb: real, dest: string,
                                                        threshold: real, cluster: Cluster)
    requires cluster.nodeGb != 0.0
    ensures IsSubsequence(Accepted(cmds, freeGb, dest, threshold, cluster), Stamp(cmds, dest))
    ensures forall c :: c in Accepted(cmds, freeGb, dest, threshold, cluster) ==> c.newNode == dest
    decreases |cmds|
  {
    if cmds != [] {
      var newFreeGb := freeGb - cmds[0].usage;
      var stamped := Stamp(cmds, dest);
      assert stamped[1..] == Stamp(cmds[1..], dest);
      if GetUsagePercent(cluster, newFreeGb) < threshold + ValidationMargin {
        AcceptedIsStampedSubsequence(cmds[1..], freeGb, dest, threshold, cluster);
        var rest := Accepted(cmds[1..], freeGb, dest, threshold, cluster);
        if rest != [] {
          assert IsSubsequence(rest, stamped[1..]);
        }
      } else {
        AcceptedIsStampedSubsequence(cmds[1..], newFreeGb, dest, threshold, cluster);
        var r := Accepted(cmds, freeGb, dest, threshold, cluster);
        assert r[0] == stamped[0] && r[1..] == Accepted(cmds[1..], newFreeGb, dest, threshold, cluster);
      }
    }
  }

  /** After each prefix of `r`, a destination that had `freeGb` GB free keeps threshold + 5 %. */
  predicate MarginKept(r: seq<MigrationCmd>, freeGb: real, threshold: real, cluster: Cluster)
    requires cluster.nodeGb != 0.0
  {
    forall k :: 1 <= k <= |r| ==> GetUsagePercent(cluster, freeGb - UsageSum(r[..k])) >= threshold + ValidationMargin
  }

  /**
   * After every accepted command the destination still has at least
   * threshold + 5 % free: the margin holds for each prefix of the result.
   */
  lemma {:induction false} AcceptedKeepsMargin(cmds: seq<MigrationCmd>, freeGb: real, dest: string,
                                               threshold: real, cluster: Cluster)
    requires cluster.nodeGb != 0.0
    ensures MarginKept(Accepted(cmds, freeGb, dest, threshold, cluster), freeGb, threshold, cluster)
    decreases |cmds|
  {
    if cmds != [] {
      var newFreeGb := freeGb - cmds[0].usage;
      var r := Accepted(cmds, freeGb, dest, threshold, cluster);
      if GetUsagePercent(cluster, newFreeGb) < threshold + ValidationMargin {
        assert r == Accepted(cmds[1..], freeGb, dest, threshold, cluster);
        AcceptedKeepsMargin(cmds[1..], freeGb, dest, threshold, cluster);
      } else {
        var rest := Accepted(cmds[1..], newFreeGb, dest, threshold, cluster);
        assert r == [cmds[0].(newNode := dest)] + rest;
        AcceptedKeepsMargin(cmds[1..], newFreeGb, dest, threshold, cluster);
        forall k | 1 <= k <= |r|
          ensures GetUsagePercent(cluster, freeGb - UsageSum(r[..k])) >= threshold + ValidationMargin
        {
          var prefix := r[..k];
          assert prefix[0] == cmds[0].(newNode := dest);
          assert prefix[1..] == rest[..k - 1];
          assert UsageSum(prefix) == cmds[0].usage + UsageSum(rest[..k - 1]);
          if k > 1 {
            assert GetUsagePercent(cluster, newFreeGb - UsageSum(rest[..k - 1])) >= threshold + ValidationMargin;
          } else {
            assert rest[..0] == [];
          }
        }
      }
    }
  }

  /**
   * When the destination can take the whole batch with the margin to spare
   * (and no command frees memory), nothing is dropped.
   */
  lemma {:induction false} AcceptedAllWhenRoomForAll(cmds: seq<MigrationCmd>, freeGb: real, dest: string,
                                                     threshold: real, cluster: Cluster)
    requires cluster.nodeGb > 0.0
    requires forall k :: 0 <= k < |cmds| ==> cmds[k].usage >= 0.0
    requires GetUsagePercent(cluster, freeGb - UsageSum(cmds)) >= threshold + ValidationMargin
    ensures Accepted(cmds, freeGb, dest, threshold, cluster) == Stamp(cmds, dest)
    decreases |cmds|
  {
    if cmds != [] {
      var newFreeGb := freeGb - cmds[0].usage;
      UsageSumNonNegative(cmds[1..]);
      if freeGb - UsageSum(cmds) < newFreeGb {
        ConversionsStrictlyIncreasing(cluster, freeGb - UsageSum(cmds), newFreeGb);
      }
      AcceptedAllWhenRoomForAll(cmds[1..], newFreeGb, dest, threshold, cluster);
    }
  }

  lemma {:induction false} UsageSumNonNegative(cmds: seq<MigrationCmd>)
    requires forall k :: 0 <= k < |cmds| ==> cmds[k].usage >= 0.0
    ensures UsageSum(cmds) >= 0.0
    decreases |cmds|
  {
    if cmds != [] {
      UsageSumNonNegative(cmds[1..]);
    }
  }

  /**
   * ValidateCmds: the candidate commands for `fromNode`, checked in order
   * against the least-used other node. The snapshot of free percentages is
   * the client's (its error is ignored, as in the source).
   */
  method ValidateCmds(threshold: real, cluster: Cluster, client: Client, fromNode: string, cmds: seq<MigrationCmd>)
    returns (validCmds: seq<MigrationCmd>, ghost leastNode: string)
    requires cluster.nodeGb != 0.0
    ensures IsLeastUsed(client.freeMemoryOfNodes, fromNode, leastNode)
    ensures validCmds
            == Accepted(cmds, GetAvailableGb(cluster, Lookup(client.freeMemoryOfNodes, leastNode)),
                        leastNode, threshold, cluster)
  {
    var nodeAvailablePercents := client.freeMemoryOfNodes;
    var least := GetLeastUsedNode(nodeAvailablePercents, fromNode);
    leastNode := least;
    var availablePercent := Lookup(nodeAvailablePercents, least);
    var freeGb := GetAvailableGb(cluster, availablePercent);
    ghost var initialFreeGb := freeGb;
    validCmds := [];
    for i := 0 to |cmds|
      invariant validCmds + Accepted(cmds[i..], freeGb, leastNode, threshold, cluster)
                == Accepted(cmds, initialFreeGb, leastNode, threshold, cluster)
    {
      assert cmds[i..][1..] == cmds[i + 1..];
      var cmd := cmds[i];
      var newFreeGb := freeGb - cmd.usage;
      if GetUsagePercent(cluster, newFreeGb) < threshold + ValidationMargin {
        continue;
      } else {
        cmd := cmd.(newNode := least);
        validCmds := validCmds + [cmd];
        freeGb := newFreeGb;
      }
    }
    assert cmds[|cmds|..] == [];
  }

  /**
   * Three nodes of 100 GB: z2 is full, z1 has 69 % free, z3 65 %. With a
   * 10 % threshold, relocating 60 GB to z1 would leave 9 %, so only the
   * 40 GB pod is accepted, bound for z1.
   */
  method ValidateCmdsScenario() returns (validCmds: seq<MigrationCmd>)
    ensures validCmds == [MigrationCmd("q_z2", 40.0, "z1")]
  {
    var client := Client(map["z2" := 0.0, "z1" := 69.0, "z3" := 65.0],
                         _ => 0.0, _ => Reply(map[], false), (_, _) => Reply(0.0, false),
                         _ => 0.0, _ => 0, _ => 0, _ => Reply(0, false));
    ghost var leastNode;
    validCmds, leastNode :=
      ValidateCmds(10.0, Cluster(2, 100.0), client, "z2", [MigrationCmd("w_z2", 60.0, ""), MigrationCmd("q_z2", 40.0, "")]);
    assert "z1" in client.freeMemoryOfNodes && client.freeMemoryOfNodes["z1"] > 0.0;
    assert leastNode == "z1";
  }

  /** `r` is the request the threshold policy makes for its node. */
  predicate ThresholdRequest(r: NodeFreeGbRequest, nodes: NodeFreeMemMap, threshold: real, cluster: Cluster)
  {
    && r.node in nodes && nodes[r.node] < threshold
    && r.amount == GetFreeGbAmount(threshold, nodes[r.node], cluster)
  }

  /** The threshold policy: a node is critical when its free percentage is below the threshold. */
  class ThresholdPolicy {
    var thresholdFreePercent: real
    const cluster: Cluster

    /** NewThresholdPolicyWithCluster */
    constructor (freePercent: real, cluster: Cluster)
      ensures thresholdFreePercent == freePercent && this.cluster == cluster
    {
      thresholdFreePercent := freePercent;
      this.cluster := cluster;
    }

    method SetThreshold(thresholdPercent: real)
      modifies this`thresholdFreePercent
      ensures thresholdFreePercent == thresholdPercent
    {
      thresholdFreePercent := thresholdPercent;
    }

    /**
     * One request per node strictly below the threshold, asking for the GB
     * that bring it back to the threshold.
     */
    method GetNodeFreeGbRequests(client: Client) returns (criticalNodes: seq<NodeFreeGbRequest>)
      ensures DistinctNodes(criticalNodes)
      ensures RequestedNodes(criticalNodes) == BelowThreshold(client.freeMemoryOfNodes, thresholdFreePercent)
      ensures forall k :: 0 <= k < |criticalNodes| ==>
                ThresholdRequest(criticalNodes[k], client.freeMemoryOfNodes, thresholdFreePercent, cluster)
      ensures cluster.nodeGb > 0.0 ==> forall k :: 0 <= k < |criticalNodes| ==> criticalNodes[k].amount > 0.0
    {
      var nodes := client.freeMemoryOfNodes;
      var threshold := thresholdFreePercent;
      criticalNodes := [];
      var pending := nodes.Keys;
      while pending != {}
        invariant pending <= nodes.Keys
        invariant DistinctNodes(criticalNodes)
        invariant RequestedNodes(criticalNodes) == BelowThreshold(nodes, threshold) - pending
        invariant forall k :: 0 <= k < |criticalNodes| ==> ThresholdRequest(criticalNodes[k], nodes, threshold, cluster)
        decreases |pending|
      {
        var node :| node in pending;
        var availablePercent := nodes[node];
        if availablePercent < threshold {
          var request := NodeFreeGbRequest(node, GetFreeGbAmount(threshold, availablePercent, cluster));
          RequestStep(criticalNodes, request, BelowThreshold(nodes, threshold), pending);
          criticalNodes := criticalNodes + [request];
        } else {
          SkipStep(BelowThreshold(nodes, threshold), pending, node);
        }
        pending := pending - {node};
      }
      if cluster.nodeGb > 0.0 {
        forall k | 0 <= k < |criticalNodes| ensures criticalNodes[k].amount > 0.0 {
          FreeGbAmountMeaning(threshold, nodes[criticalNodes[k].node], cluster);
        }
      }
    }
  }

  /** The summed memory growth rate (GB per minute) of the pods on `node`. */
  ghost function NodeSlope(client: Client, node: string): real
  {
    Total(client.podMemories(node).value.Keys, pod => client.podMemorySlope(node, pod).value)
  }

  /** A free percentage once `predictionTime` minutes of growth at `slope` GB/min are subtracted. */
  function FreeAfterGrowth(availablePercent: real, slope: real, predictionTime: real, cluster: Cluster): real
    requires cluster.nodeGb != 0.0
  {
    availablePercent - GetUsagePercent(cluster, slope * predictionTime)
  }

  /** The predicted free percentage of `node`. */
  ghost function PredictedFreePercent(client: Client, cluster: Cluster, predictionTime: real, node: string): real
    requires node in client.freeMemoryOfNodes && cluster.nodeGb != 0.0
  {
    FreeAfterGrowth(client.freeMemoryOfNodes[node], NodeSlope(client, node), predictionTime, cluster)
  }

  /** The nodes whose predicted free percentage is strictly below `threshold`. */
  ghost function PredictedBelow(client: Client, cluster: Cluster, predictionTime: real, threshold: real): set<string>
    requires cluster.nodeGb != 0.0
  {
    set n | n in client.freeMemoryOfNodes && PredictedFreePercent(client, cluster, predictionTime, n) < threshold
  }

  /** `r` is the request the slope policy makes for its node. */
  ghost predicate SlopeRequest(r: NodeFreeGbRequest, client: Client, cluster: Cluster, predictionTime: real,
                               threshold: real)
    requires cluster.nodeGb != 0.0
  {
    && r.node in client.freeMemoryOfNodes
    && PredictedFreePercent(client, cluster, predictionTime, r.node) < threshold
    && r.amount == GetFreeGbAmount(threshold, PredictedFreePercent(client, cluster, predictionTime, r.node), cluster)
  }

  /** The inner accumulation of the slope policy: the slopes of every pod on `node`, summed. */
  method SumSlopes(client: Client, node: string) returns (slope: real)
    ensures slope == NodeSlope(client, node)
  {
    var pods := client.podMemories(node).value;
    slope := 0.0;
    var podsLeft := pods.Keys;
    ghost var rate := pod => client.podMemorySlope(node, pod).value;
    while podsLeft != {}
      invariant podsLeft <= pods.Keys
      invariant slope + Total(podsLeft, rate) == Total(pods.Keys, rate)
      decreases |podsLeft|
    {
      var podname :| podname in podsLeft;
      slope := slope + client.podMemorySlope(node, podname).value;
      TotalRemove(podsLeft, rate, podname);
      podsLeft := podsLeft - {podname};
    }
  }

  /** The slope policy: a node is critical when its predicted free percentage falls below the threshold. */
  class SlopeRequester {
    var thresholdFreePercent: real
    const cluster: Cluster
    const predictionTime: real

    /** NewSlopePolicyWithCluster: predicts five minutes ahead. */
    constructor (percent: real, cluster: Cluster)
      ensures thresholdFreePercent == percent && this.cluster == cluster && predictionTime == 5.0
    {
      thresholdFreePercent := percent;
      this.cluster := cluster;
      predictionTime := 5.0;
    }

    /** NewSlopePolicyWithClusterAndTime */
    constructor WithTime(percent: real, predictionTime: real, cluster: Cluster)
      ensures thresholdFreePercent == percent && this.cluster == cluster && this.predictionTime == predictionTime
    {
      thresholdFreePercent := percent;
      this.cluster := cluster;
      this.predictionTime := predictionTime;
    }

    method SetThreshold(thresholdPercent: real)
      modifies this`thresholdFreePercent
      ensures thresholdFreePercent == thresholdPercent
    {
      thresholdFreePercent := thresholdPercent;
    }

    /**
     * One request per node whose predicted free percentage is below the
     * threshold, asking for the GB that bring the prediction back to it.
     * Errors of the client queries are ignored, as in the source.
     */
    method GetNodeFreeGbRequests(client: Client) returns (criticalNodes: seq<NodeFreeGbRequest>)
      requires cluster.nodeGb != 0.0
      ensures DistinctNodes(criticalNodes)
      ensures RequestedNodes(criticalNodes) == PredictedBelow(client, cluster, predictionTime, thresholdFreePercent)
      ensures forall k :: 0 <= k < |criticalNodes| ==>
                SlopeRequest(criticalNodes[k], client, cluster, predictionTime, thresholdFreePercent)
    {
      var nodes := client.freeMemoryOfNodes;
      var threshold := thresholdFreePercent;
      criticalNodes := [];
      var pending := nodes.Keys;
      while pending != {}
        invariant pending <= nodes.Keys
        invariant DistinctNodes(criticalNodes)
        invariant RequestedNodes(criticalNodes) == PredictedBelow(client, cluster, predictionTime, threshold) - pending
        invariant forall k :: 0 <= k < |criticalNodes| ==>
                    SlopeRequest(criticalNodes[k], client, cluster, predictionTime, threshold)
        decreases |pending|
      {
        var node :| node in pending;
        var availablePercent := nodes[node];
        var slope := SumSlopes(client, node);
        var freePercent := FreeAfterGrowth(availablePercent, slope, predictionTime, cluster);
        if freePercent < threshold {
          var request := NodeFreeGbRequest(node, GetFreeGbAmount(threshold, freePercent, cluster));
          RequestStep(criticalNodes, request, PredictedBelow(client, cluster, predictionTime, threshold), pending);
          criticalNodes := criticalNodes + [request];
        } else {
          SkipStep(PredictedBelow(client, cluster, predictionTime, threshold), pending, node);
        }
        pending := pending - {node};
      }
    }
  }

  /**
   * Two 100 GB nodes: z2 has 15 % free and its pods grow 1.5 and 1 GB/min,
   * z1 has 20 % free and its pods grow 3 and 0 GB/min.
   */
  function SlopeScenarioClient(): Client
  {
    Client(map["z2" := 15.0, "z1" := 20.0],
           _ => 0.0,
           node => Reply(if node == "z2" then map["w_z2" := 40.0, "q_z2" := 45.0]
                         else if node == "z1" then map["w_z1" := 50.0, "q_z1" := 30.0]
                         else map[], false),
           (node, pod) => Reply(if pod == "w_z2" then 1.5 else if pod == "q_z2" then 1.0
                                else if pod == "w_z1" then 3.0 else 0.0, false),
           _ => 0.0, _ => 0, _ => 0, _ => Reply(0, false))
  }

  /** The pods of z2 grow 2.5 GB/min together. */
  lemma SlopeScenarioSlopeZ2()
    ensures NodeSlope(SlopeScenarioClient(), "z2") == 2.5
  {
    var client := SlopeScenarioClient();
    assert client.podMemories("z2").value.Keys == {"w_z2", "q_z2"};
    TwoTermTotal({"w_z2", "q_z2"}, pod => client.podMemorySlope("z2", pod).value, "w_z2", "q_z2");
  }

  /** The pods of z1 grow 3 GB/min together. */
  lemma SlopeScenarioSlopeZ1()
    ensures NodeSlope(SlopeScenarioClient(), "z1") == 3.0
  {
    var client := SlopeScenarioClient();
    assert client.podMemories("z1").value.Keys == {"w_z1", "q_z1"};
    TwoTermTotal({"w_z1", "q_z1"}, pod => client.podMemorySlope("z1", pod).value, "w_z1", "q_z1");
  }

  /** Five minutes ahead z2 is predicted at 2.5 % free and z1 at 5 %. */
  lemma SlopeScenarioPredictions()
    ensures PredictedFreePercent(SlopeScenarioClient(), Cluster(2, 100.0), 5.0, "z2") == 2.5
    ensures PredictedFreePercent(SlopeScenarioClient(), Cluster(2, 100.0), 5.0, "z1") == 5.0
  {
    SlopeScenarioSlopeZ2();
    SlopeScenarioSlopeZ1();
  }

  /** With a 10 % threshold both nodes are critical. */
  lemma SlopeScenarioCritical()
    ensures PredictedBelow(SlopeScenarioClient(), Cluster(2, 100.0), 5.0, 10.0) == {"z1", "z2"}
  {
    var client := SlopeScenarioClient();
    assert client.freeMemoryOfNodes.Keys == {"z1", "z2"};
    assert PredictedFreePercent(client, Cluster(2, 100.0), 5.0, "z1") < 10.0 &&
           PredictedFreePercent(client, Cluster(2, 100.0), 5.0, "z2") < 10.0 by {
      SlopeScenarioPredictions();
    }
    BothBelow(client, Cluster(2, 100.0), 5.0, 10.0);
  }

  /**
   * On the scenario above, the only requests the slope policy can make are
   * 7.5 GB for z2 and 5 GB for z1.
   */
  lemma SlopeScenarioRequests()
    ensures forall r :: SlopeRequest(r, SlopeScenarioClient(), Cluster(2, 100.0), 5.0, 10.0) ==>
              r == NodeFreeGbRequest("z2", 7.5) || r == NodeFreeGbRequest("z1", 5.0)
  {
    var client, cluster := SlopeScenarioClient(), Cluster(2, 100.0);
    assert client.freeMemoryOfNodes.Keys == {"z1", "z2"};
    RequestsOfTwo(client, cluster, 5.0, 10.0);
    assert GetFreeGbAmount(10.0, PredictedFreePercent(client, cluster, 5.0, "z2"), cluster) == 7.5 &&
           GetFreeGbAmount(10.0, PredictedFreePercent(client, cluster, 5.0, "z1"), cluster) == 5.0 by {
      SlopeScenarioPredictions();
      assert GetFreeGbAmount(10.0, 2.5, cluster) == 7.5;
      assert GetFreeGbAmount(10.0, 5.0, cluster) == 5.0;
    }
  }

  /** Two nodes both predicted below the threshold are exactly the critical ones. */
  lemma BothBelow(client: Client, cluster: Cluster, predictionTime: real, threshold: real)
    requires cluster.nodeGb != 0.0 && client.freeMemoryOfNodes.Keys == {"z1", "z2"}
    requires PredictedFreePercent(client, cluster, predictionTime, "z1") < threshold
    requires PredictedFreePercent(client, cluster, predictionTime, "z2") < threshold
    ensures PredictedBelow(client, cluster, predictionTime, threshold) == {"z1", "z2"}
  {
  }

  /** On two nodes, a slope request names one of them with that node's amount. */
  lemma RequestsOfTwo(client: Client, cluster: Cluster, predictionTime: real, threshold: real)
    requires cluster.nodeGb != 0.0 && client.freeMemoryOfNodes.Keys == {"z1", "z2"}
    ensures forall r :: SlopeRequest(r, client, cluster, predictionTime, threshold) ==>
              || r == NodeFreeGbRequest("z2", GetFreeGbAmount(threshold, PredictedFreePercent(client, cluster, predictionTime, "z2"), cluster))
              || r == NodeFreeGbRequest("z1", GetFreeGbAmount(threshold, PredictedFreePercent(client, cluster, predictionTime, "z1"), cluster))
  {
  }

  lemma TwoTermTotal(s: set<string>, f: string -> real, a: string, b: string)
    requires a != b && s == {a, b}
    ensures Total(s, f) == f(a) + f(b)
  {
    TotalRemove(s, f, a);
    assert s - {a} == {b};
    TotalRemove({b}, f, b);
    assert {b} - {b} == {};
  }

  /** The request policies, chosen once by name (RequestPolicy). */
  datatype Requester = Threshold(threshold: ThresholdPolicy) | Slope(slope: SlopeRequester)
  {
    function ThresholdFreePercent(): real
      reads if Threshold? then threshold else slope
    {
      match this
      case Threshold(t) => t.thresholdFreePercent
      case Slope(s) => s.thresholdFreePercent
    }

    function ClusterOf(): Cluster
    {
      match this
      case Threshold(t) => t.cluster
      case Slope(s) => s.cluster
    }
  }

  /** "slope" selects the slope policy; "thresold" and any unknown name the threshold policy. */
  method NewRequestPolicy(policy: string, cluster: Cluster, threshold: real) returns (r: Requester)
    ensures r.Slope? <==> policy == "slope"
    ensures r.Slope? ==> fresh(r.slope) && r.slope.predictionTime == 5.0
    ensures r.Threshold? ==> fresh(r.threshold)
    ensures r.ThresholdFreePercent() == threshold && r.ClusterOf() == cluster
  {
    match policy
    case "slope" =>
      var s := new SlopeRequester(threshold, cluster);
      r := Slope(s);
    case "thresold" =>
      var t := new ThresholdPolicy(threshold, cluster);
      r := Threshold(t);
    case _ =>
      var t := new ThresholdPolicy(threshold, cluster);
      r := Threshold(t);
  }

  method GetNodeFreeGbRequests(r: Requester, client: Client) returns (criticalNodes: seq<NodeFreeGbRequest>)
    requires r.ClusterOf().nodeGb != 0.0
    ensures DistinctNodes(criticalNodes)
    ensures RequestedNodes(criticalNodes) <= client.freeMemoryOfNodes.Keys
  {
    match r
    case Threshold(t) =>
      criticalNodes := t.GetNodeFreeGbRequests(client);
    case Slope(s) =>
      criticalNodes := s.GetNodeFreeGbRequests(client);
  }

  method SetThreshold(r: Requester, thresholdPercent: real)
    modifies if r.Threshold? then r.threshold else r.slope
    ensures r.ThresholdFreePercent() == thresholdPercent
  {
    match r
    case Threshold(t) => t.SetThreshold(thresholdPercent);
    case Slope(s) => s.SetThreshold(thresholdPercent);
  }
}

=== FILE: slope_migrator.dfy ===
/**
 * The slope migrator (pkg/monitoring/slope_migrator.go): pods whose memory
 * grows faster than 1 GB per minute are queued by growth rate, and pods are
 * taken off the queue until the node's predicted growth fits its free
 * buffer.
 */
module SlopeMigrators {
  import opened Types
  import opened Clusters
  import opened Sums

  /** A queued pod: its name, its growth rate as priority, and its position. */
  class Item {
    const name: string
    const priority: real
    var index: int

    constructor(name: string, priority: real, index: int)
      ensures this.name == name && this.priority == priority && this.index == index
    {
      this.name := name;
      this.priority := priority;
      this.index := index;
    }
  }

  /** The queue: a slice of item pointers that Push, Pop and Swap change in place. */
  class PriorityQueue {
    var items: seq<Item>

    /** No item is queued twice, and each knows its position. */
    ghost predicate Valid()
      reads this, items
    {
      && (forall j, k :: 0 <= j < k < |items| ==> items[j] != items[k])
      && (forall k :: 0 <= k < |items| ==> items[k].index == k)
    }

    constructor()
      ensures items == [] && Valid()
    {
      items := [];
    }

    function Len(): int
      reads this
    {
      |items|
    }

    /** Higher priority sorts first. */
    predicate Less(i: int, j: int): (r: bool)
      requires 0 <= i < |items| && 0 <= j < |items|
      reads this
      ensures r ==> i != j && !(items[j].priority > items[i].priority)
    {
      items[i].priority > items[j].priority
    }

    /** Exchanges two entries; each moved item learns its new position. */
    method Swap(i: int, j: int)
      requires 0 <= i < |items| && 0 <= j < |items|
      modifies this, items[i], items[j]
      ensures items == old(items)[i := old(items)[j]][j := old(items)[i]]
      ensures items[j].index == j
      ensures items[i] != items[j] ==> items[i].index == i
      ensures old(Valid()) ==> Valid()
    {
      var a, b := items[i], items[j];
      items := items[i := b][j := a];
      items[i].index := i;
      items[j].index := j;
    }

    /** Appends an item, which learns its position. */
    method Push(x: Item)
      modifies this, x
      ensures items == old(items) + [x]
      ensures x.index == old(|items|)
      ensures old(Valid()) && x !in old(items) ==> Valid()
    {
      x.index := |items|;
      items := items + [x];
    }

    /** Removes and returns the last item, marking it as no longer queued; null on an empty queue. */
    method Pop() returns (x: Item?)
      modifies this, if items == [] then {} else {items[|items| - 1]}
      ensures old(items) == [] ==> x == null && items == []
      ensures old(items) != [] ==>
                && x == old(items[|items| - 1]) && items == old(items[..|items| - 1])
                && x.index == -1
      ensures old(Valid()) ==> Valid()
    {
      if items == [] {
        return null;
      }
      var n := |items|;
      x := items[n - 1];
      x.index := -1;
      items := items[..n - 1];
    }
  }

  /** Priority order is a strict order. */
  lemma LessIsStrictOrder(pq: PriorityQueue, i: int, j: int, k: int)
    requires 0 <= i < |pq.items| && 0 <= j < |pq.items| && 0 <= k < |pq.items|
    ensures !pq.Less(i, i)
    ensures pq.Less(i, j) ==> !pq.Less(j, i)
    ensures pq.Less(i, j) && pq.Less(j, k) ==> pq.Less(i, k)
  {
  }

  /**
   * container/heap's Pop: the front item is swapped to the end and popped.
   * The library then re-sifts the remaining items; that reordering is not
   * modelled, so only the remaining items as a multiset are promised.
   */
  method HeapPop(pq: PriorityQueue) returns (x: Item)
    requires pq.Valid() && pq.items != []
    modifies pq, set a | a in pq.items
    ensures pq.Valid()
    ensures x == old(pq.items[0])
    ensures multiset(pq.items) == multiset(old(pq.items[1..]))
  {
    var n := |pq.items| - 1;
    ghost var before := pq.items;
    pq.Swap(0, n);
    var y := pq.Pop();
    x := y;
    if n > 0 {
      assert before[1..] == before[1..n] + [before[n]];
      assert pq.items == [before[n]] + before[1..n];
    }
  }

  /**
   * What container/heap's Pop returns from a queue kept in heap order: an
   * item of the highest priority, here found by a scan, swapped to the end
   * and popped. `top` is the position it had.
   */
  method PopSteepest(pq: PriorityQueue) returns (x: Item, ghost top: int)
    requires pq.Valid() && pq.items != []
    modifies pq, set a | a in pq.items
    ensures pq.Valid()
    ensures 0 <= top < |old(pq.items)| && x == old(pq.items[top])
    ensures multiset(pq.items) == multiset(old(pq.items[..top] + pq.items[top + 1..]))
    ensures forall a :: a in old(pq.items) ==> a.priority <= x.priority
    ensures forall a :: a in pq.items ==> a.priority <= x.priority
  {
    var n := |pq.items| - 1;
    var best := SteepestIndex(pq);
    top := best;
    ghost var before := pq.items;
    pq.Swap(best, n);
    x := pq.Pop();
    SwapPopRest(before, pq.items, best);
  }

  /** The position of an item of the highest priority, found by a scan. */
  method SteepestIndex(pq: PriorityQueue) returns (best: int)
    requires pq.Valid() && pq.items != []
    ensures 0 <= best < |pq.items|
    ensures forall a :: a in pq.items ==> a.priority <= pq.items[best].priority
  {
    best := 0;
    for i := 1 to |pq.items|
      invariant 0 <= best < |pq.items|
      invariant forall k :: 0 <= k < i ==> pq.items[k].priority <= pq.items[best].priority
    {
      if pq.Less(i, best) {
        best := i;
      }
    }
  }

  /** Swapping an entry to the end and dropping it leaves the other entries. */
  lemma SwapPopRest(before: seq<Item>, after: seq<Item>, best: int)
    requires 0 <= best < |before|
    requires after == before[best := before[|before| - 1]][..|before| - 1]
    ensures multiset(after) == multiset(before[..best] + before[best + 1..])
    ensures forall a :: a in after ==> a in before
  {
    var n := |before| - 1;
    if best < n {
      assert after == before[..best] + [before[n]] + before[best + 1..n];
      assert before[best + 1..] == before[best + 1..n] + [before[n]];
    } else {
      assert before[best + 1..] == [];
    }
    forall a | a in after ensures a in before {
      var k :| 0 <= k < |after| && after[k] == a;
      if k == best {
        assert a == before[n];
      } else {
        assert a == before[k];
      }
    }
  }

  /**
   * Go pushes the pods with the slice's own Push, so the queue is never in
   * heap order and the first Pop hands back the pod queued first: queued at
   * 2 and then at 5 GB per minute, the slower pod comes out first.
   */
  method UnorderedPopScenario() returns (x: Item, rest: seq<Item>)
    ensures x.name == "a" && x.priority == 2.0
    ensures |rest| == 1 && rest[0].name == "b" && rest[0].priority > x.priority
  {
    var pq := new PriorityQueue();
    var a := new Item("a", 2.0, 0);
    var b := new Item("b", 5.0, 1);
    pq.Push(a);
    pq.Push(b);
    x := HeapPop(pq);
    rest := pq.items;
    assert multiset(rest) == multiset([b]);
    assert b in multiset(rest);
  }

  /** On the same queue, the steepest pop takes the faster pod. */
  method SteepestPopScenario() returns (x: Item)
    ensures x.name == "b"
  {
    var pq := new PriorityQueue();
    var a := new Item("a", 2.0, 0);
    var b := new Item("b", 5.0, 1);
    pq.Push(a);
    pq.Push(b);
    ghost var top;
    assert pq.items == [a, b];
    x, top := PopSteepest(pq);
  }

  // ----- the greedy migrator -----

  datatype SlopeMigrator = SlopeMigrator(cluster: Cluster, timeAhead: real)

  /** The slope query for one pod (GetPodMemorySlope). */
  function SlopeOf(client: Client, node: string, p: string): Reply<real>
  {
    client.podMemorySlope(node, p)
  }

  /** The pods of `pods` with a readable slope above 1 GB per minute: the ones queued. */
  function Growing(client: Client, node: string, pods: PodMemMap): set<string>
  {
    set p | p in pods && !SlopeOf(client, node, p).failed && SlopeOf(client, node, p).value > 1.0
  }

  /** Growth in GB over `timeAhead` minutes at `slope` GB per minute. */
  function GrowthOver(slope: real, timeAhead: real): real
  {
    slope * timeAhead
  }

  /** Each pod's predicted growth over `timeAhead` minutes. */
  function Growth(client: Client, node: string, timeAhead: real): string -> real
  {
    p => GrowthOver(SlopeOf(client, node, p).value, timeAhead)
  }

  lemma GrowthAt(client: Client, node: string, timeAhead: real, p: string)
    ensures Growth(client, node, timeAhead)(p) == GrowthOver(SlopeOf(client, node, p).value, timeAhead)
  {
  }

  /** Taking one pod off the queue removes its growth from the predicted usage. */
  lemma GrowthRemoved(rest: set<string>, client: Client, node: string, timeAhead: real, name: string,
                      growth: real, predicted: real)
    requires predicted == Total(rest, Growth(client, node, timeAhead))
    requires name in rest && growth == GrowthOver(SlopeOf(client, node, name).value, timeAhead)
    ensures predicted - growth == Total(rest - {name}, Growth(client, node, timeAhead))
  {
    TotalRemove(rest, Growth(client, node, timeAhead), name);
    GrowthAt(client, node, timeAhead, name);
  }

  lemma SetSkip(grow: set<string>, pending: set<string>, name: string)
    requires name !in grow
    ensures grow - (pending - {name}) == grow - pending
  {
  }

  /** `ms` takes distinct growing pods of `podmems`, each with its memory and no target node. */
  predicate TakenFrom(ms: seq<MigrationCmd>, grow: set<string>, podmems: PodMemMap)
  {
    && DistinctPods(ms) && Pods(ms) <= grow
    && forall k :: 0 <= k < |ms| ==> ms[k].pod in podmems && ms[k].usage == podmems[ms[k].pod] && ms[k].newNode == ""
  }

  /** Taking one more growing pod that was not taken yet. */
  lemma TakeOne(ms: seq<MigrationCmd>, c: MigrationCmd, grow: set<string>, podmems: PodMemMap)
    requires TakenFrom(ms, grow, podmems)
    requires c.pod in grow && c.pod !in Pods(ms)
    requires c.pod in podmems && c.usage == podmems[c.pod] && c.newNode == ""
    ensures TakenFrom(ms + [c], grow, podmems)
    ensures grow - Pods(ms + [c]) == (grow - Pods(ms)) - {c.pod}
  {
    PodsAppend(ms, c);
    var ms' := ms + [c];
    forall j, k | 0 <= j < k < |ms'| ensures ms'[j].pod != ms'[k].pod {
      if k == |ms| {
        assert ms'[j].pod == ms[j].pod;
      }
    }
  }

  /** The names of the queued items. */
  function NamesOf(items: seq<Item>): set<string>
  {
    set a | a in items :: a.name
  }

  /** No two queued items share a name. */
  predicate UniqueNames(items: seq<Item>)
  {
    forall a, b :: a in items && b in items && a.name == b.name ==> a == b
  }

  /** Every queued item is a growing pod with its slope as priority. */
  predicate QueuedGrowing(items: seq<Item>, client: Client, node: string, grow: set<string>)
  {
    forall a :: a in items ==> a.name in grow && a.priority == SlopeOf(client, node, a.name).value
  }

  /** Before each emitted command, the remaining predicted growth still exceeded the buffer. */
  ghost predicate StillOver(grow: set<string>, f: string -> real, buffer: real, migrations: seq<MigrationCmd>)
  {
    forall k :: 0 <= k <= |migrations| ==> (k < |migrations| ==> Total(grow - Pods(migrations[..k]), f) > buffer)
  }

  lemma PodsAppend(ms: seq<MigrationCmd>, c: MigrationCmd)
    ensures Pods(ms + [c]) == Pods(ms) + {c.pod}
  {
    var ms' := ms + [c];
    forall p | p in Pods(ms') ensures p in Pods(ms) + {c.pod} {
      var k :| 0 <= k < |ms'| && ms'[k].pod == p;
      if k < |ms| {
        assert ms[k].pod == p;
      }
    }
    forall p | p in Pods(ms) ensures p in Pods(ms') {
      var k :| 0 <= k < |ms| && ms[k].pod == p;
      assert ms'[k].pod == p;
    }
    assert ms'[|ms|].pod == c.pod;
  }

  lemma StillOverStep(grow: set<string>, f: string -> real, buffer: real, ms: seq<MigrationCmd>, c: MigrationCmd)
    requires StillOver(grow, f, buffer, ms)
    requires Total(grow - Pods(ms), f) > buffer
    ensures StillOver(grow, f, buffer, ms + [c])
  {
    var ms' := ms + [c];
    forall k | 0 <= k < |ms'| ensures Total(grow - Pods(ms'[..k]), f) > buffer {
      assert ms'[..k] == ms[..k];
      if k == |ms| {
        assert ms[..k] == ms;
      }
    }
  }

  lemma NamesPush(items: seq<Item>, x: Item)
    ensures NamesOf(items + [x]) == NamesOf(items) + {x.name}
  {
    var items' := items + [x];
    assert x in items';
    forall a | a in items' ensures a in items || a == x {
    }
    forall a | a in items ensures a in items' {
    }
  }

  /** Taking the item at position `i` off a queue with unique names removes exactly its name. */
  lemma NamesPop(before: seq<Item>, after: seq<Item>, i: int, x: Item)
    requires 0 <= i < |before| && x == before[i]
    requires forall j, k :: 0 <= j < k < |before| ==> before[j] != before[k]
    requires multiset(after) == multiset(before[..i] + before[i + 1..])
    requires UniqueNames(before)
    ensures forall a :: a in after ==> a in before && a != x
    ensures UniqueNames(after)
    ensures NamesOf(after) == NamesOf(before) - {x.name}
    ensures |after| == |before| - 1
  {
    var rest := before[..i] + before[i + 1..];
    assert before == before[..i] + [x] + before[i + 1..];
    assert forall a :: a in after <==> a in rest by {
      forall a ensures a in after <==> a in rest {
        assert a in after <==> a in multiset(after);
        assert a in rest <==> a in multiset(rest);
      }
    }
    assert x !in rest by {
      forall k | 0 <= k < |rest| ensures rest[k] != x {
        if k < i {
          assert rest[k] == before[k];
        } else {
          assert rest[k] == before[k + 1];
        }
      }
    }
    assert |after| == |multiset(after)| == |multiset(rest)| == |before| - 1;
    forall n | n in NamesOf(before) - {x.name} ensures n in NamesOf(after) {
      var a :| a in before && a.name == n;
      assert a != x;
      assert a in rest;
    }
  }

  /** Taking the front item off a queue with unique names removes exactly its name. */
  lemma NamesPopFront(before: seq<Item>, after: seq<Item>, x: Item)
    requires before != [] && x == before[0]
    requires forall j, k :: 0 <= j < k < |before| ==> before[j] != before[k]
    requires multiset(after) == multiset(before[1..])
    requires UniqueNames(before)
    ensures forall a :: a in after ==> a in before && a != x
    ensures UniqueNames(after)
    ensures NamesOf(after) == NamesOf(before) - {x.name}
    ensures |after| == |before| - 1
  {
    assert before[..0] + before[1..] == before[1..];
    NamesPop(before, after, 0, x);
  }

  /** The queue holds distinct, correctly positioned items, one per growing pod name. */
  ghost predicate QueueOf(pq: PriorityQueue, client: Client, node: string, grow: set<string>)
    reads pq, pq.items
  {
    pq.Valid() && UniqueNames(pq.items) && QueuedGrowing(pq.items, client, node, grow)
  }

  /** Queueing a fresh growing pod keeps one item per name. */
  lemma PushGrowing(items: seq<Item>, x: Item, client: Client, node: string, grow: set<string>, pending: set<string>)
    requires UniqueNames(items) && QueuedGrowing(items, client, node, grow)
    requires NamesOf(items) == grow - pending
    requires x.name in pending && x.name in grow && x.priority == SlopeOf(client, node, x.name).value
    ensures UniqueNames(items + [x]) && QueuedGrowing(items + [x], client, node, grow)
    ensures NamesOf(items + [x]) == grow - (pending - {x.name})
  {
    NamesPush(items, x);
    forall a | a in items ensures a.name != x.name {
      assert a.name in NamesOf(items);
    }
  }

  /** The predicted growth of the queued items, summed in queue order. */
  function QueuedGrowth(items: seq<Item>, timeAhead: real): real
  {
    if items == [] then 0.0
    else QueuedGrowth(items[..|items| - 1], timeAhead) + GrowthOver(items[|items| - 1].priority, timeAhead)
  }

  /** Summed in queue order or over the set of queued names, the predicted growth is the same. */
  lemma {:induction false} QueuedGrowthIsTotal(items: seq<Item>, client: Client, node: string, timeAhead: real)
    requires forall j, k :: 0 <= j < k < |items| ==> items[j] != items[k]
    requires UniqueNames(items)
    requires forall a :: a in items ==> a.priority == SlopeOf(client, node, a.name).value
    ensures QueuedGrowth(items, timeAhead) == Total(NamesOf(items), Growth(client, node, timeAhead))
    decreases |items|
  {
    if items == [] {
      assert NamesOf(items) == {};
    } else {
      var prefix, x := items[..|items| - 1], items[|items| - 1];
      assert items == prefix + [x];
      QueuedGrowthIsTotal(prefix, client, node, timeAhead);
      NamesPush(prefix, x);
      forall a | a in prefix ensures a.name != x.name {
        var j :| 0 <= j < |prefix| && prefix[j] == a;
        assert items[j] == a && items[|items| - 1] == x;
      }
      TotalAdd(NamesOf(prefix), Growth(client, node, timeAhead), x.name);
      GrowthAt(client, node, timeAhead, x.name);
    }
  }

  /** The first loop of GetMigrationCmds: queue every growing pod and sum its predicted growth. */
  method QueueGrowingPods(client: Client, node: string, podmems: PodMemMap, timeAhead: real)
    returns (pq: PriorityQueue, lenHeap: int, predictedUsage: real)
    ensures fresh(pq) && forall a :: a in pq.items ==> fresh(a)
    ensures QueueOf(pq, client, node, Growing(client, node, podmems))
    ensures NamesOf(pq.items) == Growing(client, node, podmems)
    ensures |pq.items| == lenHeap
    ensures predictedUsage == Total(Growing(client, node, podmems), Growth(client, node, timeAhead))
  {
    ghost var grow := Growing(client, node, podmems);
    predictedUsage := 0.0;
    pq := new PriorityQueue();
    lenHeap := 0;
    var pending := podmems.Keys;
    while pending != {}
      invariant pending <= podmems.Keys
      invariant fresh(pq) && pq.Valid() && forall a :: a in pq.items ==> fresh(a)
      invariant UniqueNames(pq.items) && QueuedGrowing(pq.items, client, node, grow)
      invariant NamesOf(pq.items) == grow - pending
      invariant |pq.items| == lenHeap
      invariant predictedUsage == QueuedGrowth(pq.items, timeAhead)
      decreases |pending|
    {
      var name :| name in pending;
      var slope := SlopeOf(client, node, name);
      if !slope.failed && slope.value > 1.0 {
        var growth := GrowthOver(slope.value, timeAhead);
        var item := new Item(name, slope.value, lenHeap);
        PushGrowing(pq.items, item, client, node, grow, pending);
        assert (pq.items + [item])[..|pq.items|] == pq.items;
        pq.Push(item);
        lenHeap := lenHeap + 1;
        predictedUsage := predictedUsage + growth;
      } else {
        assert name !in grow;
        SetSkip(grow, pending, name);
      }
      pending := pending - {name};
    }
    assert grow - {} == grow;
    QueuedGrowthIsTotal(pq.items, client, node, timeAhead);
  }

  /**
   * The second loop of GetMigrationCmds: take pods off the queue while the
   * predicted growth exceeds the buffer; `exhausted` reports the early
   * return taken when the queue runs dry first.
   */
  method TakeUntilFits(pq: PriorityQueue, lenHeap: int, predicted: real, buffer: real,
                       client: Client, node: string, podmems: PodMemMap, timeAhead: real)
    returns (migrations: seq<MigrationCmd>, exhausted: bool)
    requires QueueOf(pq, client, node, Growing(client, node, podmems))
    requires NamesOf(pq.items) == Growing(client, node, podmems)
    requires |pq.items| == lenHeap
    requires predicted == Total(NamesOf(pq.items), Growth(client, node, timeAhead))
    modifies pq, set a | a in pq.items
    ensures var grow := Growing(client, node, podmems);
            var f := Growth(client, node, timeAhead);
            && DistinctPods(migrations) && Pods(migrations) <= grow
            && (forall k :: 0 <= k < |migrations| ==>
                  migrations[k].pod in podmems && migrations[k].usage == podmems[migrations[k].pod]
                  && migrations[k].newNode == "")
            && (Total(grow - Pods(migrations), f) <= buffer || Pods(migrations) == grow)
            && StillOver(grow, f, buffer, migrations)
    ensures exhausted <==> Pods(migrations) == Growing(client, node, podmems) && buffer < 0.0
  {
    ghost var grow := Growing(client, node, podmems);
    ghost var f := Growth(client, node, timeAhead);
    var predictedUsage := predicted;
    migrations := [];
    exhausted := false;
    assert Pods([]) == {};
    while predictedUsage > buffer
      invariant forall a :: a in pq.items ==> a in old(pq.items)
      invariant QueueOf(pq, client, node, grow)
      invariant NamesOf(pq.items) == grow - Pods(migrations)
      invariant |pq.items| + |migrations| == lenHeap
      invariant predictedUsage == Total(grow - Pods(migrations), f)
      invariant TakenFrom(migrations, grow, podmems)
      invariant StillOver(grow, f, buffer, migrations)
      decreases lenHeap - |migrations|
    {
      if |migrations| == lenHeap {
        assert pq.items == [];
        assert grow - Pods(migrations) == {};
        return migrations, true;
      }
      ghost var before := pq.items;
      var item := HeapPop(pq);
      NamesPopFront(before, pq.items, item);
      assert item in before;
      var growth := GrowthOver(item.priority, timeAhead);
      GrowthRemoved(grow - Pods(migrations), client, node, timeAhead, item.name, growth, predictedUsage);
      predictedUsage := predictedUsage - growth;
      var cmd := MigrationCmd(item.name, Lookup(podmems, item.name), "");
      StillOverStep(grow, f, buffer, migrations, cmd);
      TakeOne(migrations, cmd, grow, podmems);
      migrations := migrations + [cmd];
    }
    assert Pods(migrations) == grow ==> grow - Pods(migrations) == {};
  }

  /** Every taken pod grows at least as fast as each pod taken after it and each pod left queued. */
  ghost predicate SteepestFirst(client: Client, node: string, grow: set<string>, ms: seq<MigrationCmd>)
  {
    && (forall j, k :: 0 <= j < k < |ms| ==> SlopeOf(client, node, ms[k].pod).value <= SlopeOf(client, node, ms[j].pod).value)
    && (forall k, p :: 0 <= k < |ms| && p in grow - Pods(ms) ==>
          SlopeOf(client, node, p).value <= SlopeOf(client, node, ms[k].pod).value)
  }

  /** Taking a pod at least as steep as every pod still queued keeps the order steepest first. */
  lemma SteepestStep(client: Client, node: string, grow: set<string>, ms: seq<MigrationCmd>, c: MigrationCmd,
                     rest: seq<Item>)
    requires SteepestFirst(client, node, grow, ms)
    requires c.pod in grow - Pods(ms)
    requires QueuedGrowing(rest, client, node, grow)
    requires NamesOf(rest) == grow - Pods(ms + [c])
    requires forall a :: a in rest ==> a.priority <= SlopeOf(client, node, c.pod).value
    ensures SteepestFirst(client, node, grow, ms + [c])
  {
    var ms' := ms + [c];
    PodsAppend(ms, c);
    forall j, k | 0 <= j < k < |ms'|
      ensures SlopeOf(client, node, ms'[k].pod).value <= SlopeOf(client, node, ms'[j].pod).value
    {
      assert ms'[j] == ms[j];
      if k < |ms| {
        assert ms'[k] == ms[k];
      }
    }
    forall k, p | 0 <= k < |ms'| && p in grow - Pods(ms')
      ensures SlopeOf(client, node, p).value <= SlopeOf(client, node, ms'[k].pod).value
    {
      var a :| a in rest && a.name == p;
      if k < |ms| {
        assert ms'[k] == ms[k];
      }
    }
  }

  /**
   * The second loop as the source evidently means it: the queue in heap
   * order, so that each pod taken is a steepest one still queued.
   */
  method TakeSteepestUntilFits(pq: PriorityQueue, lenHeap: int, predicted: real, buffer: real,
                               client: Client, node: string, podmems: PodMemMap, timeAhead: real)
    returns (migrations: seq<MigrationCmd>, exhausted: bool)
    requires QueueOf(pq, client, node, Growing(client, node, podmems))
    requires NamesOf(pq.items) == Growing(client, node, podmems)
    requires |pq.items| == lenHeap
    requires predicted == Total(NamesOf(pq.items), Growth(client, node, timeAhead))
    modifies pq, set a | a in pq.items
    ensures var grow := Growing(client, node, podmems);
            var f := Growth(client, node, timeAhead);
            && DistinctPods(migrations) && Pods(migrations) <= grow
            && (forall k :: 0 <= k < |migrations| ==>
                  migrations[k].pod in podmems && migrations[k].usage == podmems[migrations[k].pod]
                  && migrations[k].newNode == "")
            && (Total(grow - Pods(migrations), f) <= buffer || Pods(migrations) == grow)
            && StillOver(grow, f, buffer, migrations)
    ensures SteepestFirst(client, node, Growing(client, node, podmems), migrations)
    ensures exhausted <==> Pods(migrations) == Growing(client, node, podmems) && buffer < 0.0
  {
    ghost var grow := Growing(client, node, podmems);
    ghost var f := Growth(client, node, timeAhead);
    var predictedUsage := predicted;
    migrations := [];
    exhausted := false;
    assert Pods([]) == {};
    while predictedUsage > buffer
      invariant forall a :: a in pq.items ==> a in old(pq.items)
      invariant QueueOf(pq, client, node, grow)
      invariant NamesOf(pq.items) == grow - Pods(migrations)
      invariant |pq.items| + |migrations| == lenHeap
      invariant predictedUsage == Total(grow - Pods(migrations), f)
      invariant TakenFrom(migrations, grow, podmems)
      invariant StillOver(grow, f, buffer, migrations)
      invariant SteepestFirst(client, node, grow, migrations)
      decreases lenHeap - |migrations|
    {
      if |migrations| == lenHeap {
        assert pq.items == [];
        assert grow - Pods(migrations) == {};
        return migrations, true;
      }
      ghost var before := pq.items;
      var item;
      ghost var top;
      item, top := PopSteepest(pq);
      NamesPop(before, pq.items, top, item);
      assert item in before;
      var growth := GrowthOver(item.priority, timeAhead);
      GrowthRemoved(grow - Pods(migrations), client, node, timeAhead, item.name, growth, predictedUsage);
      predictedUsage := predictedUsage - growth;
      var cmd := MigrationCmd(item.name, Lookup(podmems, item.name), "");
      StillOverStep(grow, f, buffer, migrations, cmd);
      TakeOne(migrations, cmd, grow, podmems);
      SteepestStep(client, node, grow, migrations, cmd, pq.items);
      migrations := migrations + [cmd];
    }
    assert Pods(migrations) == grow ==> grow - Pods(migrations) == {};
  }

  /**
   * What GetMigrationCmds promises, whichever order its second loop takes
   * the queued pods in: distinct growing pods with their memory; the rest
   * fits the buffer or every growing pod is taken; no pod is taken once the
   * rest fits, and none when all growth fits; the only error is the
   * pod-memory query's, which the early return drops: that return is taken
   * exactly when every growing pod is taken and the buffer is negative.
   */
  ghost predicate SlopeOutcome(m: SlopeMigrator, client: Client, request: NodeFreeGbRequest,
                               migrations: seq<MigrationCmd>, err: Option<Error>)
  {
    var pods := client.podMemories(request.node).value;
    var grow := Growing(client, request.node, pods);
    var f := Growth(client, request.node, m.timeAhead);
    var buffer := GetAvailableGb(m.cluster, client.freeMemoryNode(request.node));
    && DistinctPods(migrations) && Pods(migrations) <= grow
    && (forall k :: 0 <= k < |migrations| ==>
          migrations[k].pod in pods && migrations[k].usage == pods[migrations[k].pod]
          && migrations[k].newNode == "")
    && (Total(grow - Pods(migrations), f) <= buffer || Pods(migrations) == grow)
    && StillOver(grow, f, buffer, migrations)
    && (Total(grow, f) <= buffer ==> migrations == [])
    && err == (if client.podMemories(request.node).failed && !(Pods(migrations) == grow && buffer < 0.0)
               then Some(ClientFailure) else None)
  }

  /**
   * GetMigrationCmds as the source writes it: the growing pods are queued
   * without heap order, so the first pop returns the pod at position 0,
   * the first one the map's iteration yields, whatever its slope; the order
   * of later pops is left open.
   */
  method GetMigrationCmdsAsWritten(m: SlopeMigrator, client: Client, request: NodeFreeGbRequest)
    returns (migrations: seq<MigrationCmd>, err: Option<Error>)
    ensures SlopeOutcome(m, client, request, migrations, err)
  {
    var nodeMem := client.freeMemoryNode(request.node);
    var buffer := GetAvailableGb(m.cluster, nodeMem);
    var reply := client.podMemories(request.node);
    var podmems := reply.value;
    err := if reply.failed then Some(ClientFailure) else None;
    var pq, lenHeap, predictedUsage := QueueGrowingPods(client, request.node, podmems, m.timeAhead);
    var exhausted;
    migrations, exhausted := TakeUntilFits(pq, lenHeap, predictedUsage, buffer, client, request.node, podmems, m.timeAhead);
    if exhausted {
      err := None;
    }
    if migrations != [] {
      ghost var grow := Growing(client, request.node, podmems);
      assert migrations[..0] == [] && Pods(migrations[..0]) == {};
      assert grow - Pods(migrations[..0]) == grow;
    }
  }


  /**
   * GetMigrationCmds as the source means it: the same two loops, with the
   * steepest queued pod taken first each time.
   */
  method GetMigrationCmds(m: SlopeMigrator, client: Client, request: NodeFreeGbRequest)
    returns (migrations: seq<MigrationCmd>, err: Option<Error>)
    ensures SlopeOutcome(m, client, request, migrations, err)
    ensures SteepestFirst(client, request.node, Growing(client, request.node, client.podMemories(request.node).value), migrations)
  {
    var nodeMem := client.freeMemoryNode(request.node);
    var buffer := GetAvailableGb(m.cluster, nodeMem);
    var reply := client.podMemories(request.node);
    var podmems := reply.value;
    err := if reply.failed then Some(ClientFailure) else None;
    var pq, lenHeap, predictedUsage := QueueGrowingPods(client, request.node, podmems, m.timeAhead);
    var exhausted;
    migrations, exhausted := TakeSteepestUntilFits(pq, lenHeap, predictedUsage, buffer, client, request.node, podmems, m.timeAhead);
    if exhausted {
      err := None;
    }
    if migrations != [] {
      ghost var grow := Growing(client, request.node, podmems);
      assert migrations[..0] == [] && Pods(migrations[..0]) == {};
      assert grow - Pods(migrations[..0]) == grow;
    }
  }

  /**
   * On node z2 of a 100 GB cluster with 10 % free, w_z2 (40 GB) grows 3 GB/min
   * and q_z2 (45 GB) 1 GB/min. Over five minutes only w_z2 is queued, its
   * 15 GB exceed the 10 GB buffer, and it alone is taken.
   */
  method SlopeScenario() returns (migrations: seq<MigrationCmd>, err: Option<Error>)
    ensures migrations == [MigrationCmd("w_z2", 40.0, "")] && err == None
  {
    var client := ScenarioClient();
    var m := SlopeMigrator(Cluster(2, 100.0), 5.0);
    migrations, err := GetMigrationCmds(m, client, NodeFreeGbRequest("z2", 0.0));
    ScenarioOutcome(m, client, migrations, err);
  }

  /** The client of SlopeScenario. */
  function ScenarioClient(): (client: Client)
    ensures client.freeMemoryNode("z2") == 10.0
    ensures client.podMemories("z2") == Reply(map["w_z2" := 40.0, "q_z2" := 45.0], false)
    ensures SlopeOf(client, "z2", "w_z2") == Reply(3.0, false)
    ensures SlopeOf(client, "z2", "q_z2") == Reply(1.0, false)
  {
    Client(map["z2" := 10.0, "z1" := 20.0],
           node => if node == "z2" then 10.0 else 20.0,
           node => Reply(if node == "z2" then map["w_z2" := 40.0, "q_z2" := 45.0] else map[], false),
           (node, pod) => Reply(if pod == "w_z2" then 3.0 else if pod == "q_z2" then 1.0 else 0.0, false),
           _ => 50.0, _ => 0, _ => 0, _ => Reply(0, false))
  }

  /** Any outcome GetMigrationCmds may give on the scenario's client is w_z2 alone. */
  lemma ScenarioOutcome(m: SlopeMigrator, client: Client, migrations: seq<MigrationCmd>, err: Option<Error>)
    requires m == SlopeMigrator(Cluster(2, 100.0), 5.0)
    requires client.freeMemoryNode("z2") == 10.0
    requires client.podMemories("z2") == Reply(map["w_z2" := 40.0, "q_z2" := 45.0], false)
    requires SlopeOf(client, "z2", "w_z2") == Reply(3.0, false)
    requires SlopeOf(client, "z2", "q_z2") == Reply(1.0, false)
    requires SlopeOutcome(m, client, NodeFreeGbRequest("z2", 0.0), migrations, err)
    ensures migrations == [MigrationCmd("w_z2", 40.0, "")] && err == None
  {
    var pods := client.podMemories("z2").value;
    var grow := Growing(client, "z2", pods);
    assert pods == map["w_z2" := 40.0, "q_z2" := 45.0];
    assert grow == {"w_z2"};
    ScenarioGrowth(client);
    assert GetAvailableGb(m.cluster, 10.0) == 10.0;
    TakesSomething(grow, Growth(client, "z2", 5.0), 10.0, migrations);
    OnlyPodTaken(migrations, "w_z2");
  }

  /** When all growth exceeds the buffer, some pod is taken. */
  lemma TakesSomething(grow: set<string>, f: string -> real, buffer: real, ms: seq<MigrationCmd>)
    requires grow != {} && Total(grow, f) > buffer
    requires Total(grow - Pods(ms), f) <= buffer || Pods(ms) == grow
    ensures ms != []
  {
    assert Pods([]) == {} && grow - {} == grow;
  }

  /** A batch of distinct commands, all for one pod, is that one command. */
  lemma OnlyPodTaken(ms: seq<MigrationCmd>, p: string)
    requires ms != [] && DistinctPods(ms) && Pods(ms) <= {p}
    ensures |ms| == 1 && ms[0].pod == p
  {
    assert ms[0].pod in Pods(ms);
    assert Pods(ms) == {p};
    DistinctPodsCount(ms);
  }

  /**
   * On node z2 of a 100 GB cluster with 20 % free, a_z2 grows 2 GB/min and
   * b_z2 5 GB/min. Over five minutes they would grow 35 GB against a 20 GB
   * buffer; taking the steeper b_z2 first leaves 10 GB, so b_z2 alone is
   * taken. Queued as the source does, with the map yielding a_z2 first,
   * a_z2 would be popped first and both would be taken.
   */
  method SteepestScenario() returns (migrations: seq<MigrationCmd>, err: Option<Error>)
    ensures migrations == [MigrationCmd("b_z2", 40.0, "")] && err == None
  {
    var client := SteepestClient();
    var m := SlopeMigrator(Cluster(2, 100.0), 5.0);
    migrations, err := GetMigrationCmds(m, client, NodeFreeGbRequest("z2", 0.0));
    SteepestOutcome(m, client, migrations, err);
  }

  /** The client of SteepestScenario. */
  function SteepestClient(): (client: Client)
    ensures client.freeMemoryNode("z2") == 20.0
    ensures client.podMemories("z2") == Reply(map["a_z2" := 30.0, "b_z2" := 40.0], false)
    ensures SlopeOf(client, "z2", "a_z2") == Reply(2.0, false)
    ensures SlopeOf(client, "z2", "b_z2") == Reply(5.0, false)
  {
    Client(map["z2" := 20.0, "z1" := 20.0],
           node => 20.0,
           node => Reply(if node == "z2" then map["a_z2" := 30.0, "b_z2" := 40.0] else map[], false),
           (node, pod) => Reply(if pod == "a_z2" then 2.0 else if pod == "b_z2" then 5.0 else 0.0, false),
           _ => 50.0, _ => 0, _ => 0, _ => Reply(0, false))
  }

  /** Taken steepest first, the scenario's outcome is b_z2 alone. */
  lemma SteepestOutcome(m: SlopeMigrator, client: Client, migrations: seq<MigrationCmd>, err: Option<Error>)
    requires m == SlopeMigrator(Cluster(2, 100.0), 5.0)
    requires client.freeMemoryNode("z2") == 20.0
    requires client.podMemories("z2") == Reply(map["a_z2" := 30.0, "b_z2" := 40.0], false)
    requires SlopeOf(client, "z2", "a_z2") == Reply(2.0, false)
    requires SlopeOf(client, "z2", "b_z2") == Reply(5.0, false)
    requires SlopeOutcome(m, client, NodeFreeGbRequest("z2", 0.0), migrations, err)
    requires SteepestFirst(client, "z2", Growing(client, "z2", map["a_z2" := 30.0, "b_z2" := 40.0]), migrations)
    ensures migrations == [MigrationCmd("b_z2", 40.0, "")] && err == None
  {
    var pods := client.podMemories("z2").value;
    var grow := Growing(client, "z2", pods);
    var f := Growth(client, "z2", 5.0);
    assert pods == map["a_z2" := 30.0, "b_z2" := 40.0];
    SteepestTotals(client, grow, f);
    assert GetAvailableGb(m.cluster, 20.0) == 20.0;
    TakesSomething(grow, f, 20.0, migrations);
    SteepestHead(client, "z2", grow, migrations, "b_z2");
    assert migrations[0].pod in Pods(migrations);
    assert migrations[0].pod == "b_z2";
    StopsOnceFits(grow, f, 20.0, migrations);
    assert migrations == [migrations[0]];
  }

  /** Once the rest fits after the first pod, no second pod is taken. */
  lemma StopsOnceFits(grow: set<string>, f: string -> real, buffer: real, ms: seq<MigrationCmd>)
    requires StillOver(grow, f, buffer, ms)
    requires ms != [] && Total(grow - {ms[0].pod}, f) <= buffer
    ensures |ms| == 1
  {
    assert ms[..1] == [] + [ms[0]];
    PodsAppend([], ms[0]);
    assert Pods([]) == {};
    assert Pods(ms[..1]) == {ms[0].pod};
  }

  /** The first pod taken steepest first is at least as steep as every growing pod. */
  lemma SteepestHead(client: Client, node: string, grow: set<string>, ms: seq<MigrationCmd>, p: string)
    requires SteepestFirst(client, node, grow, ms)
    requires ms != [] && p in grow
    ensures SlopeOf(client, node, p).value <= SlopeOf(client, node, ms[0].pod).value
  {
    if p in Pods(ms) {
      var k :| 0 <= k < |ms| && ms[k].pod == p;
      if k > 0 {
        assert SlopeOf(client, node, ms[k].pod).value <= SlopeOf(client, node, ms[0].pod).value;
      }
    }
  }

  /** The scenario's growing pods and their predicted growth. */
  lemma SteepestTotals(client: Client, grow: set<string>, f: string -> real)
    requires SlopeOf(client, "z2", "a_z2") == Reply(2.0, false)
    requires SlopeOf(client, "z2", "b_z2") == Reply(5.0, false)
    requires grow == Growing(client, "z2", map["a_z2" := 30.0, "b_z2" := 40.0])
    requires f == Growth(client, "z2", 5.0)
    ensures grow == {"a_z2", "b_z2"}
    ensures Total(grow, f) == 35.0 && Total(grow - {"b_z2"}, f) == 10.0
  {
    assert grow == {"a_z2", "b_z2"};
    GrowthAt(client, "z2", 5.0, "a_z2");
    GrowthAt(client, "z2", 5.0, "b_z2");
    TotalRemove({"a_z2"}, f, "a_z2");
    assert {"a_z2"} - {"a_z2"} == {};
    TotalRemove(grow, f, "b_z2");
    assert grow - {"b_z2"} == {"a_z2"};
  }

  /** A batch without repeated pods names as many pods as it has commands. */
  lemma {:induction false} DistinctPodsCount(ms: seq<MigrationCmd>)
    requires DistinctPods(ms)
    ensures |Pods(ms)| == |ms|
    decreases |ms|
  {
    if ms != [] {
      var prefix, c := ms[..|ms| - 1], ms[|ms| - 1];
      assert ms == prefix + [c];
      forall k | 0 <= k < |prefix| ensures prefix[k].pod != c.pod {
        assert prefix[k] == ms[k];
      }
      DistinctPodsCount(prefix);
      PodsAppend(prefix, c);
    }
  }

  /** The growth the scenario predicts for w_z2 alone. */
  lemma ScenarioGrowth(client: Client)
    requires SlopeOf(client, "z2", "w_z2") == Reply(3.0, false)
    ensures Total({"w_z2"}, Growth(client, "z2", 5.0)) == 15.0
  {
    TotalRemove({"w_z2"}, Growth(client, "z2", 5.0), "w_z2");
    assert {"w_z2"} - {"w_z2"} == {};
    GrowthAt(client, "z2", 5.0, "w_z2");
  }
}

=== FILE: sums.dfy ===
/**
 * Order-independent sums over a set of names. Go accumulates sums while
 * ranging over a map, in an unspecified order; `Total` is the value every
 * such order produces.
 */
module Sums {

  ghost function Total(s: set<string>, f: string -> real): real
  {
    if s == {} then 0.0 else var x :| x in s; f(x) + Total(s - {x}, f)
  }

  /** Any element can be taken out first: the order of accumulation does not matter. */
  lemma {:induction false} TotalRemove(s: set<string>, f: string -> real, y: string)
    requires y in s
    ensures Total(s, f) == f(y) + Total(s - {y}, f)
    decreases |s|
  {
    var x :| x in s && Total(s, f) == f(x) + Total(s - {x}, f);
    if x != y {
      TotalRemove(s - {x}, f, y);
      TotalRemove(s - {y}, f, x);
      assert s - {x} - {y} == s - {y} - {x};
    }
  }

  /** Adding a fresh element to the accumulated set adds its term. */
  lemma TotalAdd(s: set<string>, f: string -> real, y: string)
    requires y !in s
    ensures Total(s + {y}, f) == Total(s, f) + f(y)
  {
    TotalRemove(s + {y}, f, y);
    assert s + {y} - {y} == s;
  }
}

=== FILE: types.dfy ===
/**
 * Values shared by every part of the decision engine: the relocation
 * command handed to the external executor, the free-capacity request of a
 * critical node, the errors the policies report, and the metrics client the
 * engine queries (modelled as plain data, never as I/O).
 */
module Types {

  datatype Option<+T> = None | Some(value: T)

  /** A pod (workload) name mapped to its memory usage in GB. */
  type PodMemMap = map<string, real>

  /** A node name mapped to its free-memory percentage. */
  type NodeFreeMemMap = map<string, real>

  /**
   * One relocation: move `pod`, which uses `usage` GB, to `newNode`.
   * `newNode` is "" until the destination validator fills it in.
   */
  datatype MigrationCmd = MigrationCmd(pod: string, usage: real, newNode: string)

  /** "Free at least `amount` GB on `node`." */
  datatype NodeFreeGbRequest = NodeFreeGbRequest(node: string, amount: real)

  /** The errors the policies and the controller return. */
  datatype Error =
    | ClientFailure                                   // an error reported by the metrics client
    | CheckerNotReady                                 // the admission checker is still cooling down
    | NoMigrationPod                                  // the knapsack selected nothing
    | RequestNotFulfilled(podMem: real, node: string, amount: real)
    | ProblemDuringRequest(cause: Error)              // a selection error wrapped by the controller
    | NodeFull(request: NodeFreeGbRequest, migrations: seq<MigrationCmd>)

  /**
   * A reply of the metrics client: Go returns a value together with an
   * error, and some call sites use the value while ignoring the error.
   */
  datatype Reply<+T> = Reply(value: T, failed: bool)

  /**
   * The metrics client (Clienter) as the data it would return. Each field
   * answers one query; the engine never performs I/O itself.
   */
  datatype Client = Client(
    freeMemoryOfNodes: NodeFreeMemMap,                   // GetFreeMemoryOfNodes (its error is always ignored)
    freeMemoryNode: string -> real,                      // GetFreeMemoryNode (its error is always ignored)
    podMemories: string -> Reply<PodMemMap>,             // GetPodMemories
    podMemorySlope: (string, string) -> Reply<real>,     // GetPodMemorySlope(node, pod), GB per minute
    runtimePercentage: string -> real,                   // GetRuntimePercentage
    executionTime: string -> int,                        // GetExecutionTime
    runtime: string -> int,                              // GetRuntime
    countMigrations: string -> Reply<nat>)               // PodMemMap.CountMigrations

  /** Go's `m[k]` on a map of floats: the zero value for a missing key. */
  function Lookup(m: map<string, real>, k: string): (r: real)
    ensures k in m ==> r == m[k]
    ensures k !in m ==> r == 0.0
  {
    if k in m then m[k] else 0.0
  }

  /** The set of pods named by a batch of commands. */
  function Pods(cmds: seq<MigrationCmd>): set<string>
  {
    set k | 0 <= k < |cmds| :: cmds[k].pod
  }

  /** No pod is named twice in the batch. */
  predicate DistinctPods(cmds: seq<MigrationCmd>)
  {
    forall j, k :: 0 <= j < k < |cmds| ==> cmds[j].pod != cmds[k].pod
  }

  /** `sub` is `s` with some elements left out, the rest in their order. */
  predicate IsSubsequence<T(==)>(sub: seq<T>, s: seq<T>)
  {
    if sub == [] then true
    else if s == [] then false
    else (sub[0] == s[0] && IsSubsequence(sub[1..], s[1..])) || IsSubsequence(sub, s[1..])
  }

  /** Go's conversion `int(x)` of a float: truncation toward zero. */
  function Trunc(x: real): (r: int)
    ensures x >= 0.0 ==> r as real <= x < r as real + 1.0
    ensures x < 0.0 ==> r as real - 1.0 < x <= r as real
  {
    if x >= 0.0 then x.Floor else -((-x).Floor)
  }

  /** Go's `math.Ceil` followed by a conversion to an integer. */
  function Ceil(x: real): (r: int)
    ensures r as real - 1.0 < x <= r as real
  {
    -((-x).Floor)
  }
}
